=== FILE: README.md ===
# Linux 0.11 scheduler, signals and file-descriptor core in Dafny

This project models, in Dafny, the central bookkeeping of the Linux 0.11
kernel, and proves properties of the model:

- **Scheduler** (`kernel/sched.c`). The modelled state is:
  - the 64-slot task table;
  - the current task and `jiffies`;
  - the wait cells that `sleep_on` and `wake_up` hand tasks through;
  - the 64-slot timer list.

  The operations are `schedule()` (alarm/wake-up pre-scan, counter scan and
  aging), `sys_pause`, `sleep_on`, `interruptible_sleep_on`, `wake_up`,
  `add_timer`, `do_timer`, `sys_alarm` and `sys_nice`.
- **Signals** (`kernel/signal.c`). The per-task dispositions and masks, the
  `sgetmask`/`ssetmask`/`signal`/`sigaction` system calls, and `do_signal`.
  `do_signal` rewrites the saved user context and writes a frame to the user
  stack that the C library's restorer later pops.
- **Files** (`fs/open.c`, `fs/read_write.c`, `fs/char_dev.c`):
  - descriptor and file-table slot allocation in `sys_open`, with rollback;
  - reference counting in `sys_close`;
  - the permission arithmetic of `sys_access` and `sys_chmod`;
  - the error paths of `sys_chdir` and `sys_chroot`;
  - position arithmetic in `sys_lseek`;
  - the guards, dispatch order and count clamp of `sys_read` and `sys_write`;
  - the character-device dispatch table, including the `/dev/port` loop.
- **Boot** (`init/main.c`). The memory layout computed from the BIOS
  extended-memory size, and the BCD decoding of the CMOS clock.

Each source file keeps its own form:

- State that the kernel updates in place is a class:
  - `Sched.Kernel`: a task array, the current slot, the wait cells, and a
    `Timers.TimerList` over an array of linked slots;
  - `Open.Files`: the descriptor table, the file table and the inode store;
  - `Boot.Layout`: the three layout globals.
- Every loop of the modelled code is a method with loop invariants, except
  the two copy/CMOS loops listed under "## Left out" (the byte copies of
  `get_new`/`save_old` and the CMOS re-read loop of `time_init`). Each
  method is proved against a specification function:
  - `SchedSpec` holds the scheduler's passes as functions on the task table;
  - `TimerSpec` holds the timer list as a list of (delta, callback) pairs;
  - `Signal` holds signal delivery as a pure function from disposition,
    mask, saved registers and user memory to an outcome.
- The lemmas state what the kernel relies on, among them:
  - `schedule()` picks the runnable task with the largest counter, ties
    going to the highest slot;
  - the `add_timer` insertion preserves deadlines for the new pair and the
    pairs in front of it;
  - delivering a signal and then popping its frame restores the interrupted
    context;
  - every `sys_open` failure leaves the tables as they were;
  - `sys_read` never reads past the end of a regular file.

Behaviour of the code that a reader might not expect is modelled as written,
and lemmas state it:

- `SchedSpec.KillAloneDoesNotWake`: a pending SIGKILL or SIGSTOP alone does
  not wake an interruptible sleeper.
- `SchedSpec.ScheduleChoosesBest`: aging is skipped when nothing is runnable.
- `TimerSpec.LaterDeadlinesShift`: `add_timer` does not take the new delay
  out of the following pair, so every later deadline moves back.
- `Signal.DeliveryCanBlockKill`: signal delivery may block SIGKILL.
- `Signal.MaskForSet`: `sys_ssetmask` clears SIGKILL's bit but not SIGSTOP's.
- `Open.GroupJudgedByOwnerBits`: `sys_access` judges a group member by the
  owner's bits.

Headers are not part of this model. The constants taken from the Linux 0.11
headers are:

- errno values;
- signal numbers, `SA_NOMASK` and `SA_ONESHOT`;
- `_BLOCKABLE`;
- `NR_OPEN` = 20, `NR_FILE` = 64, `NR_TASKS` = 64 and `HZ` = 100;
- the `S_IF*` file-type bits;
- `MAJOR`/`MINOR`.

## Model

| member | source | states |
|---|---|---|
| SchedSpec.ScanFrom | 0.11/kernel/sched.c:159-169 | when no counter is negative, the scan's (c, next) is the best runnable counter and the highest slot holding it, or (-1, 0) when no slot 1..63 is runnable |
| SchedSpec.ScanIdleIff | 0.11/kernel/sched.c:159-172 | the scan ends with c = -1 exactly when no slot 1..63 holds a runnable task |
| SchedSpec.BestFromUnique | 0.11/kernel/sched.c:164-169 | the best (counter, slot) pair is unique, so the strict `>` scan determines the choice, ties going to the highest slot |
| SchedSpec.AgeKeepsStates | 0.11/kernel/sched.c:173-176 | aging changes no task's state, keeps counters non-negative, and leaves every task in slots 1..63 with a positive counter |
| SchedSpec.Age | 0.11/kernel/sched.c:173-176 | the reference definition that Sched.Kernel.AgePass is proved equal to; the idle task 0 is not aged and the occupancy of every slot is kept |
| SchedSpec.AgedScanPositive | 0.11/kernel/sched.c:172-176 | when the best runnable counter is 0, the scan after one aging pass finds a positive counter, so the outer loop runs at most twice |
| SchedSpec.AgingBoundsCounter | 0.11/kernel/sched.c:175-176 | with priority > 0 and 0 <= counter <= 2*priority, the aged counter is positive and stays at most 2*priority |
| SchedSpec.PreScanKeepsCounters | 0.11/kernel/sched.c:136-154 | the pre-scan keeps every slot's occupancy and every counter non-negative |
| SchedSpec.PreScan | 0.11/kernel/sched.c:136-154 | the reference definition that Sched.Kernel.PreScanPass is proved equal to; the idle task 0 and the occupancy of every slot are left as they were |
| SchedSpec.PreScanAlarm | 0.11/kernel/sched.c:146-149 | an alarm that is set and strictly before jiffies raises SIGALRM and is cleared; otherwise signal and alarm are unchanged; counters, priorities, times, masks and dispositions never change |
| SchedSpec.PreScanWake | 0.11/kernel/sched.c:151-153 | a state changes only from interruptible to running, and it changes exactly when a signal other than SIGKILL/SIGSTOP is pending and not blocked |
| SchedSpec.KillAloneDoesNotWake | 0.11/kernel/sched.c:151-153 | an interruptible task whose only pending signal is SIGKILL or SIGSTOP stays asleep |
| SchedSpec.ScheduleChoosesBest | 0.11/kernel/sched.c:136-178 | aging happens exactly when the first scan's best counter is 0, and otherwise the table is the pre-scanned one; with nothing runnable, task 0 is chosen and no aging happens; otherwise the chosen task is runnable, has a positive counter no smaller than any runnable task's, and is strictly better than every runnable task in a higher slot |
| SchedSpec.ScheduleSpec | 0.11/kernel/sched.c:136-178 | the reference definition that Sched.Kernel.Schedule is proved equal to; the table keeps its size, task 0 and its occupancy, and the choice is task 0 or a runnable task |
| SchedSpec.PassesKeepTable | 0.11/kernel/sched.c:136-176 | the pre-scan and aging keep the table invariant (priority > 0, counter >= 0) and every slot's occupancy |
| SchedSpec.ScheduleKeepsTable | 0.11/kernel/sched.c:136-178 | schedule() keeps the table invariant and occupancy, and picks task 0 or a runnable task |
| SchedSpec.UninterruptibleNotChosen | 0.11/kernel/sched.c:151-169 | a task put to uninterruptible sleep is never the one schedule() chooses |
| SchedSpec.ChargeTickAccounts | 0.11/kernel/sched.c:360-363 | each tick adds exactly one to utime (cpl != 0) or stime (cpl == 0), the counter drops by one but not below 0, and nothing else in the task changes |
| SchedSpec.PreemptsIffExhausted | 0.11/kernel/sched.c:383-388 | do_timer reschedules exactly when the charged counter is 0 and the tick came from user mode |
| SchedSpec.DivHZ | 0.11/kernel/sched.c:399 | division by HZ truncates toward zero, for negative as well as non-negative numerators |
| SchedSpec.AlarmRoundTrip | 0.11/kernel/sched.c:396-401 | calling sys_alarm again at the same tick returns the seconds just set, or 0 after a clear |
| SchedSpec.AlarmLeftBounds | 0.11/kernel/sched.c:398-399 | a pending alarm reports the whole seconds left, rounded down |
| TimerSpec.LeadingDue | 0.11/kernel/sched.c:369 | the number of leading pairs whose delta is <= 0; the pair after them, if any, has a positive delta |
| TimerSpec.InsertShape | 0.11/kernel/sched.c:333-342 | add_timer's result is the old list with one pair inserted; every pair passed had a delta strictly below the delay remaining there; the pair after the new one has a delta at least the remaining delay |
| TimerSpec.InsertTimer | 0.11/kernel/sched.c:333-342 | the reference definition that Timers.TimerList.Bubble is proved to compute; the list grows by exactly one pair |
| TimerSpec.InsertKeepsCallbacks | 0.11/kernel/sched.c:328-342 | after insertion the callbacks are the old ones plus the new one, none lost or duplicated |
| TimerSpec.NewTimerDeadline | 0.11/kernel/sched.c:328-342 | the prefix sum of deltas through the new pair equals the requested delay |
| TimerSpec.LaterDeadlinesShift | 0.11/kernel/sched.c:333-342 | pairs before the new one keep their deadlines; every later pair keeps its delta, so its deadline moves back by the new pair's delta |
| TimerSpec.InsertKeepsPositive | 0.11/kernel/sched.c:320-342 | inserting a positive delay into a list of positive deltas keeps every delta positive |
| TimerSpec.TickFiresDue | 0.11/kernel/sched.c:367-377 | on a list of positive deltas, a tick fires the head exactly when its delta was 1, and every remaining deadline comes one tick closer |
| TimerSpec.Expire | 0.11/kernel/sched.c:367-377 | the reference definition that Timers.TimerList.Tick is proved to compute; an empty list fires nothing and stays empty |
| TimerSpec.ExpireKeepsCallbacks | 0.11/kernel/sched.c:369-376 | the callbacks fired, followed by those still pending, are the callbacks of the list before the tick, in order; the first pair left pending is not yet due |
| TimerSpec.LeadingDueUnique | 0.11/kernel/sched.c:369-376 | the expiry loop stops at the first pair with a positive delta |
| TimerSpec.RunKeepsCallbacks | 0.11/kernel/sched.c:367-377 | over any number of ticks in a row, the callbacks fired followed by those still pending are the callbacks of the list, in order |
| TimerSpec.RunPrefix | 0.11/kernel/sched.c:367-377 | the firing order of a run of ticks is a prefix of that of any longer run, so a fired callback keeps its place |
| TimerSpec.FiresAtDeadline | 0.11/kernel/sched.c:367-377 | on a list of positive deltas, entry k is fired on the tick of its deadline and on no other: every run shorter than the deadline fires at most the k callbacks ahead of it, and every run reaching it has fired entry k as the (k+1)-th callback |
| TimerSpec.AddTimerFiresOnTime | 0.11/kernel/sched.c:313-377 | after add_timer with a delay of j > 0 ticks, the new callback is not fired within j - 1 ticks and, from tick j on, has been fired exactly at its place in the firing order |
| Timers.TimerList.constructor | 0.11/kernel/sched.c:302-308 | at boot every slot is free and the list is empty |
| Timers.TimerList.AddTimer | 0.11/kernel/sched.c:313-345 | a NULL fn does nothing; a delay <= 0 calls fn at once; with every slot in use it panics with the list unchanged; otherwise the pending pairs become InsertTimer of the old ones |
| Timers.TimerList.FindFree | 0.11/kernel/sched.c:323-325 | returns the first slot whose fn is NULL, or 64 when every slot is in use |
| Timers.TimerList.Push | 0.11/kernel/sched.c:328-331 | the filled slot becomes the head and its pair is prepended to the pending pairs |
| Timers.TimerList.Bubble | 0.11/kernel/sched.c:333-342 | the swapping loop turns the pushed list into InsertTimer of the list before the push |
| Timers.TimerList.BubblePass | 0.11/kernel/sched.c:333-342 | one pass swaps the new pair one position back, the remaining delay losing the passed delta, and reports whether the loop test holds at the next slot |
| Timers.TimerList.NextIfSmaller | 0.11/kernel/sched.c:333 | the loop test holds exactly when a successor exists and its delta is strictly smaller |
| Timers.TimerList.SwapWithNext | 0.11/kernel/sched.c:334-341 | one loop step exchanges the two pairs, the moving pair losing its successor's delta |
| Timers.TimerList.Tick | 0.11/kernel/sched.c:367-377 | the pending pairs and the fired callbacks change exactly as Expire says |
| Timers.TimerList.DecrementHead | 0.11/kernel/sched.c:368 | only the head's delta drops, by exactly one |
| Timers.TimerList.ExpireDue | 0.11/kernel/sched.c:369-376 | the leading due pairs are removed and their callbacks fired, in list order |
| Timers.TimerList.PopHead | 0.11/kernel/sched.c:372-375 | the head pair is removed and its callback appended to the fired ones |
| Timers.TimerList.HeadDue | 0.11/kernel/sched.c:369 | true exactly when the list is non-empty and its head's delta is <= 0 |
| Sched.CellRoundTrip | 0.11/kernel/sched.c:196-200 | storing into a wait cell then reading gives the value back, and restoring the saved occupant gives back the original cells |
| Sched.ScheduleKeeps | 0.11/kernel/sched.c:127-179 | schedule() keeps the kernel invariant with the chosen task as current |
| Sched.Kernel.constructor | 0.11/kernel/sched.c:73-85 | the boot state holds only the running idle task in slot 0 as current, with no wait cells and no timers |
| Sched.Kernel.PreScanPass | 0.11/kernel/sched.c:136-154 | the loop leaves the table equal to PreScan of the old table |
| Sched.Kernel.ScanRunnable | 0.11/kernel/sched.c:158-169 | the loop returns ScanFrom's best runnable counter and slot |
| Sched.Kernel.AgePass | 0.11/kernel/sched.c:173-176 | the loop leaves the table equal to Age of the old table |
| Sched.Kernel.Schedule | 0.11/kernel/sched.c:127-179 | the new table and choice are ScheduleSpec's, current becomes the chosen task, and that task is runnable or the idle task |
| Sched.Kernel.SysPause | 0.11/kernel/sched.c:181-186 | the caller becomes interruptible, schedule() runs, and 0 is returned |
| Sched.Kernel.SleepOn | 0.11/kernel/sched.c:188-199 | a NULL cell does nothing; task 0 panics; otherwise the old occupant is saved, the cell names the caller, the caller sleeps uninterruptibly and another task runs |
| Sched.Kernel.SleepOnResume | 0.11/kernel/sched.c:200-202 | the cell gets back the saved occupant, which is made runnable |
| Sched.Kernel.InterruptibleSleepOn | 0.11/kernel/sched.c:205-216 | as SleepOn, with the caller sleeping interruptibly |
| Sched.Kernel.InterruptibleResume | 0.11/kernel/sched.c:217-223 | the caller sleeps again exactly when the cell names another task, which is woken; otherwise the cell gets back the saved occupant, which is made runnable |
| Sched.Kernel.WakeUp | 0.11/kernel/sched.c:226-232 | the occupant is made runnable and the cell emptied; a NULL or empty cell changes nothing |
| Sched.Kernel.DoTimer | 0.11/kernel/sched.c:349-389 | the tick is charged to the current task, the timer list advances as Expire says, and schedule() runs exactly when Preempts holds |
| Sched.Kernel.ChargeAndExpire | 0.11/kernel/sched.c:360-384 | the current task is charged as ChargeTick says, the timer list advances as Expire says, and the quantum is reported used up exactly when the counter would not stay positive |
| Sched.Kernel.AccountTick | 0.11/kernel/sched.c:360-363 | one tick of utime when cpl != 0, else of stime, on the current task only |
| Sched.Kernel.UseQuantum | 0.11/kernel/sched.c:383-384 | the counter drops by one; when it does not stay positive it is set to 0 and the quantum is reported expired |
| Sched.Kernel.SysAlarm | 0.11/kernel/sched.c:394-402 | returns AlarmLeft of the old alarm and sets AlarmFor the new one |
| Sched.Kernel.SysNice | 0.11/kernel/sched.c:442-447 | the priority drops only when it stays positive, so it is always positive afterwards; returns 0 |
| Sched.Kernel.SysSgetmask | 0.11/kernel/signal.c:16-19 | returns the current blocked mask and changes nothing |
| Sched.Kernel.SysSsetmask | 0.11/kernel/signal.c:22-28 | returns the old mask and stores the new one without SIGKILL's bit, so SIGKILL is never blocked afterwards |
| Sched.Kernel.SysSignal | 0.11/kernel/signal.c:56-72 | -1 with nothing changed for a signal outside 1..32 or SIGKILL; otherwise returns the previous handler and installs a one-shot, no-mask disposition in that slot alone |
| Sched.Kernel.SysSigaction | 0.11/kernel/signal.c:75-92 | -1 with nothing changed for a signal that cannot be caught; otherwise returns 0, hands back the old disposition only when asked, and installs the new one with its mask normalised |
| Sched.Kernel.DoSignalCurrent | 0.11/kernel/signal.c:101-148 | the outcome is DoSignal of the current disposition; on delivery the disposition and blocked mask it gives are written back, otherwise nothing changes |
| Signal.RaiseIncludes | 0.11/kernel/sched.c:147 | raising a signal sets its bit and keeps every bit already pending |
| Signal.UnblockableAloneIsNotPending | 0.11/kernel/sched.c:151 | a signal word holding only SIGKILL or only SIGSTOP never counts as an unblocked pending signal |
| Signal.MaskForSet | 0.11/kernel/signal.c:26 | the stored mask has SIGKILL's bit clear and agrees with newmask on every other bit |
| Signal.SignalAction | 0.11/kernel/signal.c:65-68 | the disposition sys_signal installs is one-shot and no-mask, with an empty mask and the given handler and restorer |
| Signal.NormalizeMask | 0.11/kernel/signal.c:87-90 | an SA_NOMASK disposition gets an empty mask, any other gets its own signal's bit added; handler, flags and restorer are kept |
| Signal.NormalizeMaskBlocksSelf | 0.11/kernel/signal.c:87-90 | without SA_NOMASK the normalised mask contains the signal itself and the mask given |
| Signal.FrameWords | 0.11/kernel/signal.c:132-146 | the frame is 7 words with SA_NOMASK and 8 without, as many as esp is lowered by |
| Signal.SentinelHandlers | 0.11/kernel/signal.c:112-121 | SIG_IGN changes nothing; SIG_DFL ignores SIGCHLD and terminates with code 1 << (signr-1) for every other signal; any other handler is delivered to |
| Signal.DoSignal | 0.11/kernel/signal.c:101-148 | the reference definition that Sched.Kernel.DoSignalCurrent applies; a handler is delivered to exactly when it is neither SIG_IGN nor SIG_DFL, and delivery resumes user mode at the handler |
| Signal.DeliveryContext | 0.11/kernel/signal.c:125-134 | on delivery eip becomes the handler, esp drops by exactly the frame, the disposition's mask joins blocked, and a one-shot disposition is reset to SIG_DFL |
| Signal.DeliveryFrame | 0.11/kernel/signal.c:137-146 | the frame words are restorer, signr, the old blocked mask (without SA_NOMASK only), eax, ecx, edx, eflags and the interrupted eip |
| Signal.DeliveryMemory | 0.11/kernel/signal.c:134-146 | after delivery the frame sits in user memory from the new esp, and no other word of user memory changes |
| Signal.PopFrameInverse | 0.11/kernel/signal.c:137-146 | popping the frame words gives back the interrupted registers and, without SA_NOMASK, the old mask |
| Signal.UnwindRestoresContext | 0.11/kernel/signal.c:131-147 | reading the frame back from user memory after delivery restores the interrupted context and, without SA_NOMASK, the old mask |
| Signal.OneShotSecondDeliveryIsDefault | 0.11/kernel/signal.c:114-126 | after a one-shot delivery, the next occurrence of the same signal takes the default path |
| Signal.PersistentHandlerRedelivers | 0.11/kernel/signal.c:125-131 | without SA_ONESHOT the handler stays installed and the next occurrence is delivered to it again |
| Signal.DeliveryCanBlockKill | 0.11/kernel/signal.c:147 | a disposition whose mask names SIGKILL leaves SIGKILL blocked while its handler runs |
| Open.CreateMode | 0.11/fs/open.c:154 | the creation mode keeps only permission bits that are set in mode and clear in umask, and every such bit |
| Open.ChmodMode | 0.11/fs/open.c:115-116 | the low 12 bits come from the new mode and the file-type bits above them are kept |
| Open.Access | 0.11/fs/open.c:47-73 | sys_access returns 0 or -EACCES |
| Open.AccessMeetsRule | 0.11/fs/open.c:52-72 | access is granted exactly when every requested bit is in the selected class, or when the caller is root and asks for no execute bit or some execute bit is set |
| Open.AccessExistence | 0.11/fs/open.c:51-62 | a request for no permission bit succeeds for every file found, whoever asks; a failed lookup is -EACCES |
| Open.AccessFewerBits | 0.11/fs/open.c:51-72 | a granted request stays granted when permission bits are dropped from it |
| Open.AccessMoreModeBits | 0.11/fs/open.c:54-72 | adding permission bits to a file never turns a granted access into -EACCES |
| Open.RootAccess | 0.11/fs/open.c:69-71 | uid 0 is granted every request without execute, and every request once the file has some execute bit |
| Open.GroupJudgedByOwnerBits | 0.11/fs/open.c:55-60 | a group member who is not the owner is judged by the owner's bits: granted on mode 0700, refused on 0070 |
| Open.ClearBit | 0.11/fs/open.c:161 | bit k is clear afterwards and every other bit is kept |
| Open.FirstNone | 0.11/fs/open.c:155-159 | the lowest free descriptor at or after `from`, or the table size when there is none |
| Open.FirstUnused | 0.11/fs/open.c:162-166 | the lowest file-table entry with count 0 at or after `from`, or the table size when there is none |
| Open.Files.FindFreeFd | 0.11/fs/open.c:155-159 | the loop returns the lowest free descriptor, or NR_OPEN |
| Open.Files.FindFreeFile | 0.11/fs/open.c:162-166 | the loop returns the lowest unused file-table entry, or NR_FILE |
| Open.Files.SysOpen | 0.11/fs/open.c:148-205 | with no free descriptor, -EINVAL and nothing changed; otherwise that descriptor's close-on-exec bit is cleared and the outcome is OpenedFrom's |
| Open.Files.OpenAt | 0.11/fs/open.c:162-205 | with no unused file entry, -EINVAL and the tables unchanged; a failed lookup or /dev/tty without a controlling terminal rolls both tables back; success installs an entry with count 1, position 0, the flags and the inode's mode, and returns the descriptor |
| Open.Files.CheckTty | 0.11/fs/open.c:181-195 | refuses exactly /dev/tty without a controlling terminal; a session leader without a terminal who opens a terminal acquires it and its foreground group |
| Open.Files.Complete | 0.11/fs/open.c:171-204 | from the reserved descriptor and entry, the outcome of the lookup is as Opened states |
| Open.Files.Reserve | 0.11/fs/open.c:170 | the descriptor names the entry and the entry's count goes up by one |
| Open.Files.Unreserve | 0.11/fs/open.c:172-173 | both tables are back to what they were before the reservation |
| Open.Files.Install | 0.11/fs/open.c:199-203 | only the chosen file-table entry is rewritten |
| Open.Files.SysClose | 0.11/fs/open.c:215-231 | -EINVAL for a descriptor >= NR_OPEN or an empty one (the close-on-exec bit is cleared even then); otherwise the slot is emptied, a count already 0 panics, the count drops by one, and the inode is released when it reaches 0 |
| Open.Files.SysChmod | 0.11/fs/open.c:105-119 | -ENOENT when no inode is found; -EACCES unless the caller owns the file or is the superuser; otherwise only the low 12 mode bits change and the inode is marked dirty; a found inode is always released |
| Open.Files.SysChdir | 0.11/fs/open.c:75-88 | -ENOENT when no inode is found; -ENOTDIR for a non-directory, which is released; otherwise it becomes the working directory and the old one is released |
| Open.Files.SysChroot | 0.11/fs/open.c:90-103 | as SysChdir, for the root directory |
| ReadWrite.SeekPos | 0.11/fs/read_write.c:35-52 | a new position exists exactly for origins 0, 1 and 2 whose target is not negative, and it is never negative |
| ReadWrite.IsSeekable | 0.11/fs/read_write.c:30-32 | the memory, floppy and hard-disk majors 1 to 3 can seek; major 0 and the terminal majors 4 and 5 cannot |
| ReadWrite.SeekRelations | 0.11/fs/read_write.c:35-52 | the new position is the offset, the old position plus the offset, or the size plus the offset, for origins 0, 1 and 2; an absolute seek to it lands in the same place, and a relative seek back returns to a non-negative starting position |
| ReadWrite.SeekNoMove | 0.11/fs/read_write.c:40-49 | a zero offset from the current position keeps it, and from the end reports the size |
| ReadWrite.SysLseek | 0.11/fs/read_write.c:25-53 | -EBADF for a bad descriptor, no inode or an unseekable device; -ESPIPE for a pipe; -EINVAL with f_pos unchanged for a bad origin or negative target; otherwise f_pos becomes the new position, which is returned |
| ReadWrite.SysRead | 0.11/fs/read_write.c:55-93 | -EINVAL for a bad descriptor or negative count; any transfer asks for between 1 and count bytes |
| ReadWrite.SysWrite | 0.11/fs/read_write.c:95-115 | -EINVAL for a bad descriptor or negative count; any transfer asks for exactly count > 0 bytes |
| ReadWrite.ZeroCountDoesNothing | 0.11/fs/read_write.c:63-66 | a zero count returns 0 without dispatching, for read and for write |
| ReadWrite.ReadOrder | 0.11/fs/read_write.c:70-92 | pipes come first (-EIO without read permission), then character devices, then block devices, then regular files and directories; any other type is -EINVAL |
| ReadWrite.ReadClamp | 0.11/fs/read_write.c:80-89 | file_read gets Min(count, size - pos) and never reads past i_size; 0 is returned without a call exactly when pos >= size |
| ReadWrite.WriteOrder | 0.11/fs/read_write.c:104-114 | dispatch in the same order with write permission for pipes; only regular files reach file_write, and a directory is -EINVAL |
| CharDev.RwTtyx | 0.11/fs/char_dev.c:25-29 | READ goes to tty_read and every other direction to tty_write, with the minor and count given |
| CharDev.RwTty | 0.11/fs/char_dev.c:33-40 | the request is -EPERM exactly when there is no controlling terminal; otherwise it goes to rw_ttyx on the controlling terminal, whatever the minor |
| CharDev.RwChar | 0.11/fs/char_dev.c:115-124 | a major beyond the table or with no entry is -ENODEV |
| CharDev.NoDeviceMajors | 0.11/fs/char_dev.c:99-124 | only majors 1, 4 and 5 reach a routine, and for a count that is not negative none of them returns -ENODEV |
| CharDev.TerminalRouting | 0.11/fs/char_dev.c:25-40 | major 4 reaches the terminal named by the minor; major 5 reaches the controlling terminal whatever the minor, or is -EPERM without one |
| CharDev.MemoryMinors | 0.11/fs/char_dev.c:80-96 | /dev/null reads 0 bytes and accepts every byte written; minor 4 is the port loop; every other minor is -EIO |
| CharDev.RwMemory | 0.11/fs/char_dev.c:80-96 | never reaches a terminal; only minor 4 reaches the port loop, with the request's direction, count and position; /dev/null reads 0 and takes the whole count on write; every other minor is -EIO |
| CharDev.PortCount | 0.11/fs/char_dev.c:65-74 | Min(count, 65536 - pos) when count > 0 and pos < 65536, else 0 |
| CharDev.PortCountBounds | 0.11/fs/char_dev.c:65-74 | the transfer never exceeds the count or passes port 65535, and is positive whenever there is something to do |
| CharDev.RwPort | 0.11/fs/char_dev.c:63-77 | returns PortCount, advances the position by exactly that, touches consecutive ports from pos one byte each, and hands back what inb read |
| Boot.MemoryEnd | 0.11/init/main.c:125-128 | memory_end is page-aligned, between 1 MiB and 16 MiB, at most 1 MiB plus the extended memory and less than a page below it unless capped |
| Boot.BufferEnd | 0.11/init/main.c:129-134 | buffer_memory_end is 1, 2 or 4 MiB |
| Boot.BufferShare | 0.11/init/main.c:129-134 | the buffer cache fits in memory, takes under a third of it above 6 MiB, and grows with memory |
| Boot.MainMemoryFits | 0.11/init/main.c:125-135 | for every extended-memory size, main memory starts page-aligned at or below memory_end |
| Boot.Layout.SizeMemory | 0.11/init/main.c:125-135 | the globals take MemoryEnd and BufferEnd, and 1 MiB <= main_memory_start <= memory_end <= 16 MiB |
| Boot.BcdRoundTrip | 0.11/init/main.c:81 | on a valid BCD byte the conversion gives 0..99 and is undone by encoding; decoding undoes encoding on 0..99 |
| Boot.BcdToBin | 0.11/init/main.c:81 | a valid BCD byte decodes to 0..99, and any byte to at most 165 |
| Boot.BcdNotInjective | 0.11/init/main.c:81 | off valid BCD the conversion is not one-to-one: 0x1A and 0x20 both read as 20 |
| Boot.MonthBytes | 0.11/init/main.c:99-101 | the valid BCD bytes that read as 1..12 are exactly the twelve month bytes |
| Boot.DecodeTime | 0.11/init/main.c:95-101 | each field is BCD-decoded, the month is made 0-based, and a month byte gives a month in 0..11 |

## Left out

- Context switching: `switch_to`, `math_state_restore` and `sched_init` are hardware set-up. schedule() returns the chosen slot and makes it current.
- Interrupt masking: `cli()`/`sti()` and the race between the timer interrupt and system calls are not modelled. Each operation is atomic.
- The `jiffies++` of the timer interrupt entry is outside `do_timer`. jiffies is a field that `DoTimer` takes as already advanced.
- The floppy motor timers (`ticks_to_floppy_on`, `floppy_on`, `floppy_off`, `do_floppy_timer`) and the beeper countdown in `do_timer` are device-driver bookkeeping, so they are not modelled.
- Timer callbacks are opaque identifiers recorded in firing order. A callback that calls `add_timer` while `do_timer` runs is not modelled.
- 32-bit overflow is not modelled:
  - `jiffies + HZ*seconds` in `sys_alarm`;
  - `f_pos + offset` and `i_size + offset` in `sys_lseek`;
  - the user stack pointer `esp - 4*longs` in `do_signal`, which is an unbounded integer and not a 32-bit address;
  - the counter arithmetic.
  The integers are unbounded. Signal words and masks are 32-bit.
- `SchedSpec.AlarmRoundTrip`: requires jiffies >= 0. For a negative jiffies the deadline `jiffies + HZ*seconds` can be 0, which the source reads as "no alarm".
- Code the model does not have is abstracted:
  - `verify_area`, `put_fs_long`, `get_fs_byte` and `put_fs_byte`: user memory is a map from address to word; `get_new`/`save_old` are a value copy in and an optional value out.
  - `do_exit`: becomes a `Terminate` outcome.
  - `panic`: becomes a returned flag or an `Outcome.Panic` value.
  - `namei`, `open_namei` and `suser`: are parameters.
  - `iput` and `check_disk_change`: are recorded as event logs.
- Not part of this model:
  - `read_pipe`/`write_pipe`, `block_read`/`block_write`, `file_read`/`file_write` and `tty_read`/`tty_write`: `sys_read`/`sys_write` and the terminal routines return which of them would be called and with what arguments. `sys_read`/`sys_write` return the character-device target too, rather than calling `rw_char`, which is modelled separately.
  - `inb`/`outb`: `/dev/port` gets a function for port reads and records each access as an event.
- `rw_ram`, `rw_mem` and `rw_kmem` only return -EIO in the source, and `Memory` models exactly that.
- `Open.Access` takes the inode found by `namei`, and the `iput` of `sys_access` is not recorded.
- `sys_creat`, `sys_ustat`, `sys_utime`, `sys_chown`, `sys_getpid` and the other small getters are outside the core.
- Inode modes are modelled as 32-bit words; the source's `unsigned short i_mode` is not modelled.
- `sys_read` and `sys_write` dereference the inode without a check, so their contracts require that an open descriptor's file has an inode.
- `printk` diagnostics, `show_task`/`show_stat` and the boot-time `printf` are not modelled.
- In `init/main.c`, `init()`, `move_to_user_mode` and the hardware `*_init` calls are not modelled. The RAM-disk adjustment of `main_memory_start` is not modelled either.
- The CMOS read loop of `time_init` is left out: `DecodeTime` takes the six register values. `kernel_mktime` is not part of this model.
- `Boot.DecodeTime`: states no ranges for the fields other than the month; `Boot.BcdRoundTrip` gives the 0..99 range for valid BCD bytes.
- `CharDev.NoDeviceMajors`: the direction "majors 1, 4 and 5 never give -ENODEV" is stated only for non-negative counts, because `/dev/null` echoes a write count of -19 (-ENODEV) back.
- `CharDev.RwChar`: its contract states only the -ENODEV direction; the routing of the other majors is in `CharDev.TerminalRouting` and `CharDev.MemoryMinors`.
- `Sched.Kernel.Valid` does not include the timer list's invariant. `DoTimer` requires and ensures `timers.Valid()` separately.

=== FILE: boot.dfy ===
/** Boot-time arithmetic of init/main.c: the memory layout main() computes
    from the extended-memory size the BIOS reported, and the BCD decoding of
    the CMOS clock in time_init. */
module Boot {
  const MiB := 1048576
  const PAGE := 4096

  /** memory_end for `extMemK` KiB of extended memory: the first MiB plus
      the extended memory, rounded down to a page boundary (the source's
      `&= 0xfffff000`, which on a value below 2^32 drops the low 12 bits)
      and capped at 16 MiB. */
  function MemoryEnd(extMemK: int): (m: int)
    requires 0 <= extMemK < 65536
    ensures m % PAGE == 0
    ensures MiB <= m <= 16 * MiB
    ensures m <= MiB + extMemK * 1024
    ensures m == 16 * MiB || MiB + extMemK * 1024 < m + PAGE
  {
    var total := MiB + extMemK * 1024;
    var rounded := total / PAGE * PAGE;
    if rounded > 16 * MiB then 16 * MiB else rounded
  }

  /** buffer_memory_end for a given memory_end: 4 MiB above 12 MiB of
      memory, 2 MiB above 6 MiB, 1 MiB otherwise. */
  function BufferEnd(memoryEnd: int): (b: int)
    ensures b == MiB || b == 2 * MiB || b == 4 * MiB
  {
    if memoryEnd > 12 * MiB then 4 * MiB
    else if memoryEnd > 6 * MiB then 2 * MiB
    else MiB
  }

  /** The buffer cache never ends past the end of memory once there is at
      least 1 MiB, takes less than a third of memory above 6 MiB, and grows
      with memory. */
  lemma BufferShare(m: int, m': int)
    ensures m >= MiB ==> BufferEnd(m) <= m
    ensures m > 6 * MiB ==> 3 * BufferEnd(m) < m
    ensures m <= m' ==> BufferEnd(m) <= BufferEnd(m')
  {
  }

  /** For every extended-memory size the BIOS can report, main memory
      starts on a page boundary at or below memory_end. */
  lemma MainMemoryFits(extMemK: int)
    requires 0 <= extMemK < 65536
    ensures var m := MemoryEnd(extMemK);
      BufferEnd(m) <= m && BufferEnd(m) % PAGE == 0
  {
    BufferShare(MemoryEnd(extMemK), MemoryEnd(extMemK));
  }

  /** The three layout globals main() sets (all 0 before it runs). */
  class Layout {
    var memoryEnd: int
    var bufferMemoryEnd: int
    var mainMemoryStart: int

    constructor ()
      ensures memoryEnd == 0 && bufferMemoryEnd == 0 && mainMemoryStart == 0
    {
      memoryEnd := 0;
      bufferMemoryEnd := 0;
      mainMemoryStart := 0;
    }

    /** The layout computation of main(), without a RAM disk, for
        EXT_MEM_K = extMemK (an unsigned short). */
    method SizeMemory(extMemK: int)
      requires 0 <= extMemK < 65536
      modifies this
      ensures memoryEnd == MemoryEnd(extMemK)
      ensures bufferMemoryEnd == BufferEnd(memoryEnd)
      ensures mainMemoryStart == bufferMemoryEnd
      ensures MiB <= mainMemoryStart <= memoryEnd <= 16 * MiB
    {
      memoryEnd := MiB + extMemK * 1024;
      memoryEnd := memoryEnd / PAGE * PAGE;
      if memoryEnd > 16 * MiB {
        memoryEnd := 16 * MiB;
      }
      if memoryEnd > 12 * MiB {
        bufferMemoryEnd := 4 * MiB;
      } else if memoryEnd > 6 * MiB {
        bufferMemoryEnd := 2 * MiB;
      } else {
        bufferMemoryEnd := MiB;
      }
      mainMemoryStart := bufferMemoryEnd;
      MainMemoryFits(extMemK);
    }
  }

  // ------------------------------------------------------------------- clock

  /** BCD_TO_BIN: `(val & 15) + (val >> 4) * 10`. For any int the low
      nibble is the Euclidean remainder by 16 and the arithmetic shift the
      Euclidean quotient, so this is exact for negative values too. */
  function BcdToBin(v: int): (r: int)
    ensures ValidBcd(v) ==> 0 <= r <= 99
    ensures 0 <= v < 256 ==> 0 <= r <= 165
  {
    v % 16 + v / 16 * 10
  }

  /** A byte both of whose nibbles are decimal digits. */
  predicate ValidBcd(v: int)
  {
    0 <= v < 256 && v % 16 <= 9 && v / 16 <= 9
  }

  /** The BCD byte for 0 to 99. */
  function BinToBcd(n: int): (v: int)
    requires 0 <= n <= 99
    ensures ValidBcd(v)
  {
    n / 10 * 16 + n % 10
  }

  /** On valid BCD bytes the conversion yields 0 to 99 and is undone by
      BinToBcd; on 0 to 99 BinToBcd is undone by the conversion. */
  lemma BcdRoundTrip(v: int, n: int)
    ensures ValidBcd(v) ==> 0 <= BcdToBin(v) <= 99 && BinToBcd(BcdToBin(v)) == v
    ensures 0 <= n <= 99 ==> BcdToBin(BinToBcd(n)) == n
  {
    if ValidBcd(v) {
      var lo, hi := v % 16, v / 16;
      assert v == hi * 16 + lo;
      assert BcdToBin(v) == hi * 10 + lo;
      assert (hi * 10 + lo) / 10 == hi && (hi * 10 + lo) % 10 == lo;
    }
    if 0 <= n <= 99 {
      var t, u := n / 10, n % 10;
      assert BinToBcd(n) == t * 16 + u;
      assert (t * 16 + u) % 16 == u && (t * 16 + u) / 16 == t;
    }
  }

  /** Off valid BCD the conversion is not one-to-one: 0x1A and 0x20 both
      come out as 20. */
  lemma BcdNotInjective()
    ensures BcdToBin(0x1A) == BcdToBin(0x20) == 20
  {
  }

  /** The BCD bytes of the months January to December. */
  const MONTH_BYTES: set<int> := {0x01, 0x02, 0x03, 0x04, 0x05, 0x06, 0x07, 0x08, 0x09, 0x10, 0x11, 0x12}

  /** The valid BCD bytes that read as 1 to 12 are exactly the twelve
      month bytes. */
  lemma MonthBytes(v: int)
    ensures ValidBcd(v) && 1 <= BcdToBin(v) <= 12 <==> v in MONTH_BYTES
  {
    if ValidBcd(v) {
      var lo, hi := v % 16, v / 16;
      assert v == hi * 16 + lo;
      assert BcdToBin(v) == hi * 10 + lo;
      if hi >= 2 {
        assert BcdToBin(v) >= 20;
      }
    }
  }

  /** The `struct tm` fields time_init fills. */
  datatype Tm = Tm(sec: int, min: int, hour: int, mday: int, mon: int, year: int)

  /** time_init after the CMOS registers have been read into `raw`:
      each field converted from BCD in place, then the month made 0-based
      for kernel_mktime. */
  method DecodeTime(raw: Tm) returns (time: Tm)
    ensures time.sec == BcdToBin(raw.sec) && time.min == BcdToBin(raw.min)
    ensures time.hour == BcdToBin(raw.hour) && time.mday == BcdToBin(raw.mday)
    ensures time.year == BcdToBin(raw.year)
    ensures time.mon == BcdToBin(raw.mon) - 1
    ensures raw.mon in MONTH_BYTES ==> 0 <= time.mon <= 11
  {
    time := raw;
    time := time.(sec := BcdToBin(time.sec));
    time := time.(min := BcdToBin(time.min));
    time := time.(hour := BcdToBin(time.hour));
    time := time.(mday := BcdToBin(time.mday));
    time := time.(mon := BcdToBin(time.mon));
    time := time.(year := BcdToBin(time.year));
    time := time.(mon := time.mon - 1);
    MonthBytes(raw.mon);
  }
}

=== FILE: char_dev.dfy ===
/** Character-device dispatch of fs/char_dev.c.

    rw_char looks the major number up in an eight-entry table and calls the
    routine found there with the minor number. The terminal routines end in
    tty_read or tty_write, which are not part of this model: the dispatch
    functions return which of them would be called and with what. The port
    device (/dev/port, major 1 minor 4) is the one routine that does work
    of its own: a loop over consecutive I/O ports, modelled as a method that
    records each inb/outb as an event. */
module CharDev {
  import opened Common

  /** What a character-device request comes to: a value returned at once,
      a call of tty_read or tty_write on a terminal minor, or a transfer
      through the port loop. */
  datatype CharOp =
    | Done(n: int)
    | TtyRead(minor: int, count: int)
    | TtyWrite(minor: int, count: int)
    | PortRw(rw: int, count: int, pos: int)

  /** The routines of crw_table. */
  datatype Driver = Memory | Ttyx | Tty

  /** crw_table: /dev/mem and friends at major 1, the serial and console
      terminals at major 4, the controlling terminal at major 5; majors 0,
      2, 3, 6 and 7 have no character routine. */
  const CRW_TABLE: seq<Option<Driver>> :=
    [None, Some(Memory), None, None, Some(Ttyx), Some(Tty), None, None]

  /** rw_ttyx: READ goes to tty_read, any other direction to tty_write. */
  function RwTtyx(rw: int, minor: int, count: int): (op: CharOp)
    ensures rw == READ <==> op == TtyRead(minor, count)
    ensures rw != READ <==> op == TtyWrite(minor, count)
  {
    if rw == READ then TtyRead(minor, count) else TtyWrite(minor, count)
  }

  /** rw_tty, /dev/tty: the request goes to the caller's controlling
      terminal `tty`, whatever minor it came with; with no controlling
      terminal it is refused. */
  function RwTty(rw: int, minor: int, count: int, tty: int): (op: CharOp)
    ensures tty < 0 <==> op == Done(-EPERM)
    ensures tty >= 0 ==> op == RwTtyx(rw, tty, count) && (op.TtyRead? || op.TtyWrite?) && op.minor == tty
  {
    if tty < 0 then Done(-EPERM) else RwTtyx(rw, tty, count)
  }

  /** rw_memory: minors 0 to 2 (ram, mem, kmem) are not implemented and
      give -EIO, as does any minor above 4; minor 3 is the null device,
      which reads nothing and swallows every write; minor 4 is the port
      device. */
  function RwMemory(rw: int, minor: int, count: int, pos: int): (op: CharOp)
    ensures !op.TtyRead? && !op.TtyWrite?
    ensures op.PortRw? <==> minor == 4
    ensures op.PortRw? ==> op == PortRw(rw, count, pos)
    ensures minor != 3 && minor != 4 ==> op == Done(-EIO)
    ensures minor == 3 && rw == READ ==> op == Done(0)
    ensures minor == 3 && rw != READ ==> op == Done(count)
  {
    if minor == 0 || minor == 1 || minor == 2 then Done(-EIO)
    else if minor == 3 then Done(if rw == READ then 0 else count)
    else if minor == 4 then PortRw(rw, count, pos)
    else Done(-EIO)
  }

  /** rw_char(rw, dev, buf, count, pos) for a caller whose controlling
      terminal is `tty`. */
  function RwChar(rw: int, dev: int, count: int, pos: int, tty: int): (op: CharOp)
    ensures Major(dev) >= |CRW_TABLE| || CRW_TABLE[Major(dev)].None? ==> op == Done(-ENODEV)
  {
    var major := Major(dev);
    if major >= |CRW_TABLE| then Done(-ENODEV)
    else match CRW_TABLE[major]
      case None => Done(-ENODEV)
      case Some(Memory) => RwMemory(rw, Minor(dev), count, pos)
      case Some(Ttyx) => RwTtyx(rw, Minor(dev), count)
      case Some(Tty) => RwTty(rw, Minor(dev), count, tty)
  }

  /** Only majors 1, 4 and 5 reach a routine; every other major is
      -ENODEV, and for a count that is not negative (as sys_read and
      sys_write pass) no routine returns -ENODEV itself. */
  lemma NoDeviceMajors(rw: int, dev: int, count: int, pos: int, tty: int)
    ensures Major(dev) !in {1, 4, 5} ==> RwChar(rw, dev, count, pos, tty) == Done(-ENODEV)
    ensures count >= 0 && Major(dev) in {1, 4, 5} ==> RwChar(rw, dev, count, pos, tty) != Done(-ENODEV)
  {
  }

  /** Major 4 reaches the terminal named by the minor number; major 5
      reaches the caller's controlling terminal and ignores the minor, and
      is -EPERM without one. */
  lemma TerminalRouting(rw: int, dev: int, count: int, pos: int, tty: int)
    ensures Major(dev) == 4 ==>
      RwChar(rw, dev, count, pos, tty) == (if rw == READ then TtyRead(Minor(dev), count) else TtyWrite(Minor(dev), count))
    ensures Major(dev) == 5 && tty < 0 ==> RwChar(rw, dev, count, pos, tty) == Done(-EPERM)
    ensures Major(dev) == 5 && tty >= 0 ==>
      RwChar(rw, dev, count, pos, tty) == (if rw == READ then TtyRead(tty, count) else TtyWrite(tty, count))
  {
  }

  /** /dev/null (major 1, minor 3) reads 0 bytes and accepts every byte
      written; /dev/port (minor 4) goes through the port loop; every other
      minor of major 1 is -EIO. */
  lemma MemoryMinors(rw: int, dev: int, count: int, pos: int, tty: int)
    requires Major(dev) == 1
    ensures Minor(dev) == 3 ==> RwChar(rw, dev, count, pos, tty) == Done(if rw == READ then 0 else count)
    ensures Minor(dev) == 4 ==> RwChar(rw, dev, count, pos, tty) == PortRw(rw, count, pos)
    ensures Minor(dev) !in {3, 4} ==> RwChar(rw, dev, count, pos, tty) == Done(-EIO)
  {
  }

  // ------------------------------------------------------------------ rw_port

  /** One access to an I/O port: an inb that read from `port`, or an outb
      that wrote `value` to it. */
  datatype PortIo = In(port: int) | Out(port: int, value: bv8)

  /** The number of bytes rw_port transfers: none for a count that is not
      positive or a start beyond the 64K port space, otherwise as many as
      are asked for and fit below port 65536. */
  function PortCount(count: int, pos: int): (n: int)
    ensures 0 <= n
    ensures count > 0 && pos < 65536 ==> n == Min(count, 65536 - pos)
    ensures count <= 0 || pos >= 65536 ==> n == 0
  {
    if count > 0 && pos < 65536 then Min(count, 65536 - pos) else 0
  }

  /** The transfer never exceeds the count, never goes past the last port
      and is positive whenever there is something to do. */
  lemma PortCountBounds(count: int, pos: int)
    ensures PortCount(count, pos) <= count || count <= 0
    ensures PortCount(count, pos) > 0 ==> pos + PortCount(count, pos) <= 65536
    ensures count > 0 && pos < 65536 ==> PortCount(count, pos) > 0
  {
  }

  /** rw_port(rw, buf, count, pos): reads (READ) or writes one byte per
      port, at ports pos, pos+1, ... . `buf` holds the bytes a write takes
      from user space; `inb` gives what reading a port returns. Returns the
      number of bytes moved, the position advanced by that many, the port
      accesses in order, and (READ) the bytes stored to user space. */
  method RwPort(rw: int, buf: seq<bv8>, count: int, pos: int, inb: int -> bv8)
    returns (r: int, newPos: int, io: seq<PortIo>, data: seq<bv8>)
    requires rw != READ ==> |buf| >= PortCount(count, pos)
    ensures r == PortCount(count, pos)
    ensures newPos == pos + r
    ensures |io| == r
    ensures forall k :: 0 <= k < r ==> io[k] == (if rw == READ then In(pos + k) else Out(pos + k, buf[k]))
    ensures rw == READ ==> |data| == r && forall k :: 0 <= k < r ==> data[k] == inb(pos + k)
    ensures rw != READ ==> data == []
  {
    var i := pos;
    var left := count;
    io, data := [], [];
    // The source's `count-- > 0 && i < 65536`: the count is taken down
    // once per byte moved.
    while left > 0 && i < 65536
      invariant pos <= i <= pos + PortCount(count, pos)
      invariant left == count - (i - pos)
      invariant |io| == i - pos
      invariant forall k :: 0 <= k < i - pos ==> io[k] == (if rw == READ then In(pos + k) else Out(pos + k, buf[k]))
      invariant rw == READ ==> |data| == i - pos && forall k :: 0 <= k < i - pos ==> data[k] == inb(pos + k)
      invariant rw != READ ==> data == []
      decreases 65536 - i
    {
      left := left - 1;
      if rw == READ {
        data := data + [inb(i)];
        io := io + [In(i)];
      } else {
        io := io + [Out(i, buf[i - pos])];
      }
      i := i + 1;
    }
    r := i - pos;
    newPos := pos + r;
  }
}

=== FILE: common.dfy ===
/** Small definitions shared by every part of the kernel model: an optional
    value, a possibly panicking outcome and the error numbers of Linux 0.11's <errno.h> that the modelled calls return. */
module Common {

  datatype Option<+T> = None | Some(value: T)

  /** The result of a kernel routine that may call panic(), which halts the
      machine instead of returning. */
  datatype Outcome<+T> = Returns(value: T) | Panic

  function Min(a: int, b: int): (m: int)
    ensures m <= a && m <= b && (m == a || m == b)
  {
    if a <= b then a else b
  }

  /** `1 << k` in a 32-bit word, built one shift at a time so that no
      integer is converted to a bit-vector. */
  function BitMask(k: int): bv32
    requires 0 <= k < 32
  {
    if k == 0 then 1 else BitMask(k - 1) << 1
  }

  /** MAJOR(dev), `((unsigned) dev) >> 8`: the 32-bit unsigned view of dev,
      shifted. */
  function Major(dev: int): (m: int)
    ensures 0 <= dev < 0x1_0000_0000 ==> m == dev / 256
    ensures 0 <= m < 0x100_0000
  {
    (dev % 0x1_0000_0000) / 256
  }

  /** MINOR(dev), `dev & 0xff`. */
  function Minor(dev: int): (m: int)
    ensures 0 <= m < 256
  {
    dev % 256
  }

  /** A device number is its major number times 256 plus its minor. */
  lemma MajorMinor(dev: int)
    requires 0 <= dev < 0x1_0000_0000
    ensures dev == Major(dev) * 256 + Minor(dev)
  {
  }

  // The direction argument of the device routines, as <linux/fs.h>
  // defines it.
  const READ := 0
  const WRITE := 1

  // Error numbers, as <errno.h> of Linux 0.11 defines them.
  const EPERM := 1
  const ENOENT := 2
  const EIO := 5
  const EBADF := 9
  const EACCES := 13
  const ENODEV := 19
  const ENOTDIR := 20
  const EINVAL := 22
  const ESPIPE := 29
}

=== FILE: open.dfy ===
/** File-descriptor and file-table management of fs/open.c.

    The calling process's descriptor table `filp[NR_OPEN]` holds indices
    into the system-wide `file_table[NR_FILE]`; a free table entry is one
    whose reference count is 0. Inodes are records in a map keyed by an
    opaque id. Path lookup (namei, open_namei) and the superuser test are
    inputs of the calls, and the collaborators with an effect the model
    keeps (iput, check_disk_change) are recorded in order in `iputs` and
    `diskChecks`. */
module Open {
  import opened Common

  const NR_OPEN := 20
  const NR_FILE := 64

  // File-type bits of i_mode, as <sys/stat.h> defines them (octal 0170000,
  // 0100000, 0060000, 0040000, 0020000).
  const S_IFMT: bv32 := 0xF000
  const S_IFREG: bv32 := 0x8000
  const S_IFBLK: bv32 := 0x6000
  const S_IFDIR: bv32 := 0x4000
  const S_IFCHR: bv32 := 0x2000

  predicate IsReg(mode: bv32) { mode & S_IFMT == S_IFREG }
  predicate IsBlk(mode: bv32) { mode & S_IFMT == S_IFBLK }
  predicate IsDir(mode: bv32) { mode & S_IFMT == S_IFDIR }
  predicate IsChr(mode: bv32) { mode & S_IFMT == S_IFCHR }

  type InodeId = nat

  /** The fields of `struct m_inode` the modelled calls read or write. For a
      device file, zone0 (`i_zone[0]`) is the device number; dev (`i_dev`)
      is the device holding the inode. */
  datatype Inode = Inode(mode: bv32, uid: int, gid: int, zone0: int, dev: int,
                         pipe: bool, size: int, dirt: bool)

  /** `struct file`. */
  datatype File = File(mode: bv32, flags: int, count: int, inode: Option<InodeId>, pos: int)

  /** The result of open_namei: a negative error code, or the inode found
      (or created). */
  datatype Lookup = Failed(code: int) | Found(id: InodeId)

  // ---------------------------------------------------------- permission bits

  /** The creation mode sys_open passes down: `mode & 0777 & ~umask`. */
  function CreateMode(mode: bv32, umask: bv32): (m: bv32)
    ensures m & !0x1FF == 0 && m & umask == 0 && m & !mode == 0
    ensures m | umask | !0x1FF == mode | umask | !0x1FF
  {
    mode & 0x1FF & !umask
  }

  /** sys_chmod's new i_mode: the low 12 bits (permissions, set-id, sticky)
      from `mode`, the file type from the old i_mode. */
  function ChmodMode(imode: bv32, mode: bv32): (m: bv32)
    ensures m & 0xFFF == mode & 0xFFF
    ensures m & !0xFFF == imode & !0xFFF
  {
    (mode & 0xFFF) | (imode & !0xFFF)
  }

  /** sys_access(filename, mode) for the inode namei found (None when the
      lookup failed) and the caller's real uid and gid. */
  function Access(mode: bv32, inode: Option<Inode>, uid: int, gid: int): (r: int)
    ensures r == 0 || r == -EACCES
  {
    var m := mode & 7;
    if inode.None? then -EACCES
    else
      var imode := inode.value.mode & 0x1FF;
      var res := if uid == inode.value.uid then imode >> 6
                 else if gid == inode.value.gid then imode >> 6
                 else imode;
      if res & 7 & m == m then 0
      else if uid == 0 && (m & 1 == 0 || imode & 0x49 != 0) then 0
      else -EACCES
  }

  /** Requested permission `bit` is either not requested or granted. */
  predicate Allows(requested: bv32, granted: bv32, bit: bv32)
  {
    requested & bit != 0 ==> granted & bit != 0
  }

  /** sys_access's rule stated bit by bit: the caller is judged by the owner
      triple when its uid matches the owner, and (as written) also when only
      its gid matches the inode's group; by the "other" triple otherwise.
      Each requested bit of read (4), write (2) and execute (1) must be
      granted, except that uid 0 is allowed anything unless it asks for
      execute on a file with no execute bit at all. */
  predicate AccessRule(mode: bv32, inode: Inode, uid: int, gid: int)
  {
    var m := mode & 7;
    var imode := inode.mode & 0x1FF;
    var triple := if uid == inode.uid || gid == inode.gid then (imode >> 6) & 7 else imode & 7;
    || (Allows(m, triple, 4) && Allows(m, triple, 2) && Allows(m, triple, 1))
    || (uid == 0 && (m & 1 == 0 || imode & 0x49 != 0))
  }

  /** sys_access returns 0 exactly when the bitwise rule allows the access. */
  lemma AccessMeetsRule(mode: bv32, inode: Inode, uid: int, gid: int)
    ensures Access(mode, Some(inode), uid, gid) == 0 <==> AccessRule(mode, inode, uid, gid)
  {
  }

  /** Asking for no permission (F_OK) succeeds for every file that exists,
      whoever asks; a failed lookup is always -EACCES. */
  lemma AccessExistence(mode: bv32, inode: Option<Inode>, uid: int, gid: int)
    ensures mode & 7 == 0 && inode.Some? ==> Access(mode, inode, uid, gid) == 0
    ensures inode.None? ==> Access(mode, inode, uid, gid) == -EACCES
  {
  }

  /** Dropping permissions from a granted request keeps it granted: when
      the request bits of `fewer` are among those of `mode`, access for
      `mode` implies access for `fewer`. */
  lemma AccessFewerBits(mode: bv32, fewer: bv32, inode: Inode, uid: int, gid: int)
    requires fewer & 7 & !(mode & 7) == 0
    ensures Access(mode, Some(inode), uid, gid) == 0 ==> Access(fewer, Some(inode), uid, gid) == 0
  {
  }

  /** Adding permission bits to a file never takes away an access it
      allowed. */
  lemma AccessMoreModeBits(mode: bv32, inode: Inode, extra: bv32, uid: int, gid: int)
    ensures Access(mode, Some(inode), uid, gid) == 0 ==>
      Access(mode, Some(inode.(mode := inode.mode | extra)), uid, gid) == 0
  {
  }

  /** The superuser is granted every request without execute, whatever the
      file's mode, and every request at all once some execute bit of the
      file is set. */
  lemma RootAccess(mode: bv32, inode: Inode, gid: int)
    ensures mode & 1 == 0 ==> Access(mode, Some(inode), 0, gid) == 0
    ensures inode.mode & 0x49 != 0 ==> Access(mode, Some(inode), 0, gid) == 0
  {
  }

  /** As written, a caller that is only in the file's group is judged by the
      owner's bits: mode 0700 grants it read, write and execute, while mode
      0070 grants it nothing (uid not 0). */
  lemma GroupJudgedByOwnerBits(inode: Inode, uid: int, gid: int)
    requires uid != inode.uid && gid == inode.gid && uid != 0
    ensures inode.mode & 0x1FF == 0x1C0 ==> Access(7, Some(inode), uid, gid) == 0
    ensures inode.mode & 0x1FF == 0x38 ==> Access(4, Some(inode), uid, gid) == -EACCES
  {
  }

  /** The close-on-exec word with descriptor k's bit cleared and every
      other bit kept. */
  function ClearBit(w: bv32, k: int): (r: bv32)
    requires 0 <= k < 32
    ensures r & BitMask(k) == 0
    ensures r | BitMask(k) == w | BitMask(k)
  {
    w & !BitMask(k)
  }

  // ------------------------------------------------------------ free slots

  /** The first slot at or after `from` that is NULL, or |s| if none is. */
  function FirstNone(s: seq<Option<nat>>, from: nat): (k: nat)
    requires from <= |s|
    ensures from <= k <= |s|
    ensures forall j :: from <= j < k ==> s[j].Some?
    ensures k < |s| ==> s[k].None?
    decreases |s| - from
  {
    if from == |s| || s[from].None? then from else FirstNone(s, from + 1)
  }

  /** The first file-table entry at or after `from` whose count is 0, or |s|
      if none is. */
  function FirstUnused(s: seq<File>, from: nat): (k: nat)
    requires from <= |s|
    ensures from <= k <= |s|
    ensures forall j :: from <= j < k ==> s[j].count != 0
    ensures k < |s| ==> s[k].count == 0
    decreases |s| - from
  {
    if from == |s| || s[from].count == 0 then from else FirstUnused(s, from + 1)
  }

  /** Every open descriptor names a file-table entry and every file-table
      entry in use names a known inode. */
  ghost predicate TablesOk(fds: seq<Option<nat>>, files: seq<File>, inodes: map<InodeId, Inode>)
  {
    && (forall fd :: 0 <= fd < |fds| && fds[fd].Some? ==> fds[fd].value < |files|)
    && (forall i :: 0 <= i < |files| && files[i].inode.Some? ==> files[i].inode.value in inodes)
  }

  /** Clearing a descriptor or installing one that names an entry keeps
      the tables consistent. */
  lemma SetFdKeeps(fds: seq<Option<nat>>, files: seq<File>, inodes: map<InodeId, Inode>, fd: nat, v: Option<nat>)
    requires TablesOk(fds, files, inodes) && fd < |fds|
    requires v.Some? ==> v.value < |files|
    ensures TablesOk(fds[fd := v], files, inodes)
  {
  }

  /** Updating a file-table entry so that it names a known inode (or none)
      keeps the tables consistent. */
  lemma SetFileKeeps(fds: seq<Option<nat>>, files: seq<File>, inodes: map<InodeId, Inode>, i: nat, f: File)
    requires TablesOk(fds, files, inodes) && i < |files|
    requires f.inode.Some? ==> f.inode.value in inodes
    ensures TablesOk(fds, files[i := f], inodes)
  {
  }

  class Files {
    const filp: array<Option<nat>>
    var closeOnExec: bv32
    const fileTable: array<File>
    var inodes: map<InodeId, Inode>
    var umask: bv32
    var uid: int
    var euid: int
    var gid: int
    var leader: bool
    var tty: int
    var pgrp: int
    var pwd: InodeId
    var root: InodeId
    /** `tty_table[n].pgrp` for the terminals the model has touched. */
    var ttyPgrp: map<int, int>
    /** The inodes released by iput, in order. */
    var iputs: seq<InodeId>
    /** The devices passed to check_disk_change, in order. */
    var diskChecks: seq<int>

    ghost predicate Valid()
      reads this, filp, fileTable
    {
      filp.Length == NR_OPEN && fileTable.Length == NR_FILE && TablesOk(filp[..], fileTable[..], inodes)
    }

    /** A process with no open files, over a free file table. */
    constructor (inodes: map<InodeId, Inode>, umask: bv32, uid: int, euid: int, gid: int,
                 leader: bool, tty: int, pgrp: int, pwd: InodeId, root: InodeId)
      ensures Valid()
      ensures forall fd :: 0 <= fd < NR_OPEN ==> filp[fd].None?
      ensures forall i :: 0 <= i < NR_FILE ==> fileTable[i] == File(0, 0, 0, None, 0)
      ensures this.inodes == inodes && this.umask == umask && this.uid == uid && this.euid == euid
      ensures this.gid == gid && this.leader == leader && this.tty == tty && this.pgrp == pgrp
      ensures this.pwd == pwd && this.root == root && closeOnExec == 0
      ensures ttyPgrp == map[] && iputs == [] && diskChecks == []
    {
      filp := new Option<nat>[NR_OPEN](_ => None);
      fileTable := new File[NR_FILE](_ => File(0, 0, 0, None, 0));
      closeOnExec := 0;
      this.inodes := inodes;
      this.umask := umask;
      this.uid := uid;
      this.euid := euid;
      this.gid := gid;
      this.leader := leader;
      this.tty := tty;
      this.pgrp := pgrp;
      this.pwd := pwd;
      this.root := root;
      ttyPgrp := map[];
      iputs := [];
      diskChecks := [];
    }

    /** The descriptor search of sys_open: the lowest fd whose slot is NULL,
        or NR_OPEN. */
    method FindFreeFd() returns (fd: int)
      requires Valid()
      ensures fd == FirstNone(filp[..], 0)
    {
      fd := 0;
      while fd < NR_OPEN && filp[fd].Some?
        invariant 0 <= fd <= NR_OPEN
        invariant FirstNone(filp[..], fd) == FirstNone(filp[..], 0)
      {
        fd := fd + 1;
      }
    }

    /** The file-table search of sys_open: the lowest entry whose count is
        0, or NR_FILE. */
    method FindFreeFile() returns (i: int)
      requires Valid()
      ensures i == FirstUnused(fileTable[..], 0)
    {
      i := 0;
      while i < NR_FILE && fileTable[i].count != 0
        invariant 0 <= i <= NR_FILE
        invariant FirstUnused(fileTable[..], i) == FirstUnused(fileTable[..], 0)
      {
        i := i + 1;
      }
    }

    /** The terminal and the event logs are as they were. */
    ghost predicate Unchanged(tty0: int, ttyPgrp0: map<int, int>, iputs0: seq<InodeId>, disk0: seq<int>)
      reads this
    {
      tty == tty0 && ttyPgrp == ttyPgrp0 && iputs == iputs0 && diskChecks == disk0
    }

    /** The outcome of sys_open once descriptor fd and file-table entry i
        were free in the tables fs0 and ft0 and open_namei returned `res`,
        from a state with terminal tty0 and logs iputs0 and disk0. A failed
        lookup returns its error and leaves everything as it was. /dev/tty
        (major 5) without a controlling terminal releases the inode and
        returns -EPERM with the tables as they were. Otherwise fd now names
        entry i, which holds the inode with count 1, position 0, the flags
        given and the inode's mode, and fd is returned; a terminal (major 4)
        opened by a session leader without one becomes its controlling
        terminal with the caller's group in the foreground; a block device
        is passed to check_disk_change. */
    ghost predicate Opened(r: int, fd: nat, i: nat, flag: int, res: Lookup, fs0: seq<Option<nat>>, ft0: seq<File>,
                           tty0: int, ttyPgrp0: map<int, int>, iputs0: seq<InodeId>, disk0: seq<int>)
      reads this, filp, fileTable
      requires fd < |fs0| && i < |ft0| && (res.Found? ==> res.id in inodes)
    {
      if res.Failed? then
        r == res.code && filp[..] == fs0 && fileTable[..] == ft0 && Unchanged(tty0, ttyPgrp0, iputs0, disk0)
      else
        var ino := inodes[res.id];
        var isTty := IsChr(ino.mode) && Major(ino.zone0) == 4;
        if IsChr(ino.mode) && Major(ino.zone0) == 5 && tty0 < 0 then
          && r == -EPERM && filp[..] == fs0 && fileTable[..] == ft0
          && Unchanged(tty0, ttyPgrp0, iputs0 + [res.id], disk0)
        else
          && r == fd
          && filp[..] == fs0[fd := Some(i)]
          && fileTable[..] == ft0[i := File(ino.mode, flag, 1, Some(res.id), 0)]
          && iputs == iputs0
          && (isTty && leader && tty0 < 0 ==> tty == Minor(ino.zone0) && ttyPgrp == ttyPgrp0[tty := pgrp])
          && (!(isTty && leader && tty0 < 0) ==> tty == tty0 && ttyPgrp == ttyPgrp0)
          && diskChecks == disk0 + (if IsBlk(ino.mode) then [ino.zone0] else [])
    }

    /** sys_open(filename, flag, mode), with open_namei given as a function
        of the flag and the creation mode (the file name is fixed). */
    method SysOpen(flag: int, mode: bv32, openNamei: (int, bv32) -> Lookup) returns (r: int)
      requires Valid()
      requires var res := openNamei(flag, CreateMode(mode, umask));
        (res.Found? ==> res.id in inodes) && (res.Failed? ==> res.code < 0)
      modifies this`closeOnExec, this`tty, this`ttyPgrp, this`iputs, this`diskChecks, filp, fileTable
      ensures Valid()
      ensures var fd := FirstNone(old(filp[..]), 0);
        fd == NR_OPEN ==>
          && r == -EINVAL && closeOnExec == old(closeOnExec) && filp[..] == old(filp[..])
          && fileTable[..] == old(fileTable[..]) && Unchanged(old(tty), old(ttyPgrp), old(iputs), old(diskChecks))
      ensures var fd := FirstNone(old(filp[..]), 0);
        fd < NR_OPEN ==>
          && closeOnExec == ClearBit(old(closeOnExec), fd)
          && OpenedFrom(r, fd, flag, openNamei(flag, CreateMode(mode, umask)), old(filp[..]), old(fileTable[..]),
                        old(tty), old(ttyPgrp), old(iputs), old(diskChecks))
    {
      var m := CreateMode(mode, umask);
      var fd := FindFreeFd();
      if fd == NR_OPEN {
        return -EINVAL;
      }
      closeOnExec := ClearBit(closeOnExec, fd);
      r := OpenAt(fd, flag, m, openNamei);
    }

    /** What sys_open does once descriptor fd was found free in fs0, from a
        state with terminal tty0 and logs iputs0 and disk0: with no free
        file-table entry, -EINVAL and nothing changed; otherwise the
        outcome Opened describes for the lowest free entry. */
    ghost predicate OpenedFrom(r: int, fd: nat, flag: int, res: Lookup, fs0: seq<Option<nat>>, ft0: seq<File>,
                               tty0: int, ttyPgrp0: map<int, int>, iputs0: seq<InodeId>, disk0: seq<int>)
      reads this, filp, fileTable
      requires fd < |fs0| && (res.Found? ==> res.id in inodes)
    {
      var i := FirstUnused(ft0, 0);
      if i == |ft0| then
        r == -EINVAL && filp[..] == fs0 && fileTable[..] == ft0 && Unchanged(tty0, ttyPgrp0, iputs0, disk0)
      else
        Opened(r, fd, i, flag, res, fs0, ft0, tty0, ttyPgrp0, iputs0, disk0)
    }

    /** sys_open from the file-table search on, for the free descriptor fd
        and the creation mode m. */
    method OpenAt(fd: nat, flag: int, m: bv32, openNamei: (int, bv32) -> Lookup) returns (r: int)
      requires Valid() && fd < NR_OPEN && filp[fd].None?
      requires var res := openNamei(flag, m);
        (res.Found? ==> res.id in inodes) && (res.Failed? ==> res.code < 0)
      modifies this`tty, this`ttyPgrp, this`iputs, this`diskChecks, filp, fileTable
      ensures Valid()
      ensures OpenedFrom(r, fd, flag, openNamei(flag, m), old(filp[..]), old(fileTable[..]),
                         old(tty), old(ttyPgrp), old(iputs), old(diskChecks))
    {
      var i := FindFreeFile();
      if i == NR_FILE {
        return -EINVAL;
      }
      ghost var fs0, ft0 := filp[..], fileTable[..];
      Reserve(fd, i);
      var res := openNamei(flag, m);
      r := Complete(fd, i, flag, res, fs0, ft0);
    }

    /** sys_open's terminal handling for the inode opened: a terminal
        (major 4) becomes the controlling tty of a session leader that has
        none, and its foreground group is set to the caller's group;
        /dev/tty (major 5) is denied to a process with no controlling tty. */
    method CheckTty(ino: Inode) returns (denied: bool)
      modifies this`tty, this`ttyPgrp
      ensures denied <==> IsChr(ino.mode) && Major(ino.zone0) == 5 && old(tty) < 0
      ensures IsChr(ino.mode) && Major(ino.zone0) == 4 && leader && old(tty) < 0 ==>
                tty == Minor(ino.zone0) && ttyPgrp == old(ttyPgrp)[tty := pgrp]
      ensures !(IsChr(ino.mode) && Major(ino.zone0) == 4 && leader && old(tty) < 0) ==>
                tty == old(tty) && ttyPgrp == old(ttyPgrp)
    {
      denied := false;
      if IsChr(ino.mode) {
        if Major(ino.zone0) == 4 {
          if leader && tty < 0 {
            tty := Minor(ino.zone0);
            ttyPgrp := ttyPgrp[tty := pgrp];
          }
        } else if Major(ino.zone0) == 5 {
          if tty < 0 {
            denied := true;
          }
        }
      }
    }

    /** The part of sys_open after open_namei returned `res`, with
        descriptor fd and file-table entry i reserved: a failed lookup gives
        the slots back; a terminal (major 4) is attached as the controlling
        tty of a session leader without one; /dev/tty (major 5) is refused
        with -EPERM to a process with no controlling tty; a block device has
        its media change checked; otherwise the entry is filled in. */
    method Complete(fd: nat, i: nat, flag: int, res: Lookup, ghost fs0: seq<Option<nat>>, ghost ft0: seq<File>)
      returns (r: int)
      requires Valid() && fd < NR_OPEN && i < NR_FILE && |fs0| == NR_OPEN && |ft0| == NR_FILE
      requires TablesOk(fs0, ft0, inodes) && fs0[fd].None? && ft0[i].count == 0
      requires filp[..] == fs0[fd := Some(i)] && fileTable[..] == ft0[i := ft0[i].(count := 1)]
      requires (res.Found? ==> res.id in inodes) && (res.Failed? ==> res.code < 0)
      modifies this`tty, this`ttyPgrp, this`iputs, this`diskChecks, filp, fileTable
      ensures Valid()
      ensures Opened(r, fd, i, flag, res, fs0, ft0, old(tty), old(ttyPgrp), old(iputs), old(diskChecks))
    {
      if res.Failed? {
        Unreserve(fd, i, fs0, ft0);
        return res.code;
      }
      var ino := inodes[res.id];
      var denied := CheckTty(ino);
      if denied {
        iputs := iputs + [res.id];
        Unreserve(fd, i, fs0, ft0);
        return -EPERM;
      }
      if IsBlk(ino.mode) {
        diskChecks := diskChecks + [ino.zone0];
      }
      Install(i, File(ino.mode, flag, 1, Some(res.id), 0));
      return fd;
    }

    /** Claims descriptor fd and file-table entry i for an open in progress. */
    method Reserve(fd: nat, i: nat)
      requires Valid() && fd < NR_OPEN && i < NR_FILE
      modifies filp, fileTable
      ensures Valid()
      ensures filp[..] == old(filp[..])[fd := Some(i)]
      ensures fileTable[..] == old(fileTable[..])[i := old(fileTable[i]).(count := old(fileTable[i]).count + 1)]
    {
      SetFdKeeps(filp[..], fileTable[..], inodes, fd, Some(i));
      SetFileKeeps(filp[..][fd := Some(i)], fileTable[..], inodes, i, fileTable[i].(count := fileTable[i].count + 1));
      filp[fd] := Some(i);
      fileTable[i] := fileTable[i].(count := fileTable[i].count + 1);
    }

    /** Gives back what Reserve claimed on a failed open, restoring both
        tables exactly. */
    method Unreserve(fd: nat, i: nat, ghost fs0: seq<Option<nat>>, ghost ft0: seq<File>)
      requires Valid() && fd < NR_OPEN && i < NR_FILE && |fs0| == NR_OPEN && |ft0| == NR_FILE
      requires TablesOk(fs0, ft0, inodes)
      requires fs0[fd].None? && ft0[i].count == 0
      requires filp[..] == fs0[fd := Some(i)] && fileTable[..] == ft0[i := ft0[i].(count := 1)]
      modifies filp, fileTable
      ensures Valid()
      ensures filp[..] == fs0 && fileTable[..] == ft0
    {
      filp[fd] := None;
      fileTable[i] := fileTable[i].(count := 0);
      assert filp[..] == fs0;
      assert fileTable[..] == ft0;
    }

    /** Fills in file-table entry i. */
    method Install(i: nat, f: File)
      requires Valid() && i < NR_FILE && (f.inode.Some? ==> f.inode.value in inodes)
      modifies fileTable
      ensures Valid()
      ensures fileTable[..] == old(fileTable[..])[i := f]
    {
      SetFileKeeps(filp[..], fileTable[..], inodes, i, f);
      fileTable[i] := f;
    }

    /** sys_close(fd): out-of-range fd and NULL slots give -EINVAL (the
        close-on-exec bit is cleared first for any fd in range); otherwise
        the slot is cleared and the file's count dropped, its inode being
        released when the count reaches 0. A count already 0 panics. */
    method SysClose(fd: nat) returns (r: Outcome<int>)
      requires Valid()
      modifies this`closeOnExec, this`iputs, filp, fileTable
      ensures Valid()
      ensures fd >= NR_OPEN ==>
                r == Returns(-EINVAL) && closeOnExec == old(closeOnExec)
                && filp[..] == old(filp[..]) && fileTable[..] == old(fileTable[..]) && iputs == old(iputs)
      ensures fd < NR_OPEN ==> closeOnExec == ClearBit(old(closeOnExec), fd)
      ensures fd < NR_OPEN && old(filp[fd]).None? ==>
                r == Returns(-EINVAL) && filp[..] == old(filp[..])
                && fileTable[..] == old(fileTable[..]) && iputs == old(iputs)
      ensures fd < NR_OPEN && old(filp[fd]).Some? ==>
                var i := old(filp[fd]).value;
                var f := old(fileTable[i]);
                && filp[..] == old(filp[..])[fd := None]
                && (f.count == 0 ==> r == Panic)
                && (f.count != 0 ==>
                      && r == Returns(0)
                      && fileTable[..] == old(fileTable[..])[i := f.(count := f.count - 1)]
                      && iputs == old(iputs) + (if f.count == 1 && f.inode.Some? then [f.inode.value] else []))
    {
      if fd >= NR_OPEN {
        return Returns(-EINVAL);
      }
      closeOnExec := ClearBit(closeOnExec, fd);
      if filp[fd].None? {
        return Returns(-EINVAL);
      }
      var i := filp[fd].value;
      filp[fd] := None;
      if fileTable[i].count == 0 {
        return Panic;
      }
      fileTable[i] := fileTable[i].(count := fileTable[i].count - 1);
      if fileTable[i].count != 0 {
        return Returns(0);
      }
      if fileTable[i].inode.Some? {
        iputs := iputs + [fileTable[i].inode.value];
      }
      return Returns(0);
    }

    /** sys_chmod(filename, mode) for the inode namei found, if any: only
        the owner (by effective uid) or the superuser may change the mode,
        and only its low 12 bits change. */
    method SysChmod(mode: bv32, found: Option<InodeId>, superuser: bool) returns (r: int)
      requires Valid() && (found.Some? ==> found.value in inodes)
      modifies this`inodes, this`iputs
      ensures Valid()
      ensures found.None? ==> r == -ENOENT && inodes == old(inodes) && iputs == old(iputs)
      ensures found.Some? ==> iputs == old(iputs) + [found.value]
      ensures found.Some? && euid != old(inodes)[found.value].uid && !superuser ==>
                r == -EACCES && inodes == old(inodes)
      ensures found.Some? && (euid == old(inodes)[found.value].uid || superuser) ==>
                var ino := old(inodes)[found.value];
                r == 0 && inodes == old(inodes)[found.value := ino.(mode := ChmodMode(ino.mode, mode), dirt := true)]
    {
      if found.None? {
        return -ENOENT;
      }
      var id := found.value;
      var ino := inodes[id];
      if euid != ino.uid && !superuser {
        iputs := iputs + [id];
        return -EACCES;
      }
      inodes := inodes[id := ino.(mode := ChmodMode(ino.mode, mode), dirt := true)];
      iputs := iputs + [id];
      return 0;
    }

    /** sys_chdir(filename) for the inode namei found, if any: a directory
        becomes the working directory and the old one is released; anything
        else is released at once with -ENOTDIR. */
    method SysChdir(found: Option<InodeId>) returns (r: int)
      requires Valid() && (found.Some? ==> found.value in inodes)
      modifies this`pwd, this`iputs
      ensures Valid()
      ensures found.None? ==> r == -ENOENT && pwd == old(pwd) && iputs == old(iputs)
      ensures found.Some? && !IsDir(inodes[found.value].mode) ==>
                r == -ENOTDIR && pwd == old(pwd) && iputs == old(iputs) + [found.value]
      ensures found.Some? && IsDir(inodes[found.value].mode) ==>
                r == 0 && pwd == found.value && iputs == old(iputs) + [old(pwd)]
    {
      if found.None? {
        return -ENOENT;
      }
      if !IsDir(inodes[found.value].mode) {
        iputs := iputs + [found.value];
        return -ENOTDIR;
      }
      iputs := iputs + [pwd];
      pwd := found.value;
      return 0;
    }

    /** sys_chroot(filename): as sys_chdir, for the root directory. */
    method SysChroot(found: Option<InodeId>) returns (r: int)
      requires Valid() && (found.Some? ==> found.value in inodes)
      modifies this`root, this`iputs
      ensures Valid()
      ensures found.None? ==> r == -ENOENT && root == old(root) && iputs == old(iputs)
      ensures found.Some? && !IsDir(inodes[found.value].mode) ==>
                r == -ENOTDIR && root == old(root) && iputs == old(iputs) + [found.value]
      ensures found.Some? && IsDir(inodes[found.value].mode) ==>
                r == 0 && root == found.value && iputs == old(iputs) + [old(root)]
    {
      if found.None? {
        return -ENOENT;
      }
      if !IsDir(inodes[found.value].mode) {
        iputs := iputs + [found.value];
        return -ENOTDIR;
      }
      iputs := iputs + [root];
      root := found.value;
      return 0;
    }
  }
}

=== FILE: read_write.dfy ===
/** sys_lseek, sys_read and sys_write of fs/read_write.c.

    sys_lseek updates the file position in place. sys_read and sys_write
    only check their arguments and hand the transfer to one collaborator
    (read_pipe/write_pipe, rw_char, block_read/block_write,
    file_read/file_write); they are modelled as the choice of that call
    and its arguments. */
module ReadWrite {
  import opened Common
  import opened Open

  /** IS_SEEKABLE of <linux/fs.h>: majors 1 to 3 (memory, floppy, hard
      disk) can seek; the terminals (4 and 5) and major 0 cannot. */
  function IsSeekable(major: int): (b: bool)
    ensures 1 <= major <= 3 ==> b
    ensures b ==> major != 0 && major != 4 && major != 5
  {
    1 <= major <= 3
  }

  /** The new position lseek computes from the current position, the file
      size, the offset and the origin (0 start, 1 current, 2 end), or None
      when it would be negative or the origin is unknown. */
  function SeekPos(pos: int, size: int, offset: int, origin: int): (q: Option<int>)
    ensures q.Some? ==> q.value >= 0
    ensures q.Some? <==> origin in {0, 1, 2} && (if origin == 0 then offset else if origin == 1 then pos + offset else size + offset) >= 0
  {
    if origin == 0 then (if offset < 0 then None else Some(offset))
    else if origin == 1 then (if pos + offset < 0 then None else Some(pos + offset))
    else if origin == 2 then (if size + offset < 0 then None else Some(size + offset))
    else None
  }

  /** Whatever the origin, a successful seek lands where an absolute seek
      to the same place would, and a relative seek by the distance moved
      comes back to the starting position when that is not negative. */
  lemma SeekRelations(pos: int, size: int, offset: int, origin: int)
    requires SeekPos(pos, size, offset, origin).Some?
    ensures var q := SeekPos(pos, size, offset, origin).value;
      && SeekPos(pos, size, q, 0) == Some(q)
      && (pos >= 0 ==> SeekPos(q, size, pos - q, 1) == Some(pos))
      && (origin == 0 ==> q == offset)
      && (origin == 1 ==> q - pos == offset)
      && (origin == 2 ==> q - size == offset)
  {
  }

  /** Seeking to the end with offset 0 lands on the file size when that is
      not negative; a relative seek by 0 keeps a non-negative position. */
  lemma SeekNoMove(pos: int, size: int)
    ensures size >= 0 ==> SeekPos(pos, size, 0, 2) == Some(size)
    ensures pos >= 0 ==> SeekPos(pos, size, 0, 1) == Some(pos)
    ensures pos < 0 ==> SeekPos(pos, size, 0, 1) == None
  {
  }

  /** sys_lseek(fd, offset, origin) on the calling process's descriptors.
      A descriptor that is out of range or NULL, a file with no inode and
      an inode on a device that is not seekable give -EBADF; a pipe gives
      -ESPIPE; an offset that would leave a negative position, or an
      unknown origin, gives -EINVAL. Otherwise the file's position becomes
      the new one and is returned. */
  method SysLseek(fs: Files, fd: nat, offset: int, origin: int) returns (r: int)
    requires fs.Valid()
    modifies fs.fileTable
    ensures fs.Valid()
    ensures fd >= NR_OPEN || fs.filp[fd].None? ==> r == -EBADF && fs.fileTable[..] == old(fs.fileTable[..])
    ensures fd < NR_OPEN && fs.filp[fd].Some? ==>
      var i := fs.filp[fd].value;
      var f := old(fs.fileTable[i]);
      if f.inode.None? || !IsSeekable(Major(fs.inodes[f.inode.value].dev)) then
        r == -EBADF && fs.fileTable[..] == old(fs.fileTable[..])
      else if fs.inodes[f.inode.value].pipe then
        r == -ESPIPE && fs.fileTable[..] == old(fs.fileTable[..])
      else
        var q := SeekPos(f.pos, fs.inodes[f.inode.value].size, offset, origin);
        && (q.None? ==> r == -EINVAL && fs.fileTable[..] == old(fs.fileTable[..]))
        && (q.Some? ==> r == q.value && fs.fileTable[..] == old(fs.fileTable[..])[i := f.(pos := q.value)])
  {
    if fd >= NR_OPEN || fs.filp[fd].None? {
      return -EBADF;
    }
    var i := fs.filp[fd].value;
    var file := fs.fileTable[i];
    if file.inode.None? || !IsSeekable(Major(fs.inodes[file.inode.value].dev)) {
      return -EBADF;
    }
    var ino := fs.inodes[file.inode.value];
    if ino.pipe {
      return -ESPIPE;
    }
    var pos := file.pos;
    if origin == 0 {
      if offset < 0 {
        return -EINVAL;
      }
      pos := offset;
    } else if origin == 1 {
      if pos + offset < 0 {
        return -EINVAL;
      }
      pos := pos + offset;
    } else if origin == 2 {
      var tmp := ino.size + offset;
      if tmp < 0 {
        return -EINVAL;
      }
      pos := tmp;
    } else {
      return -EINVAL;
    }
    SetFileKeeps(fs.filp[..], fs.fileTable[..], fs.inodes, i, file.(pos := pos));
    fs.fileTable[i] := file.(pos := pos);
    r := pos;
  }

  // ------------------------------------------------------------ read / write

  /** The collaborator a transfer is handed to. Char and Block carry the
      device number (`i_zone[0]`). */
  datatype Target = Pipe | Char(dev: int) | Block(dev: int) | Regular

  /** What sys_read or sys_write does: fail with an error number, return 0
      without calling anything, or call the collaborator for `target` on
      `inode` with direction `rw` and byte count `count`. */
  datatype Dispatch =
    | Fail(err: int)
    | Zero
    | Transfer(rw: int, target: Target, inode: InodeId, count: int)

  /** The descriptor guards sys_read and sys_write share: the descriptor
      must be in range and open and the count not negative. */
  predicate Usable(fds: seq<Option<nat>>, fd: nat, count: int)
  {
    fd < NR_OPEN && fd < |fds| && fds[fd].Some? && count >= 0
  }

  /** sys_read(fd, buf, count) over the descriptor table `fds`, the file
      table and the inodes. Pipes, character devices and block devices get
      the whole count; for a regular file or a directory the count is cut
      to what lies between the position and the end of the file. */
  function SysRead(fds: seq<Option<nat>>, files: seq<File>, inodes: map<InodeId, Inode>, fd: nat, count: int): (d: Dispatch)
    requires |fds| == NR_OPEN && TablesOk(fds, files, inodes)
    requires Usable(fds, fd, count) && count > 0 ==> files[fds[fd].value].inode.Some?
    ensures !Usable(fds, fd, count) ==> d == Fail(EINVAL)
    ensures d.Transfer? ==> d.rw == READ && 0 < d.count <= count
  {
    if fd >= NR_OPEN || count < 0 || fds[fd].None? then Fail(EINVAL)
    else if count == 0 then Zero
    else
      var file := files[fds[fd].value];
      var id := file.inode.value;
      var ino := inodes[id];
      if ino.pipe then
        (if file.mode & 1 != 0 then Transfer(READ, Pipe, id, count) else Fail(EIO))
      else if IsChr(ino.mode) then Transfer(READ, Char(ino.zone0), id, count)
      else if IsBlk(ino.mode) then Transfer(READ, Block(ino.zone0), id, count)
      else if IsDir(ino.mode) || IsReg(ino.mode) then
        var n := if count + file.pos > ino.size then ino.size - file.pos else count;
        if n <= 0 then Zero else Transfer(READ, Regular, id, n)
      else Fail(EINVAL)
  }

  /** sys_write(fd, buf, count): as sys_read without the clamp, and with
      only regular files (not directories) written through file_write. */
  function SysWrite(fds: seq<Option<nat>>, files: seq<File>, inodes: map<InodeId, Inode>, fd: nat, count: int): (d: Dispatch)
    requires |fds| == NR_OPEN && TablesOk(fds, files, inodes)
    requires Usable(fds, fd, count) && count > 0 ==> files[fds[fd].value].inode.Some?
    ensures !Usable(fds, fd, count) ==> d == Fail(EINVAL)
    ensures d.Transfer? ==> d.rw == WRITE && d.count == count > 0
  {
    if fd >= NR_OPEN || count < 0 || fds[fd].None? then Fail(EINVAL)
    else if count == 0 then Zero
    else
      var file := files[fds[fd].value];
      var id := file.inode.value;
      var ino := inodes[id];
      if ino.pipe then
        (if file.mode & 2 != 0 then Transfer(WRITE, Pipe, id, count) else Fail(EIO))
      else if IsChr(ino.mode) then Transfer(WRITE, Char(ino.zone0), id, count)
      else if IsBlk(ino.mode) then Transfer(WRITE, Block(ino.zone0), id, count)
      else if IsReg(ino.mode) then Transfer(WRITE, Regular, id, count)
      else Fail(EINVAL)
  }

  /** A usable descriptor with a count of 0 returns 0 from either call
      without dispatching. */
  lemma ZeroCountDoesNothing(fds: seq<Option<nat>>, files: seq<File>, inodes: map<InodeId, Inode>, fd: nat)
    requires |fds| == NR_OPEN && TablesOk(fds, files, inodes) && Usable(fds, fd, 0)
    ensures SysRead(fds, files, inodes, fd, 0) == Zero
    ensures SysWrite(fds, files, inodes, fd, 0) == Zero
  {
  }

  /** The order of sys_read's dispatch: a pipe is read through read_pipe
      exactly when the file was opened for reading (and is an -EIO
      otherwise), whatever its mode bits say; a character device is read
      through rw_char and a block device through block_read only when the
      inode is not a pipe, a block device only when it is not a character
      device; a regular file or directory only when it is none of these;
      anything else is -EINVAL. */
  lemma ReadOrder(fds: seq<Option<nat>>, files: seq<File>, inodes: map<InodeId, Inode>, fd: nat, count: int)
    requires |fds| == NR_OPEN && TablesOk(fds, files, inodes)
    requires Usable(fds, fd, count) && count > 0 && files[fds[fd].value].inode.Some?
    ensures var f := files[fds[fd].value];
      var ino := inodes[f.inode.value];
      var d := SysRead(fds, files, inodes, fd, count);
      && (d == Transfer(READ, Pipe, f.inode.value, count) <==> ino.pipe && f.mode & 1 != 0)
      && (d == Fail(EIO) <==> ino.pipe && f.mode & 1 == 0)
      && (d.Transfer? && d.target.Char? <==> !ino.pipe && IsChr(ino.mode))
      && (d.Transfer? && d.target.Char? ==> d == Transfer(READ, Char(ino.zone0), f.inode.value, count))
      && (d.Transfer? && d.target.Block? <==> !ino.pipe && !IsChr(ino.mode) && IsBlk(ino.mode))
      && (d.Transfer? && d.target.Block? ==> d == Transfer(READ, Block(ino.zone0), f.inode.value, count))
      && (d.Transfer? && d.target.Regular? ==>
            !ino.pipe && !IsChr(ino.mode) && !IsBlk(ino.mode) && (IsDir(ino.mode) || IsReg(ino.mode)))
      && (d == Fail(EINVAL) <==>
            !ino.pipe && !IsChr(ino.mode) && !IsBlk(ino.mode) && !IsDir(ino.mode) && !IsReg(ino.mode))
  {
  }

  /** The clamp for regular files and directories: file_read is asked for
      the smaller of the count and what lies between the position and the
      end of the file, so it never reads past i_size, and it is not called
      at all (0 is returned) exactly when the position is at or past the
      end. */
  lemma ReadClamp(fds: seq<Option<nat>>, files: seq<File>, inodes: map<InodeId, Inode>, fd: nat, count: int)
    requires |fds| == NR_OPEN && TablesOk(fds, files, inodes)
    requires Usable(fds, fd, count) && count > 0 && files[fds[fd].value].inode.Some?
    requires var ino := inodes[files[fds[fd].value].inode.value];
      !ino.pipe && !IsChr(ino.mode) && !IsBlk(ino.mode) && (IsDir(ino.mode) || IsReg(ino.mode))
    ensures var f := files[fds[fd].value];
      var ino := inodes[f.inode.value];
      var d := SysRead(fds, files, inodes, fd, count);
      && (d == Zero <==> f.pos >= ino.size)
      && (d != Zero ==> d == Transfer(READ, Regular, f.inode.value, Min(count, ino.size - f.pos)))
      && (d.Transfer? ==> f.pos + d.count <= ino.size)
  {
  }

  /** The order of sys_write's dispatch, as for sys_read with write
      permission for pipes, and with directories refused: only a regular
      file reaches file_write. */
  lemma WriteOrder(fds: seq<Option<nat>>, files: seq<File>, inodes: map<InodeId, Inode>, fd: nat, count: int)
    requires |fds| == NR_OPEN && TablesOk(fds, files, inodes)
    requires Usable(fds, fd, count) && count > 0 && files[fds[fd].value].inode.Some?
    ensures var f := files[fds[fd].value];
      var ino := inodes[f.inode.value];
      var d := SysWrite(fds, files, inodes, fd, count);
      && (d == Transfer(WRITE, Pipe, f.inode.value, count) <==> ino.pipe && f.mode & 2 != 0)
      && (d == Fail(EIO) <==> ino.pipe && f.mode & 2 == 0)
      && (d.Transfer? && d.target.Char? <==> !ino.pipe && IsChr(ino.mode))
      && (d.Transfer? && d.target.Block? <==> !ino.pipe && !IsChr(ino.mode) && IsBlk(ino.mode))
      && (d == Transfer(WRITE, Regular, f.inode.value, count) <==>
            !ino.pipe && !IsChr(ino.mode) && !IsBlk(ino.mode) && IsReg(ino.mode))
      && (d == Fail(EINVAL) <==> !ino.pipe && !IsChr(ino.mode) && !IsBlk(ino.mode) && !IsReg(ino.mode))
  {
  }
}

=== FILE: sched.dfy ===
/** The scheduler state of kernel/sched.c and the system calls of
    kernel/sched.c and kernel/signal.c that act on the current task.

    `task` is the 64-slot task array, `current` the index of the running
    task and `jiffies` the tick count. A wait cell (a `struct task_struct *`
    variable that sleep_on and wake_up receive by address) is a key of
    `waits`; the cell is NULL when its key is absent, and a NULL cell
    pointer is None. switch_to(next) is modelled by `current := next`:
    each method that calls schedule() returns the slot it picked. */
module Sched {
  import opened Common
  import opened Signal
  import opened SchedSpec
  import opened TimerSpec
  import opened Timers

  /** A wait cell's contents after storing `o` in it. */
  function SetCell(w: map<nat, int>, c: nat, o: Option<int>): (r: map<nat, int>)
    ensures c in r <==> o.Some?
    ensures o.Some? ==> r[c] == o.value
    ensures forall d :: d != c ==> (d in r <==> d in w) && (d in w ==> r[d] == w[d])
  {
    if o.Some? then w[c := o.value] else w - {c}
  }

  /** The contents of wait cell c. */
  function Cell(w: map<nat, int>, c: nat): Option<int>
  {
    if c in w then Some(w[c]) else None
  }

  /** Storing o then reading gives back o, and restoring a cell's earlier
      contents after any store gives back the earlier map: the discipline
      that sleep_on's two halves follow. */
  lemma CellRoundTrip(w: map<nat, int>, c: nat, o: Option<int>, o2: Option<int>)
    ensures Cell(SetCell(w, c, o), c) == o
    ensures SetCell(SetCell(w, c, o2), c, Cell(w, c)) == w
  {
    var r := SetCell(SetCell(w, c, o2), c, Cell(w, c));
    assert forall d :: d in r <==> d in w;
  }

  /** The kernel invariant on the task table, the current slot and the wait
      cells: the table is TableOk, the current slot and every waiter is an
      occupied slot. */
  predicate KernelOk(ts: Table, cur: int, w: map<nat, int>)
  {
    && TableOk(ts)
    && 0 <= cur < |ts| && ts[cur].Some?
    && (forall c :: c in w ==> 0 <= w[c] < |ts| && ts[w[c]].Some?)
  }

  /** Rewriting an occupied slot with a TaskOk task keeps the invariant. */
  lemma SetTaskKeeps(ts: Table, cur: int, w: map<nat, int>, j: int, t: Task)
    requires KernelOk(ts, cur, w) && 0 <= j < |ts| && ts[j].Some? && TaskOk(t)
    ensures KernelOk(ts[j := Some(t)], cur, w)
  {
    SetTaskKeepsTable(ts, j, t);
  }

  /** schedule() keeps the invariant, with the chosen task as current. */
  lemma ScheduleKeeps(ts: Table, cur: int, w: map<nat, int>, jiffies: int)
    requires KernelOk(ts, cur, w)
    ensures KernelOk(ScheduleSpec(ts, jiffies).tasks, ScheduleSpec(ts, jiffies).next, w)
  {
    ScheduleKeepsTable(ts, jiffies);
  }

  class Kernel {
    const task: array<Option<Task>>
    var current: int
    var jiffies: int
    var waits: map<nat, int>
    const timers: TimerList

    /** The invariant of the task table and wait cells. The timer table's
        own invariant, timers.Valid(), is stated beside it by the members
        that use the timers. */
    ghost predicate Valid()
      reads this, task
    {
      task.Length == NR_TASKS && KernelOk(task[..], current, waits)
    }

    /** The boot state: only the idle task, in slot 0 and running, no
        waiters, no timers, jiffies at 0. Its counter and priority, 15, are
        those of INIT_TASK. */
    constructor ()
      ensures Valid() && timers.Valid() && current == 0 && jiffies == 0 && waits == map[]
      ensures task[..] == [Some(Task(Running, 15, 15, 0, 0, 0, 0, 0, seq(NSIG, _ => DEFAULT_ACTION)))]
                          + seq(NR_TASKS - 1, _ => None)
      ensures timers.Pending() == [] && timers.fired == []
    {
      var idle := Task(Running, 15, 15, 0, 0, 0, 0, 0, seq(NSIG, _ => DEFAULT_ACTION));
      task := new Option<Task>[NR_TASKS](j => if j == 0 then Some(idle) else None);
      current := 0;
      jiffies := 0;
      waits := map[];
      timers := new TimerList();
      new;
      assert task[..] == [Some(idle)] + seq(NR_TASKS - 1, _ => None);
    }

    /** The current task's record. */
    function Current(): Task
      reads this, task
      requires 0 <= current < task.Length && task[current].Some?
    {
      task[current].value
    }

    // ------------------------------------------------------------- schedule

    /** The first loop of schedule(): alarms and wake-ups, slot 63 down to
        slot 1. */
    method PreScanPass()
      requires Valid()
      modifies task
      ensures Valid() && task[..] == PreScan(old(task[..]), jiffies)
    {
      ghost var ts := task[..];
      PassesKeepTable(ts, jiffies);
      var i := NR_TASKS - 1;
      while i > 0
        invariant 0 <= i < NR_TASKS
        invariant forall j :: 0 <= j <= i ==> task[j] == ts[j]
        invariant forall j :: i < j < NR_TASKS ==> task[j] == PreScan(ts, jiffies)[j]
      {
        if task[i].Some? {
          var t := task[i].value;
          if t.alarm != 0 && t.alarm < jiffies {
            t := t.(signal := Raise(t.signal, SIGALRM), alarm := 0);
          }
          if HasUnblocked(t.signal, t.blocked) && t.state == Interruptible {
            t := t.(state := Running);
          }
          task[i] := Some(t);
        }
        i := i - 1;
      }
      assert task[..] == PreScan(ts, jiffies);
    }

    /** The inner `while (--i)` loop of schedule(): the runnable task with
        the largest counter, the highest slot on a tie, or (-1, 0). */
    method ScanRunnable() returns (c: int, next: int)
      requires Valid()
      ensures (c, next) == ScanFrom(task[..], 1)
      ensures BestFrom(task[..], 1, c, next)
    {
      c, next := -1, 0;
      var i := NR_TASKS - 1;
      while i > 0
        invariant 0 <= i < NR_TASKS
        invariant (c, next) == ScanFrom(task[..], i + 1)
      {
        if task[i].Some? && task[i].value.state == Running && task[i].value.counter > c {
          c, next := task[i].value.counter, i;
        }
        i := i - 1;
      }
    }

    /** The aging loop: `counter = (counter >> 1) + priority` in every
        occupied slot but 0. */
    method AgePass()
      requires Valid()
      modifies task
      ensures Valid() && task[..] == Age(old(task[..]))
    {
      ghost var ts := task[..];
      PassesKeepTable(ts, jiffies);
      var i := NR_TASKS - 1;
      while i > 0
        invariant 0 <= i < NR_TASKS
        invariant forall j :: 0 <= j <= i ==> task[j] == ts[j]
        invariant forall j :: i < j < NR_TASKS ==> task[j] == Age(ts)[j]
      {
        if task[i].Some? {
          var t := task[i].value;
          task[i] := Some(t.(counter := t.counter / 2 + t.priority));
        }
        i := i - 1;
      }
      assert task[..] == Age(ts);
    }

    /** schedule(): the pre-scan, then scan and age until the best counter
        is not 0, then switch to the chosen task. */
    method Schedule() returns (next: int)
      requires Valid()
      modifies this`current, task
      ensures Valid()
      ensures var d := ScheduleSpec(old(task[..]), jiffies);
        next == d.next && task[..] == d.tasks && current == next
      ensures next == 0 || Runnable(task[..], next)
    {
      ghost var ts := task[..];
      ScheduleKeepsTable(ts, jiffies);
      PreScanPass();
      ghost var p := task[..];
      ghost var aged := false;
      var c;
      while true
        invariant Valid()
        invariant !aged ==> task[..] == p
        invariant aged ==> task[..] == Age(p) && ScanFrom(p, 1).0 == 0
        decreases if aged then 0 else 1
      {
        c, next := ScanRunnable();
        if c != 0 {
          break;
        }
        if aged {
          AgedScanPositive(p);
          assert false;
        }
        AgePass();
        aged := true;
      }
      current := next;
    }

    /** sys_pause(): the current task sleeps interruptibly and another one
        is scheduled; the call returns 0. */
    method SysPause() returns (r: int, next: int)
      requires Valid()
      modifies this`current, task
      ensures Valid() && r == 0
      ensures var d := ScheduleSpec(old(task[..])[old(current) :=
                         Some(old(Current()).(state := Interruptible))], jiffies);
        next == d.next && task[..] == d.tasks && current == next
    {
      task[current] := Some(Current().(state := Interruptible));
      next := Schedule();
      r := 0;
    }

    // -------------------------------------------------- sleeping and waking

    /** The first half of sleep_on(p), up to the call of schedule(): a NULL
        p does nothing, task 0 panics, and otherwise the cell's previous
        occupant is kept in `tmp`, the cell names the current task, which
        sleeps uninterruptibly, and another task is scheduled. */
    method SleepOn(p: Option<nat>) returns (panicked: bool, tmp: Option<int>, next: int)
      requires Valid()
      modifies this`current, this`waits, task
      ensures Valid()
      ensures p.None? ==> !panicked && task[..] == old(task[..]) && waits == old(waits) && current == old(current)
      ensures p.Some? && old(current) == 0 ==>
                panicked && task[..] == old(task[..]) && waits == old(waits) && current == old(current)
      ensures p.Some? && old(current) != 0 ==>
                && !panicked
                && tmp == Cell(old(waits), p.value)
                && waits == old(waits)[p.value := old(current)]
                && var d := ScheduleSpec(old(task[..])[old(current) :=
                              Some(old(Current()).(state := Uninterruptible))], jiffies);
                   next == d.next && task[..] == d.tasks && current == next && next != old(current)
    {
      panicked, tmp, next := false, None, current;
      if p.None? {
        return;
      }
      if current == 0 {
        panicked := true;
        return;
      }
      tmp := Cell(waits, p.value);
      waits := waits[p.value := current];
      task[current] := Some(Current().(state := Uninterruptible));
      UninterruptibleNotChosen(task[..], jiffies, current);
      next := Schedule();
    }

    /** The second half of sleep_on(p), once the sleeper runs again: the
        cell gets back its previous occupant `tmp`, which is made runnable. */
    method SleepOnResume(p: nat, tmp: Option<int>)
      requires Valid()
      requires tmp.Some? ==> 0 <= tmp.value < NR_TASKS && task[tmp.value].Some?
      modifies this`waits, task
      ensures Valid()
      ensures waits == SetCell(old(waits), p, tmp)
      ensures tmp.None? ==> task[..] == old(task[..])
      ensures tmp.Some? ==>
                task[..] == old(task[..])[tmp.value := Some(old(task[tmp.value]).value.(state := Running))]
    {
      waits := SetCell(waits, p, tmp);
      if tmp.Some? {
        task[tmp.value] := Some(task[tmp.value].value.(state := Running));
      }
    }

    /** The first half of interruptible_sleep_on(p): as SleepOn, but the
        current task sleeps interruptibly. */
    method InterruptibleSleepOn(p: Option<nat>) returns (panicked: bool, tmp: Option<int>, next: int)
      requires Valid()
      modifies this`current, this`waits, task
      ensures Valid()
      ensures p.None? ==> !panicked && task[..] == old(task[..]) && waits == old(waits) && current == old(current)
      ensures p.Some? && old(current) == 0 ==>
                panicked && task[..] == old(task[..]) && waits == old(waits) && current == old(current)
      ensures p.Some? && old(current) != 0 ==>
                && !panicked
                && tmp == Cell(old(waits), p.value)
                && waits == old(waits)[p.value := old(current)]
                && var d := ScheduleSpec(old(task[..])[old(current) :=
                              Some(old(Current()).(state := Interruptible))], jiffies);
                   next == d.next && task[..] == d.tasks && current == next
    {
      panicked, tmp, next := false, None, current;
      if p.None? {
        return;
      }
      if current == 0 {
        panicked := true;
        return;
      }
      tmp := Cell(waits, p.value);
      waits := waits[p.value := current];
      task[current] := Some(Current().(state := Interruptible));
      next := Schedule();
    }

    /** The second half of interruptible_sleep_on(p), once the sleeper runs
        again. When the cell names another task, that task is made runnable
        and the current one sleeps again (`goto repeat`); `again` is then
        true. Otherwise the cell gets back `tmp`, which is made runnable. */
    method InterruptibleResume(p: nat, tmp: Option<int>) returns (again: bool, next: int)
      requires Valid()
      requires tmp.Some? ==> 0 <= tmp.value < NR_TASKS && task[tmp.value].Some?
      modifies this`current, this`waits, task
      ensures Valid()
      ensures again <==> p in old(waits) && old(waits)[p] != old(current)
      ensures !again ==> current == old(current) && waits == SetCell(old(waits), p, tmp)
      ensures !again && tmp.None? ==> task[..] == old(task[..])
      ensures !again && tmp.Some? ==>
                task[..] == old(task[..])[tmp.value := Some(old(task[tmp.value]).value.(state := Running))]
      ensures again ==>
                && waits == old(waits)
                && var o := old(waits)[p];
                   var d := ScheduleSpec(old(task[..])
                              [o := Some(old(task[o]).value.(state := Running))]
                              [old(current) := Some(old(Current()).(state := Interruptible))], jiffies);
                   next == d.next && task[..] == d.tasks && current == next
    {
      if p in waits && waits[p] != current {
        var o := waits[p];
        task[o] := Some(task[o].value.(state := Running));
        task[current] := Some(Current().(state := Interruptible));
        next := Schedule();
        again := true;
      } else {
        waits := SetCell(waits, p, tmp);
        if tmp.Some? {
          task[tmp.value] := Some(task[tmp.value].value.(state := Running));
        }
        again, next := false, current;
      }
    }

    /** wake_up(p): the task in the cell, if any, is made runnable and the
        cell is emptied; a NULL p or an empty cell changes nothing. */
    method WakeUp(p: Option<nat>)
      requires Valid()
      modifies this`waits, task
      ensures Valid()
      ensures p.None? || p.value !in old(waits) ==> waits == old(waits) && task[..] == old(task[..])
      ensures p.Some? && p.value in old(waits) ==>
                && waits == old(waits) - {p.value}
                && var o := old(waits)[p.value];
                   task[..] == old(task[..])[o := Some(old(task[o]).value.(state := Running))]
    {
      if p.Some? && p.value in waits {
        var o := waits[p.value];
        task[o] := Some(task[o].value.(state := Running));
        waits := waits - {p.value};
      }
    }

    // -------------------------------------------------------------- do_timer

    /** do_timer(cpl), after the interrupt entry has advanced jiffies: the
        tick is charged to the current task, the timer list is advanced, and
        when the quantum is used up in user mode schedule() runs; its choice
        is returned. */
    method DoTimer(cpl: int) returns (switched: Option<int>)
      requires Valid() && timers.Valid()
      modifies this`current, task, timers, timers.nodes
      ensures Valid() && timers.Valid()
      ensures timers.fired == old(timers.fired) + Expire(old(timers.Pending())).0
      ensures timers.Pending() == Expire(old(timers.Pending())).1
      ensures var charged := old(task[..])[old(current) := Some(ChargeTick(old(Current()), cpl))];
        && (!Preempts(old(Current()), cpl) ==>
              switched.None? && task[..] == charged && current == old(current))
        && (Preempts(old(Current()), cpl) ==>
              var d := ScheduleSpec(charged, jiffies);
              switched == Some(d.next) && task[..] == d.tasks && current == d.next)
    {
      var expired := ChargeAndExpire(cpl);
      if !expired || cpl == 0 {
        return None;
      }
      var next := Schedule();
      return Some(next);
    }

    /** do_timer up to its last test: the tick is charged, the timer list
        advanced and the counter taken down; `expired` tells whether the
        quantum is used up. */
    method ChargeAndExpire(cpl: int) returns (expired: bool)
      requires Valid() && timers.Valid()
      modifies task, timers, timers.nodes
      ensures Valid() && timers.Valid()
      ensures timers.fired == old(timers.fired) + Expire(old(timers.Pending())).0
      ensures timers.Pending() == Expire(old(timers.Pending())).1
      ensures task[..] == old(task[..])[current := Some(ChargeTick(old(Current()), cpl))]
      ensures expired == (old(Current()).counter - 1 <= 0)
    {
      ghost var ts, t0 := task[..], Current();
      AccountTick(cpl);
      timers.Tick();
      expired := UseQuantum();
      assert task[..] == ts[current := Some(ChargeTick(t0, cpl))];
    }

    /** The first part of do_timer's accounting: one tick of user time when
        cpl is not 0, of system time otherwise. */
    method AccountTick(cpl: int)
      requires Valid()
      modifies task
      ensures Valid()
      ensures var t := old(Current());
        task[..] == old(task[..])[current := Some(if cpl != 0 then t.(utime := t.utime + 1)
                                                   else t.(stime := t.stime + 1))]
    {
      var t := Current();
      if cpl != 0 {
        t := t.(utime := t.utime + 1);
      } else {
        t := t.(stime := t.stime + 1);
      }
      SetTaskKeeps(task[..], current, waits, current, t);
      task[current] := Some(t);
    }

    /** The end of do_timer: one tick off the current counter; when it does
        not stay positive the counter is set to 0 and `expired` is true. */
    method UseQuantum() returns (expired: bool)
      requires Valid()
      modifies task
      ensures Valid()
      ensures var t := old(Current());
        && expired == (t.counter - 1 <= 0)
        && task[..] == old(task[..])[current := Some(t.(counter := if expired then 0 else t.counter - 1))]
    {
      var t := Current();
      t := t.(counter := t.counter - 1);
      expired := t.counter <= 0;
      if expired {
        t := t.(counter := 0);
      }
      SetTaskKeeps(task[..], current, waits, current, t);
      task[current] := Some(t);
    }

    // ------------------------------------------------- sys_alarm, sys_nice

    /** sys_alarm(seconds): returns the seconds left on the old alarm (0 if
        none) and sets a new one, or clears it for seconds <= 0. */
    method SysAlarm(seconds: int) returns (r: int)
      requires Valid()
      modifies task
      ensures Valid()
      ensures r == AlarmLeft(old(Current()).alarm, jiffies)
      ensures task[..] == old(task[..])[current := Some(old(Current()).(alarm := AlarmFor(seconds, jiffies)))]
    {
      var old_ := Current().alarm;
      if old_ != 0 {
        old_ := DivHZ(old_ - jiffies);
      }
      task[current] := Some(Current().(alarm := if seconds > 0 then jiffies + HZ * seconds else 0));
      return old_;
    }

    /** sys_nice(increment): lowers the priority by increment only when the
        result stays positive; returns 0. */
    method SysNice(increment: int) returns (r: int)
      requires Valid()
      modifies task
      ensures Valid() && r == 0
      ensures var t := old(Current());
        t.priority - increment > 0 ==> task[..] == old(task[..])[current := Some(t.(priority := t.priority - increment))]
      ensures old(Current()).priority - increment <= 0 ==> task[..] == old(task[..])
      ensures Current().priority > 0
    {
      if Current().priority - increment > 0 {
        task[current] := Some(Current().(priority := Current().priority - increment));
      }
      return 0;
    }

    // -------------------------------------------------------- signal calls

    /** sys_sgetmask(): the current task's blocked mask. */
    method SysSgetmask() returns (r: bv32)
      requires Valid()
      ensures r == Current().blocked
    {
      return Current().blocked;
    }

    /** sys_ssetmask(newmask): stores newmask without SIGKILL's bit and
        returns the old mask. */
    method SysSsetmask(newmask: bv32) returns (r: bv32)
      requires Valid()
      modifies task
      ensures Valid() && r == old(Current()).blocked
      ensures task[..] == old(task[..])[current := Some(old(Current()).(blocked := MaskForSet(newmask)))]
      ensures Current().blocked & Bit(SIGKILL) == 0
    {
      r := Current().blocked;
      task[current] := Some(Current().(blocked := MaskForSet(newmask)));
    }

    /** sys_signal(signum, handler, restorer): rejects signals outside
        1..32 and SIGKILL with -1; otherwise installs a one-shot, no-mask
        disposition in slot signum-1 and returns the previous handler. */
    method SysSignal(signum: int, handler: bv32, restorer: bv32) returns (r: bv32)
      requires Valid()
      modifies task
      ensures Valid()
      ensures !Catchable(signum) ==> r == MINUS_ONE && task[..] == old(task[..])
      ensures Catchable(signum) ==>
                var t := old(Current());
                && r == t.sigaction[signum - 1].handler
                && task[..] == old(task[..])[current := Some(t.(sigaction :=
                     t.sigaction[signum - 1 := SignalAction(handler, restorer)]))]
    {
      if !Catchable(signum) {
        return MINUS_ONE;
      }
      var t := Current();
      r := t.sigaction[signum - 1].handler;
      task[current] := Some(t.(sigaction := t.sigaction[signum - 1 := SignalAction(handler, restorer)]));
    }

    /** sys_sigaction(signum, action, oldaction): rejects as sys_signal does
        with -1; otherwise saves the old disposition, installs `action` with
        its mask normalised, and returns 0. The old disposition is copied out
        only when oldaction is not NULL (`wantOld`). */
    method SysSigaction(signum: int, action: SigAction, wantOld: bool)
      returns (r: int, saved: Option<SigAction>)
      requires Valid()
      modifies task
      ensures Valid()
      ensures !Catchable(signum) ==> r == -1 && saved.None? && task[..] == old(task[..])
      ensures Catchable(signum) ==>
                var t := old(Current());
                && r == 0
                && saved == (if wantOld then Some(t.sigaction[signum - 1]) else None)
                && task[..] == old(task[..])[current := Some(t.(sigaction :=
                     t.sigaction[signum - 1 := NormalizeMask(action, signum)]))]
    {
      saved := None;
      if !Catchable(signum) {
        return -1, None;
      }
      var t := Current();
      var tmp := t.sigaction[signum - 1];
      var acts := t.sigaction[signum - 1 := action];
      if wantOld {
        saved := Some(tmp);
      }
      acts := acts[signum - 1 := NormalizeMask(acts[signum - 1], signum)];
      assert acts == t.sigaction[signum - 1 := NormalizeMask(action, signum)];
      t := t.(sigaction := acts);
      task[current] := Some(t);
      r := 0;
    }

    /** do_signal(signr, ...) for the current task: the delivery outcome of
        its disposition, with the one-shot reset and the new blocked mask
        written back when a handler is entered. */
    method DoSignalCurrent(signr: int, regs: Regs, mem: map<int, bv32>) returns (d: Delivery)
      requires Valid() && 1 <= signr <= NSIG
      modifies task
      ensures Valid()
      ensures var t := old(Current());
        d == DoSignal(signr, t.sigaction[signr - 1], t.blocked, regs, mem)
      ensures !d.Deliver? ==> task[..] == old(task[..])
      ensures d.Deliver? ==>
                var t := old(Current());
                task[..] == old(task[..])[current := Some(t.(sigaction :=
                  t.sigaction[signr - 1 := d.action], blocked := d.blocked))]
    {
      var t := Current();
      d := DoSignal(signr, t.sigaction[signr - 1], t.blocked, regs, mem);
      if d.Deliver? {
        task[current] := Some(t.(sigaction := t.sigaction[signr - 1 := d.action], blocked := d.blocked));
      }
    }
  }
}

=== FILE: sched_spec.dfy ===
/** The scheduling decision of kernel/sched.c as functions on the task table.

    The task table is the 64-slot `task[]` array as a sequence of optional
    task records (None is a NULL slot); slot 0 is the idle task. schedule()
    makes three passes: a pre-scan that fires expired alarms and wakes
    interruptible tasks with a deliverable signal, a scan from the highest slot
    down that keeps the runnable task with the largest counter, and, only when
    that largest counter is 0, an aging pass followed by another scan. The
    class in sched.dfy runs these passes as loops over its array and is proved
    to compute exactly the functions below. */
module SchedSpec {
  import opened Common
  import opened Signal

  const NR_TASKS := 64
  const HZ := 100

  datatype TaskState = Running | Interruptible | Uninterruptible | Zombie | Stopped

  /** The fields of `struct task_struct` that the scheduler and the signal
      code read or write. */
  datatype Task = Task(state: TaskState, counter: int, priority: int, alarm: int,
                       signal: bv32, blocked: bv32, utime: int, stime: int,
                       sigaction: seq<SigAction>)

  type Table = seq<Option<Task>>

  /** Slot j (never the idle slot 0) holds a TASK_RUNNING task. */
  predicate Runnable(ts: Table, j: int)
  {
    0 < j < |ts| && ts[j].Some? && ts[j].value.state == Running
  }

  /** No task in slots lo..|ts|-1 is runnable. */
  predicate NoneRunnableFrom(ts: Table, lo: int)
  {
    forall j :: lo <= j < |ts| ==> !Runnable(ts, j)
  }

  /** Every occupied slot has a non-negative counter and a positive
      priority, as sys_nice and do_timer keep them. */
  predicate CountersOk(ts: Table)
  {
    forall j :: 0 <= j < |ts| && ts[j].Some? ==>
      ts[j].value.counter >= 0 && ts[j].value.priority > 0
  }

  // ---------------------------------------------------------------- pre-scan

  /** The alarm check: an alarm that is set and already in the past (strictly
      before jiffies) raises SIGALRM and is cleared. */
  function AlarmCheck(t: Task, jiffies: int): Task
  {
    if t.alarm != 0 && t.alarm < jiffies then
      t.(signal := Raise(t.signal, SIGALRM), alarm := 0)
    else t
  }

  /** One slot of the pre-scan: the alarm check, then an interruptible task
      with an unblocked pending signal becomes runnable. */
  function PreScanTask(t: Task, jiffies: int): Task
  {
    var a := AlarmCheck(t, jiffies);
    if HasUnblocked(a.signal, a.blocked) && a.state == Interruptible then a.(state := Running)
    else a
  }

  /** The first loop of schedule(): slots 63 down to 1; slot 0 and empty
      slots are left alone. */
  function PreScan(ts: Table, jiffies: int): (r: Table)
    ensures |r| == |ts|
    ensures |ts| > 0 ==> r[0] == ts[0]
    ensures forall j :: 0 <= j < |ts| ==> (r[j].Some? <==> ts[j].Some?)
  {
    seq(|ts|, j requires 0 <= j < |ts| =>
      if j == 0 || ts[j].None? then ts[j] else Some(PreScanTask(ts[j].value, jiffies)))
  }

  // -------------------------------------------------------------------- scan

  /** (c, next) is what the scan of slots |ts|-1 down to lo leaves behind:
      next is 0 and c is -1 when none of them is runnable; otherwise next is a
      runnable slot whose counter c is the largest, and every runnable slot
      above next has a strictly smaller counter (ties go to the highest
      slot, because the comparison is a strict `>`). */
  predicate BestFrom(ts: Table, lo: int, c: int, next: int)
  {
    && c >= -1
    && (c == -1 <==> next == 0)
    && (next != 0 ==> lo <= next && Runnable(ts, next) && ts[next].value.counter == c)
    && (forall j :: lo <= j < |ts| && Runnable(ts, j) ==> ts[j].value.counter <= c)
    && (forall j :: lo <= j && next < j < |ts| && Runnable(ts, j) ==> ts[j].value.counter < c)
  }

  /** The inner `while (--i)` loop of schedule(), slot |ts|-1 first and slot
      lo last: c starts at -1 and next at 0, and a runnable task replaces them
      when its counter is strictly larger than c. */
  function ScanFrom(ts: Table, lo: int): (r: (int, int))
    requires 1 <= lo <= |ts|
    ensures r.1 == 0 || (lo <= r.1 < |ts| && Runnable(ts, r.1))
    ensures CountersOk(ts) ==> BestFrom(ts, lo, r.0, r.1)
    decreases |ts| - lo
  {
    if lo == |ts| then (-1, 0)
    else
      var r := ScanFrom(ts, lo + 1);
      if Runnable(ts, lo) && ts[lo].value.counter > r.0 then (ts[lo].value.counter, lo) else r
  }

  /** With counters non-negative, the scan comes back with c == -1 exactly
      when nothing in the scanned slots is runnable. */
  lemma {:induction false} ScanIdleIff(ts: Table, lo: int)
    requires 1 <= lo <= |ts|
    requires CountersOk(ts)
    ensures ScanFrom(ts, lo).0 == -1 <==> NoneRunnableFrom(ts, lo)
  {
    var r := ScanFrom(ts, lo);
    if !NoneRunnableFrom(ts, lo) {
      var j :| lo <= j < |ts| && Runnable(ts, j);
      assert ts[j].value.counter <= r.0;
    }
  }

  /** The scan's outcome is fully determined by its specification: two
      results that both satisfy BestFrom are equal. */
  lemma BestFromUnique(ts: Table, lo: int, c1: int, n1: int, c2: int, n2: int)
    requires BestFrom(ts, lo, c1, n1) && BestFrom(ts, lo, c2, n2)
    ensures c1 == c2 && n1 == n2
  {
    if n1 != 0 && n2 != 0 {
      assert ts[n2].value.counter <= c1 && ts[n1].value.counter <= c2;
    }
  }

  // -------------------------------------------------------------------- aging

  /** One slot of the aging loop: `counter = (counter >> 1) + priority`. For
      a counter of either sign, the arithmetic shift floors, and so does
      Dafny's `/ 2`. */
  function AgeTask(t: Task): Task
  {
    t.(counter := t.counter / 2 + t.priority)
  }

  /** The aging loop: every occupied slot except 0, whatever its state. */
  function Age(ts: Table): (r: Table)
    ensures |r| == |ts|
    ensures |ts| > 0 ==> r[0] == ts[0]
    ensures forall j :: 0 <= j < |ts| ==> (r[j].Some? <==> ts[j].Some?)
  {
    seq(|ts|, j requires 0 <= j < |ts| =>
      if j == 0 || ts[j].None? then ts[j] else Some(AgeTask(ts[j].value)))
  }

  /** Aging changes counters only: which slots are runnable is unchanged, and
      with positive priorities every occupied slot ends with a positive
      counter. */
  lemma AgeKeepsStates(ts: Table)
    requires CountersOk(ts)
    ensures CountersOk(Age(ts))
    ensures forall j :: Runnable(Age(ts), j) <==> Runnable(ts, j)
    ensures forall j :: 0 < j < |ts| && ts[j].Some? ==> Age(ts)[j].value.counter > 0
  {
  }

  /** Why `while (1)` in schedule() ends after at most one aging pass: when
      the first scan stops at a best counter of 0, some task is runnable, and
      after aging that task's counter, and so the new best, is positive. */
  lemma {:induction false} AgedScanPositive(ts: Table)
    requires |ts| >= 1
    requires CountersOk(ts)
    requires ScanFrom(ts, 1).0 == 0
    ensures ScanFrom(Age(ts), 1).0 > 0
  {
    var n := ScanFrom(ts, 1).1;
    assert Runnable(ts, n);
    AgeKeepsStates(ts);
    assert Runnable(Age(ts), n) && Age(ts)[n].value.counter > 0;
    var c := ScanFrom(Age(ts), 1).0;
    assert Age(ts)[n].value.counter <= c;
  }

  /** A counter in the range 0..2*priority stays in that range when aged:
      the halving keeps repeated aging from growing counters without bound. */
  lemma AgingBoundsCounter(t: Task)
    requires t.priority > 0 && 0 <= t.counter <= 2 * t.priority
    ensures 0 < AgeTask(t).counter <= 2 * t.priority
  {
  }

  // ---------------------------------------------------------------- schedule

  /** The task chosen by schedule() and the task table it leaves behind. */
  datatype Decision = Decision(next: int, tasks: Table)

  function ScheduleSpec(ts: Table, jiffies: int): (d: Decision)
    requires |ts| >= 1
    ensures |d.tasks| == |ts| && d.tasks[0] == ts[0]
    ensures forall j :: 0 <= j < |ts| ==> (d.tasks[j].Some? <==> ts[j].Some?)
    ensures d.next == 0 || Runnable(d.tasks, d.next)
  {
    var p := PreScan(ts, jiffies);
    var r := ScanFrom(p, 1);
    if r.0 != 0 then Decision(r.1, p)
    else
      var a := Age(p);
      Decision(ScanFrom(a, 1).1, a)
  }

  /** The pre-scan never changes counters, priorities or the occupied slots. */
  lemma PreScanKeepsCounters(ts: Table, jiffies: int)
    requires CountersOk(ts)
    ensures CountersOk(PreScan(ts, jiffies))
    ensures forall j :: 0 <= j < |ts| ==> (PreScan(ts, jiffies)[j].Some? <==> ts[j].Some?)
  {
  }

  /** What schedule() promises: with nothing runnable in slots 1..63 after the
      pre-scan it picks the idle task 0 and ages nobody; otherwise it picks a
      runnable task with the greatest counter, the highest-numbered one on a
      tie, and that counter is positive. */
  lemma {:induction false} ScheduleChoosesBest(ts: Table, jiffies: int)
    requires |ts| >= 1
    requires CountersOk(ts)
    ensures var d := ScheduleSpec(ts, jiffies);
      var p := PreScan(ts, jiffies);
      && CountersOk(d.tasks)
      && (NoneRunnableFrom(p, 1) ==> d.next == 0 && d.tasks == p)
      && (ScanFrom(p, 1).0 > 0 ==> d.tasks == p)
      && (ScanFrom(p, 1).0 == 0 ==> d.tasks == Age(p))
      && (!NoneRunnableFrom(p, 1) ==>
            && Runnable(d.tasks, d.next)
            && d.tasks[d.next].value.counter > 0
            && (forall j :: Runnable(d.tasks, j) ==> d.tasks[j].value.counter <= d.tasks[d.next].value.counter)
            && (forall j :: d.next < j < |ts| && Runnable(d.tasks, j) ==>
                  d.tasks[j].value.counter < d.tasks[d.next].value.counter))
  {
    var p := PreScan(ts, jiffies);
    PreScanKeepsCounters(ts, jiffies);
    ScanIdleIff(p, 1);
    var r := ScanFrom(p, 1);
    if r.0 == 0 {
      AgeKeepsStates(p);
      AgedScanPositive(p);
      ScanIdleIff(Age(p), 1);
    }
  }

  /** The pre-scan's alarm rule, slot by slot: a task's alarm fires (SIGALRM
      raised, alarm cleared) exactly when it is set and strictly before
      jiffies; otherwise signal and alarm are untouched. Accounting fields,
      priorities, counters and dispositions never change. */
  lemma PreScanAlarm(ts: Table, jiffies: int, j: int)
    requires 0 < j < |ts| && ts[j].Some?
    ensures var t := ts[j].value;
      var t' := PreScan(ts, jiffies)[j].value;
      && (t.alarm != 0 && t.alarm < jiffies ==>
            t'.alarm == 0 && t'.signal == Raise(t.signal, SIGALRM))
      && (!(t.alarm != 0 && t.alarm < jiffies) ==>
            t'.alarm == t.alarm && t'.signal == t.signal)
      && t'.blocked == t.blocked && t'.counter == t.counter && t'.priority == t.priority
      && t'.utime == t.utime && t'.stime == t.stime && t'.sigaction == t.sigaction
  {
  }

  /** The pre-scan's wake-up rule: the state changes only from
      TASK_INTERRUPTIBLE to TASK_RUNNING, and it does exactly when a pending
      signal (after the alarm check) is neither blocked nor SIGKILL/SIGSTOP. */
  lemma PreScanWake(ts: Table, jiffies: int, j: int)
    requires 0 < j < |ts| && ts[j].Some?
    ensures var t := ts[j].value;
      var a := AlarmCheck(t, jiffies);
      var t' := PreScan(ts, jiffies)[j].value;
      && (t.state == Interruptible && HasUnblocked(a.signal, a.blocked) ==> t'.state == Running)
      && (!(t.state == Interruptible && HasUnblocked(a.signal, a.blocked)) ==> t'.state == t.state)
  {
  }

  /** As written, an interruptible task whose only pending signal is SIGKILL
      (or SIGSTOP) is not woken by the pre-scan, whatever it blocks. */
  lemma {:induction false} KillAloneDoesNotWake(ts: Table, jiffies: int, j: int)
    requires 0 < j < |ts| && ts[j].Some?
    requires ts[j].value.state == Interruptible && ts[j].value.alarm == 0
    requires ts[j].value.signal == Bit(SIGKILL) || ts[j].value.signal == Bit(SIGSTOP)
    ensures PreScan(ts, jiffies)[j].value.state == Interruptible
  {
    UnblockableAloneIsNotPending(ts[j].value.blocked);
  }

  // ------------------------------------------------------ the table invariant

  /** What the kernel keeps true of each task: a non-negative counter, a
      positive priority and 32 dispositions. */
  predicate TaskOk(t: Task)
  {
    t.counter >= 0 && t.priority > 0 && |t.sigaction| == NSIG
  }

  /** What the kernel keeps true of its task table: 64 slots, the idle task
      in slot 0, and every task as TaskOk says. */
  predicate TableOk(ts: Table)
  {
    && |ts| == NR_TASKS && ts[0].Some?
    && (forall j :: 0 <= j < |ts| && ts[j].Some? ==> TaskOk(ts[j].value))
  }

  /** Rewriting an occupied slot with a task that is TaskOk keeps the table
      invariant and the occupied slots. */
  lemma SetTaskKeepsTable(ts: Table, j: int, t: Task)
    requires TableOk(ts) && 0 <= j < |ts| && ts[j].Some? && TaskOk(t)
    ensures TableOk(ts[j := Some(t)])
    ensures forall i :: 0 <= i < |ts| ==> (ts[j := Some(t)][i].Some? <==> ts[i].Some?)
  {
  }

  /** The pre-scan and aging keep the table invariant and the occupied
      slots. */
  lemma PassesKeepTable(ts: Table, jiffies: int)
    requires TableOk(ts)
    ensures TableOk(PreScan(ts, jiffies)) && TableOk(Age(ts))
    ensures forall j :: 0 <= j < |ts| ==>
      (PreScan(ts, jiffies)[j].Some? <==> ts[j].Some?) && (Age(ts)[j].Some? <==> ts[j].Some?)
  {
    PreScanKeepsCounters(ts, jiffies);
    AgeKeepsStates(ts);
    forall j | 0 <= j < |ts| && PreScan(ts, jiffies)[j].Some?
      ensures TaskOk(PreScan(ts, jiffies)[j].value)
    {
      assert PreScan(ts, jiffies)[j].value.sigaction == ts[j].value.sigaction;
    }
  }

  /** schedule() keeps the table invariant and the set of occupied slots, and
      hands the processor to task 0 or to a runnable task. */
  lemma ScheduleKeepsTable(ts: Table, jiffies: int)
    requires TableOk(ts)
    ensures var d := ScheduleSpec(ts, jiffies);
      && TableOk(d.tasks)
      && (forall j :: 0 <= j < |ts| ==> (d.tasks[j].Some? <==> ts[j].Some?))
      && (d.next == 0 || Runnable(d.tasks, d.next))
  {
    var p := PreScan(ts, jiffies);
    PassesKeepTable(ts, jiffies);
    PassesKeepTable(p, jiffies);
    var r := ScanFrom(p, 1);
    if r.0 == 0 {
      var r2 := ScanFrom(Age(p), 1);
      assert r2.1 == 0 || Runnable(Age(p), r2.1);
    }
  }

  /** A task put to TASK_UNINTERRUPTIBLE (sleep_on) is never the one
      schedule() picks: neither the pre-scan nor aging changes its state. */
  lemma UninterruptibleNotChosen(ts: Table, jiffies: int, k: int)
    requires TableOk(ts) && 0 < k < |ts| && ts[k].Some? && ts[k].value.state == Uninterruptible
    ensures ScheduleSpec(ts, jiffies).next != k
  {
    ScheduleKeepsTable(ts, jiffies);
    PreScanWake(ts, jiffies, k);
  }

  // ------------------------------------------------------------------ do_timer

  /** do_timer's accounting for the current task: one tick of user time when
      the interrupted code ran at a non-zero privilege level, of system time
      otherwise, then one tick off the counter, which stops at 0. */
  function ChargeTick(t: Task, cpl: int): (r: Task)
  {
    var a := if cpl != 0 then t.(utime := t.utime + 1) else t.(stime := t.stime + 1);
    if a.counter - 1 > 0 then a.(counter := a.counter - 1) else a.(counter := 0)
  }

  /** do_timer calls schedule() exactly when the interrupted code was user
      code and the current task's quantum is used up. */
  predicate Preempts(t: Task, cpl: int)
  {
    cpl != 0 && t.counter - 1 <= 0
  }

  /** Each tick is charged to exactly one of utime and stime, and the counter
      drops by one but never below 0; nothing else in the task changes. */
  lemma ChargeTickAccounts(t: Task, cpl: int)
    requires t.counter >= 0
    ensures var r := ChargeTick(t, cpl);
      && r.utime + r.stime == t.utime + t.stime + 1
      && (cpl != 0 <==> r.utime == t.utime + 1)
      && r.counter == (if t.counter > 0 then t.counter - 1 else 0)
      && r.state == t.state && r.priority == t.priority && r.alarm == t.alarm
      && r.signal == t.signal && r.blocked == t.blocked && r.sigaction == t.sigaction
  {
  }

  /** A task is preempted exactly when its counter, once charged, is 0 and it
      was interrupted in user mode. */
  lemma PreemptsIffExhausted(t: Task, cpl: int)
    requires t.counter >= 0
    ensures Preempts(t, cpl) <==> cpl != 0 && ChargeTick(t, cpl).counter == 0
  {
  }

  // ------------------------------------------------------------------ sys_alarm

  /** C's division by HZ (100), truncating toward zero, written with the
      literal so that the arithmetic stays linear. */
  function DivHZ(a: int): (q: int)
    ensures a >= 0 ==> 0 <= q && 100 * q <= a < 100 * q + 100
    ensures a < 0 ==> q <= 0 && 100 * q - 100 < a <= 100 * q
  {
    if a >= 0 then a / 100 else -((-a) / 100)
  }

  /** What sys_alarm returns for an old alarm: 0 when none was set, else the
      whole seconds left, truncated toward zero (negative if it is already
      past). */
  function AlarmLeft(alarm: int, jiffies: int): int
  {
    if alarm != 0 then DivHZ(alarm - jiffies) else 0
  }

  /** The alarm sys_alarm sets: HZ ticks per second from now, or none. */
  function AlarmFor(seconds: int, jiffies: int): int
  {
    if seconds > 0 then jiffies + HZ * seconds else 0
  }

  /** Asking again at the same tick gives back the seconds just set (0 for a
      cleared alarm), provided the deadline is not the tick 0 itself. */
  lemma AlarmRoundTrip(seconds: int, jiffies: int)
    requires jiffies >= 0
    ensures AlarmLeft(AlarmFor(seconds, jiffies), jiffies) == (if seconds > 0 then seconds else 0)
  {
  }

  /** A pending alarm that has not yet fired reports the seconds left, rounded
      down, and never more than the ticks left allow. */
  lemma AlarmLeftBounds(alarm: int, jiffies: int)
    requires alarm != 0 && alarm >= jiffies
    ensures var s := AlarmLeft(alarm, jiffies);
      0 <= s && HZ * s <= alarm - jiffies < HZ * s + HZ
  {
  }
}

=== FILE: signal.dfy ===
/** Signal dispositions and delivery (kernel/signal.c).

    A disposition is the 16-byte `struct sigaction` of a process; a bitmap of
    signals is a 32-bit word whose bit nr-1 stands for signal nr. Delivery,
    do_signal, is modelled as a pure transformation of the saved user-mode
    context and of user memory (a map from byte address to 32-bit word); the
    process-side state it changes (the disposition and `blocked`) comes back in
    the result, and the scheduler's state object applies it to the current
    process. */
module Signal {
  import opened Common

  const NSIG := 32
  // Signal numbers of Linux 0.11's <signal.h> that the kernel treats specially.
  const SIGKILL := 9
  const SIGALRM := 14
  const SIGCHLD := 17
  const SIGSTOP := 19

  const SIG_DFL: bv32 := 0
  const SIG_IGN: bv32 := 1
  const SA_NOMASK: bv32 := 0x4000_0000
  const SA_ONESHOT: bv32 := 0x8000_0000

  /** `(long) -1`, the error return of sys_signal, as a 32-bit word. */
  const MINUS_ONE: bv32 := 0xFFFF_FFFF

  /** _S(nr): the bit of signal nr in a bitmap, 1 << (nr - 1). */
  function Bit(nr: int): bv32
    requires 1 <= nr <= NSIG
  {
    BitMask(nr - 1)
  }

  /** The signal number as the 32-bit word put on the user stack (`(long)
      signr`), read from a table so that no integer is converted to a
      bit-vector. */
  function SigWord(n: int): bv32
    requires 0 <= n <= NSIG
  {
    [ 0,  1,  2,  3,  4,  5,  6,  7,  8,  9, 10, 11, 12, 13, 14, 15, 16,
     17, 18, 19, 20, 21, 22, 23, 24, 25, 26, 27, 28, 29, 30, 31, 32][n]
  }

  /** _BLOCKABLE, ~(_S(SIGKILL) | _S(SIGSTOP)): every signal except SIGKILL
      and SIGSTOP (bits 8 and 18). */
  const BLOCKABLE: bv32 := 0xFFFB_FEFF

  /** The bitmap `bits` with signal nr added (`bits |= _S(nr)`). */
  function Raise(bits: bv32, nr: int): bv32
    requires 1 <= nr <= NSIG
  {
    bits | Bit(nr)
  }

  /** Some pending signal is neither blocked by the process nor one of the
      unblockable pair: `signal & (_BLOCKABLE & ~blocked)` is non-zero. */
  predicate HasUnblocked(signal: bv32, blocked: bv32)
  {
    signal & (BLOCKABLE & !blocked) != 0
  }

  /** Raising a signal makes it pending and keeps every signal already
      pending. */
  lemma RaiseIncludes(bits: bv32, nr: int)
    requires 1 <= nr <= NSIG
    ensures Includes(Raise(bits, nr), Bit(nr)) && Includes(Raise(bits, nr), bits)
  {
    OrIncludesBoth(bits, Bit(nr));
  }

  /** _BLOCKABLE leaves out SIGKILL and SIGSTOP, so a process whose only
      pending signal is one of them has no signal that counts as unblocked,
      whatever its mask. */
  lemma UnblockableAloneIsNotPending(blocked: bv32)
    ensures !HasUnblocked(Bit(SIGKILL), blocked)
    ensures !HasUnblocked(Bit(SIGSTOP), blocked)
  {
    assert Bit(SIGKILL) == 0x100;
    assert Bit(SIGSTOP) == 0x4_0000;
  }

  datatype SigAction = SigAction(handler: bv32, mask: bv32, flags: bv32, restorer: bv32)

  /** SA_NOMASK: the signal is not blocked while its handler runs, and the
      frame carries no saved mask. */
  predicate NoMask(sa: SigAction)
  {
    sa.flags & SA_NOMASK != 0
  }

  /** SA_ONESHOT: the disposition reverts to SIG_DFL once delivered. */
  predicate OneShot(sa: SigAction)
  {
    sa.flags & SA_ONESHOT != 0
  }

  /** The all-zero disposition every process starts with: default action. */
  const DEFAULT_ACTION := SigAction(SIG_DFL, 0, 0, 0)

  /** The signal numbers sys_signal and sys_sigaction accept. */
  predicate Catchable(signum: int)
  {
    1 <= signum <= NSIG && signum != SIGKILL
  }

  /** What sys_ssetmask stores: the new mask with the SIGKILL bit cleared. */
  function MaskForSet(newmask: bv32): (b: bv32)
    ensures b & Bit(SIGKILL) == 0
    ensures b | Bit(SIGKILL) == newmask | Bit(SIGKILL)
  {
    newmask & !Bit(SIGKILL)
  }

  /** The disposition sys_signal installs: one-shot, no automatic masking. */
  function SignalAction(handler: bv32, restorer: bv32): (sa: SigAction)
    ensures OneShot(sa) && NoMask(sa)
    ensures sa.handler == handler && sa.restorer == restorer && sa.mask == 0
  {
    SigAction(handler, 0, SA_ONESHOT | SA_NOMASK, restorer)
  }

  /** The mask normalisation sys_sigaction applies after installing `sa` for
      signal `signum`: SA_NOMASK empties the mask, otherwise the signal's own
      bit is added to it; nothing else in the disposition changes. */
  function NormalizeMask(sa: SigAction, signum: int): (r: SigAction)
    requires 1 <= signum <= NSIG
    ensures r.handler == sa.handler && r.flags == sa.flags && r.restorer == sa.restorer
    ensures NoMask(sa) ==> r.mask == 0
    ensures !NoMask(sa) ==> r.mask == sa.mask | Bit(signum)
  {
    if NoMask(sa) then sa.(mask := 0)
    else sa.(mask := sa.mask | Bit(signum))
  }

  /** Every signal of the bitmap `sub` is also in `m`. */
  predicate Includes(m: bv32, sub: bv32)
  {
    m & sub == sub
  }

  lemma OrIncludesBoth(x: bv32, y: bv32)
    ensures Includes(x | y, x) && Includes(x | y, y)
  {
  }

  /** Without SA_NOMASK the handler runs with its own signal blocked, on top
      of every signal the caller's mask named. */
  lemma NormalizeMaskBlocksSelf(sa: SigAction, signum: int)
    requires 1 <= signum <= NSIG
    requires !NoMask(sa)
    ensures Includes(NormalizeMask(sa, signum).mask, Bit(signum))
    ensures Includes(NormalizeMask(sa, signum).mask, sa.mask)
  {
    OrIncludesBoth(sa.mask, Bit(signum));
  }

  /** The user-mode context saved on the kernel stack that do_signal may
      rewrite: instruction pointer, stack pointer (a byte address), flags and
      the three registers the system-call path preserves. */
  datatype Regs = Regs(eip: bv32, esp: int, eflags: bv32, eax: bv32, ecx: bv32, edx: bv32)

  datatype Delivery =
    | Resume                 // nothing is changed: ignored, or discarded by default
    | Terminate(code: bv32)  // do_exit(code)
    | Deliver(action: SigAction, regs: Regs, frame: seq<bv32>,
              mem: map<int, bv32>, blocked: bv32)

  /** Number of long words do_signal reserves below the user stack pointer. */
  function FrameLongs(sa: SigAction): int
  {
    if NoMask(sa) then 7 else 8
  }

  /** The words put on the user stack, lowest address first. */
  function FrameWords(signr: int, sa: SigAction, blocked: bv32, regs: Regs): (w: seq<bv32>)
    requires 1 <= signr <= NSIG
    ensures |w| == FrameLongs(sa)
  {
    [sa.restorer, SigWord(signr)]
    + (if NoMask(sa) then [] else [blocked])
    + [regs.eax, regs.ecx, regs.edx, regs.eflags, regs.eip]
  }

  /** put_fs_long through an advancing pointer: word k lands at addr + 4*k. */
  function WriteWords(mem: map<int, bv32>, addr: int, words: seq<bv32>): map<int, bv32>
    decreases |words|
  {
    if words == [] then mem else WriteWords(mem[addr := words[0]], addr + 4, words[1..])
  }

  /** The words at addr, addr + 4, ... (n of them), as get_fs_long reads them. */
  function ReadWords(mem: map<int, bv32>, addr: int, n: nat): seq<bv32>
    requires forall k :: 0 <= k < n ==> addr + 4 * k in mem
  {
    seq(n, k requires 0 <= k < n => mem[addr + 4 * k])
  }

  /** do_signal(signr, ...) for the disposition `sa` of signal signr and the
      process's current `blocked` mask. */
  function DoSignal(signr: int, sa: SigAction, blocked: bv32, regs: Regs,
                    mem: map<int, bv32>): (d: Delivery)
    requires 1 <= signr <= NSIG
    ensures d.Deliver? <==> sa.handler != SIG_IGN && sa.handler != SIG_DFL
    ensures d.Deliver? ==> d.regs.eip == sa.handler
  {
    if sa.handler == SIG_IGN then Resume
    else if sa.handler == SIG_DFL then
      (if signr == SIGCHLD then Resume else Terminate(Bit(signr)))
    else
      var action := if OneShot(sa) then sa.(handler := SIG_DFL) else sa;
      var esp := regs.esp - 4 * FrameLongs(sa);
      var frame := FrameWords(signr, sa, blocked, regs);
      Deliver(action, regs.(eip := sa.handler, esp := esp), frame,
              WriteWords(mem, esp, frame), blocked | sa.mask)
  }

  /** Word k of a frame written by WriteWords lands at addr + 4*k. */
  lemma {:induction false} WriteWordsAt(mem: map<int, bv32>, addr: int, words: seq<bv32>, k: int)
    requires 0 <= k < |words|
    ensures addr + 4 * k in WriteWords(mem, addr, words)
    ensures WriteWords(mem, addr, words)[addr + 4 * k] == words[k]
    decreases |words|
  {
    var mem' := mem[addr := words[0]];
    if k == 0 {
      if |words| > 1 {
        WriteWordsElsewhere(mem', addr + 4, words[1..], addr);
      }
    } else {
      WriteWordsAt(mem', addr + 4, words[1..], k - 1);
    }
  }

  /** Addresses outside the written words keep their old contents. */
  lemma {:induction false} WriteWordsElsewhere(mem: map<int, bv32>, addr: int, words: seq<bv32>, a: int)
    requires a < addr || addr + 4 * |words| <= a
    ensures a in WriteWords(mem, addr, words) <==> a in mem
    ensures a in mem ==> WriteWords(mem, addr, words)[a] == mem[a]
    decreases |words|
  {
    if words != [] {
      WriteWordsElsewhere(mem[addr := words[0]], addr + 4, words[1..], a);
    }
  }

  /** Round trip of user memory: reading back the written frame yields it. */
  lemma ReadBackWritten(mem: map<int, bv32>, addr: int, words: seq<bv32>)
    ensures forall k :: 0 <= k < |words| ==> addr + 4 * k in WriteWords(mem, addr, words)
    ensures ReadWords(WriteWords(mem, addr, words), addr, |words|) == words
  {
    forall k | 0 <= k < |words|
      ensures addr + 4 * k in WriteWords(mem, addr, words)
      ensures WriteWords(mem, addr, words)[addr + 4 * k] == words[k]
    {
      WriteWordsAt(mem, addr, words, k);
    }
  }

  /** SIG_IGN changes nothing; SIG_DFL discards SIGCHLD and terminates the
      process for every other signal with exit code 1 << (signr - 1). */
  lemma SentinelHandlers(signr: int, sa: SigAction, blocked: bv32, regs: Regs, mem: map<int, bv32>)
    requires 1 <= signr <= NSIG
    ensures sa.handler == SIG_IGN ==> DoSignal(signr, sa, blocked, regs, mem) == Resume
    ensures sa.handler == SIG_DFL && signr == SIGCHLD ==>
              DoSignal(signr, sa, blocked, regs, mem) == Resume
    ensures sa.handler == SIG_DFL && signr != SIGCHLD ==>
              DoSignal(signr, sa, blocked, regs, mem) == Terminate(Bit(signr))
    ensures DoSignal(signr, sa, blocked, regs, mem).Deliver? <==>
              sa.handler != SIG_IGN && sa.handler != SIG_DFL
  {
  }

  /** Writing words at addr stores each one at its slot and leaves
      every address outside [addr, addr + 4 * |words|) as it was. */
  lemma WriteFrame(mem: map<int, bv32>, addr: int, words: seq<bv32>)
    ensures forall k :: 0 <= k < |words| ==>
      addr + 4 * k in WriteWords(mem, addr, words) && WriteWords(mem, addr, words)[addr + 4 * k] == words[k]
    ensures forall a :: (a < addr || addr + 4 * |words| <= a) ==>
      (a in WriteWords(mem, addr, words) <==> a in mem) && (a in mem ==> WriteWords(mem, addr, words)[a] == mem[a])
  {
    forall k | 0 <= k < |words|
      ensures addr + 4 * k in WriteWords(mem, addr, words)
      ensures WriteWords(mem, addr, words)[addr + 4 * k] == words[k]
    {
      WriteWordsAt(mem, addr, words, k);
    }
    forall a | a < addr || addr + 4 * |words| <= a
      ensures a in WriteWords(mem, addr, words) <==> a in mem
      ensures a in mem ==> WriteWords(mem, addr, words)[a] == mem[a]
    {
      WriteWordsElsewhere(mem, addr, words, a);
    }
  }

  /** Delivery to a handler: the saved eip becomes the handler, esp drops
      by exactly the 7 or 8 reserved words, the disposition's mask joins
      blocked, and a one-shot disposition is reset to SIG_DFL. */
  lemma DeliveryContext(signr: int, sa: SigAction, blocked: bv32, regs: Regs, mem: map<int, bv32>)
    requires 1 <= signr <= NSIG
    requires sa.handler != SIG_IGN && sa.handler != SIG_DFL
    ensures var d := DoSignal(signr, sa, blocked, regs, mem);
      && d.Deliver?
      && d.regs == regs.(eip := sa.handler, esp := regs.esp - 4 * FrameLongs(sa))
      && d.regs.esp + 4 * |d.frame| == regs.esp
      && d.blocked == blocked | sa.mask
      && d.action == (if OneShot(sa) then sa.(handler := SIG_DFL) else sa)
  {
  }

  /** The frame words themselves, with or without the saved mask. */
  lemma FrameLayout(signr: int, sa: SigAction, blocked: bv32, regs: Regs)
    requires 1 <= signr <= NSIG
    ensures NoMask(sa) ==>
      FrameWords(signr, sa, blocked, regs) == [sa.restorer, SigWord(signr), regs.eax, regs.ecx, regs.edx, regs.eflags, regs.eip]
    ensures !NoMask(sa) ==>
      FrameWords(signr, sa, blocked, regs) == [sa.restorer, SigWord(signr), blocked, regs.eax, regs.ecx, regs.edx, regs.eflags, regs.eip]
  {
  }

  /** The reserved words hold, from the new esp upward, restorer, signr, the
      pre-delivery blocked mask (only without SA_NOMASK), eax, ecx, edx,
      eflags and the interrupted eip. */
  lemma DeliveryFrame(signr: int, sa: SigAction, blocked: bv32, regs: Regs, mem: map<int, bv32>)
    requires 1 <= signr <= NSIG
    requires sa.handler != SIG_IGN && sa.handler != SIG_DFL
    ensures var d := DoSignal(signr, sa, blocked, regs, mem);
      && d.Deliver?
      && (NoMask(sa) ==>
            d.frame == [sa.restorer, SigWord(signr), regs.eax, regs.ecx, regs.edx, regs.eflags, regs.eip])
      && (!NoMask(sa) ==>
            d.frame == [sa.restorer, SigWord(signr), blocked, regs.eax, regs.ecx, regs.edx, regs.eflags, regs.eip])
  {
    var d := DoSignal(signr, sa, blocked, regs, mem);
    assert d.Deliver? && d.frame == FrameWords(signr, sa, blocked, regs);
    FrameLayout(signr, sa, blocked, regs);
  }

  /** The frame is in user memory at the new esp, and memory outside the
      reserved words is untouched. */
  lemma DeliveryMemory(signr: int, sa: SigAction, blocked: bv32, regs: Regs, mem: map<int, bv32>)
    requires 1 <= signr <= NSIG
    requires sa.handler != SIG_IGN && sa.handler != SIG_DFL
    ensures var d := DoSignal(signr, sa, blocked, regs, mem);
      && d.Deliver?
      && (forall k :: 0 <= k < |d.frame| ==>
            d.regs.esp + 4 * k in d.mem && d.mem[d.regs.esp + 4 * k] == d.frame[k])
      && (forall a :: (a < d.regs.esp || regs.esp <= a) ==>
            (a in d.mem <==> a in mem) && (a in mem ==> d.mem[a] == mem[a]))
  {
    WriteFrame(mem, regs.esp - 4 * FrameLongs(sa), FrameWords(signr, sa, blocked, regs));
  }

  /** The libc restorer that runs when the handler returns pops the frame:
      from the words above the restorer word it recovers the saved mask (when
      one was pushed) and the interrupted eax, ecx, edx, eflags and eip, and
      leaves esp just above the frame. */
  function PopFrame(w: seq<bv32>, esp: int, nomask: bool): (Regs, Option<bv32>)
    requires |w| == if nomask then 7 else 8
  {
    var s := if nomask then 2 else 3;
    (Regs(w[s + 4], esp + 4 * |w|, w[s + 3], w[s], w[s + 1], w[s + 2]),
     if nomask then None else Some(w[2]))
  }

  /** The restorer reading the frame from user memory at esp. */
  function Unwind(mem: map<int, bv32>, esp: int, nomask: bool): (Regs, Option<bv32>)
    requires forall k :: 0 <= k < (if nomask then 7 else 8) ==> esp + 4 * k in mem
  {
    PopFrame(ReadWords(mem, esp, if nomask then 7 else 8), esp, nomask)
  }

  /** Popping the words do_signal pushes restores the interrupted context. */
  lemma PopFrameInverse(signr: int, sa: SigAction, blocked: bv32, regs: Regs)
    requires 1 <= signr <= NSIG
    ensures PopFrame(FrameWords(signr, sa, blocked, regs), regs.esp - 4 * FrameLongs(sa), NoMask(sa))
            == (regs, if NoMask(sa) then None else Some(blocked))
  {
  }

  /** Delivery and the restorer form a round trip: unwinding the frame
      do_signal wrote gives back exactly the interrupted context and, without
      SA_NOMASK, the mask that was in force before delivery. */
  lemma UnwindRestoresContext(signr: int, sa: SigAction, blocked: bv32, regs: Regs, mem: map<int, bv32>)
    requires 1 <= signr <= NSIG
    requires sa.handler != SIG_IGN && sa.handler != SIG_DFL
    ensures var d := DoSignal(signr, sa, blocked, regs, mem);
      && d.Deliver?
      && (forall k :: 0 <= k < FrameLongs(sa) ==> d.regs.esp + 4 * k in d.mem)
      && Unwind(d.mem, d.regs.esp, NoMask(sa))
         == (regs, if NoMask(sa) then None else Some(blocked))
  {
    var esp := regs.esp - 4 * FrameLongs(sa);
    var frame := FrameWords(signr, sa, blocked, regs);
    ReadBackWritten(mem, esp, frame);
    PopFrameInverse(signr, sa, blocked, regs);
  }

  /** A one-shot disposition is reset to SIG_DFL by its first delivery, so a
      second occurrence of the same signal, with no sigaction call in between,
      takes the default path: termination, or nothing for SIGCHLD. */
  lemma OneShotSecondDeliveryIsDefault(signr: int, sa: SigAction, blocked: bv32, regs: Regs,
                                       mem: map<int, bv32>, blocked2: bv32, regs2: Regs,
                                       mem2: map<int, bv32>)
    requires 1 <= signr <= NSIG
    requires sa.handler != SIG_IGN && sa.handler != SIG_DFL
    requires OneShot(sa)
    ensures var d := DoSignal(signr, sa, blocked, regs, mem);
      && d.Deliver?
      && DoSignal(signr, d.action, blocked2, regs2, mem2)
         == (if signr == SIGCHLD then Resume else Terminate(Bit(signr)))
  {
  }

  /** Without SA_ONESHOT the handler stays installed and the next occurrence is
      delivered to it again. */
  lemma PersistentHandlerRedelivers(signr: int, sa: SigAction, blocked: bv32, regs: Regs,
                                    mem: map<int, bv32>, blocked2: bv32, regs2: Regs,
                                    mem2: map<int, bv32>)
    requires 1 <= signr <= NSIG
    requires sa.handler != SIG_IGN && sa.handler != SIG_DFL
    requires !OneShot(sa)
    ensures var d := DoSignal(signr, sa, blocked, regs, mem);
      && d.Deliver? && d.action == sa
      && DoSignal(signr, d.action, blocked2, regs2, mem2).Deliver?
      && DoSignal(signr, d.action, blocked2, regs2, mem2).regs.eip == sa.handler
  {
  }

  /** As written, delivery ORs the disposition's whole mask into blocked, so a
      mask naming SIGKILL leaves SIGKILL blocked while the handler runs, even
      though sys_ssetmask never lets it be blocked. */
  lemma DeliveryCanBlockKill()
    ensures var sa := SigAction(0x1000, Bit(SIGKILL), 0, 0x2000);
      var d := DoSignal(SIGALRM, sa, 0, Regs(0, 0x8000, 0, 0, 0, 0), map[]);
      d.Deliver? && d.blocked & Bit(SIGKILL) != 0
  {
  }
}

=== FILE: timer_spec.dfy ===
/** The kernel timer list of kernel/sched.c as a sequence of (delta, fn) pairs.

    The list is kept in firing order and each entry stores its delay relative
    to the entry before it (the `jiffies` field of `struct timer_list`), so
    the absolute deadline of entry k is the prefix sum of the deltas up to and
    including k. Callbacks are opaque ids. The class in sched.dfy keeps these
    pairs in a 64-slot array linked by indices and is proved to transform
    them exactly as the functions below do. */
module TimerSpec {
  const TIME_REQUESTS := 64

  /** A timer callback, kept opaque. */
  type FnId = nat

  datatype Timer = Timer(delta: int, fn: FnId)

  function Sum(p: seq<Timer>): int
  {
    if p == [] then 0 else p[0].delta + Sum(p[1..])
  }

  /** The absolute deadline of entry k, in ticks from now. */
  function Deadline(p: seq<Timer>, k: int): int
    requires 0 <= k < |p|
  {
    Sum(p[..k + 1])
  }

  predicate AllPositive(p: seq<Timer>)
  {
    forall i :: 0 <= i < |p| ==> p[i].delta > 0
  }

  function Fns(p: seq<Timer>): (r: seq<FnId>)
    ensures |r| == |p|
    ensures forall i :: 0 <= i < |p| ==> r[i] == p[i].fn
  {
    seq(|p|, i requires 0 <= i < |p| => p[i].fn)
  }

  lemma {:induction false} SumAppend(a: seq<Timer>, b: seq<Timer>)
    ensures Sum(a + b) == Sum(a) + Sum(b)
  {
    if a != [] {
      assert (a + b)[0] == a[0];
      assert (a + b)[1..] == a[1..] + b;
      SumAppend(a[1..], b);
    } else {
      assert a + b == b;
    }
  }

  lemma SumCons(t: Timer, a: seq<Timer>)
    ensures Sum([t] + a) == t.delta + Sum(a)
  {
    assert ([t] + a)[1..] == a;
  }

  lemma SumSnoc(a: seq<Timer>, t: Timer)
    ensures Sum(a + [t]) == Sum(a) + t.delta
  {
    SumAppend(a, [t]);
  }

  // ---------------------------------------------------------------- add_timer

  /** add_timer's insertion for delay j: the new pair starts at the head and
      is swapped past each pair whose delta is strictly smaller than the
      delay it still has left, losing that delta each time. The pair it stops
      in front of keeps its own delta. */
  function InsertTimer(p: seq<Timer>, j: int, f: FnId): (r: seq<Timer>)
    ensures |r| == |p| + 1
  {
    if p == [] || p[0].delta >= j then [Timer(j, f)] + p
    else [p[0]] + InsertTimer(p[1..], j - p[0].delta, f)
  }

  /** Insertion adds the new callback and loses or duplicates none of the
      old ones. */
  lemma {:induction false} InsertKeepsCallbacks(p: seq<Timer>, j: int, f: FnId)
    ensures multiset(Fns(InsertTimer(p, j, f))) == multiset(Fns(p)) + multiset{f}
  {
    if p == [] || p[0].delta >= j {
      assert Fns([Timer(j, f)] + p) == [f] + Fns(p);
    } else {
      var rest := InsertTimer(p[1..], j - p[0].delta, f);
      InsertKeepsCallbacks(p[1..], j - p[0].delta, f);
      assert Fns([p[0]] + rest) == [p[0].fn] + Fns(rest);
      assert Fns(p) == [p[0].fn] + Fns(p[1..]);
    }
  }

  /** Where the new pair lands. */
  function InsertPos(p: seq<Timer>, j: int): (k: nat)
    ensures k <= |p|
  {
    if p == [] || p[0].delta >= j then 0 else 1 + InsertPos(p[1..], j - p[0].delta)
  }

  /** Sum over a prefix of p of length k + 1, through the head. */
  lemma PrefixSumCons(p: seq<Timer>, k: nat)
    requires k < |p|
    ensures Sum(p[..k + 1]) == p[0].delta + Sum(p[1..][..k])
  {
    assert p[..k + 1] == [p[0]] + p[1..][..k];
    SumCons(p[0], p[1..][..k]);
  }

  /** The new pair sits at InsertPos with the delay that remains there. */
  lemma {:induction false} InsertAt(p: seq<Timer>, j: int, f: FnId)
    ensures var k := InsertPos(p, j);
      InsertTimer(p, j, f) == p[..k] + [Timer(j - Sum(p[..k]), f)] + p[k..]
  {
    if p != [] && p[0].delta < j {
      var t := p[1..];
      var j' := j - p[0].delta;
      InsertAt(t, j', f);
      var k' := InsertPos(t, j');
      PrefixSumCons(p, k');
      assert p[..k' + 1] == [p[0]] + t[..k'];
      assert p[k' + 1..] == t[k'..];
    }
  }

  /** Every pair the new one was swapped past had a delta strictly below the
      delay still remaining at that point. */
  lemma {:induction false} InsertPassed(p: seq<Timer>, j: int, i: nat)
    requires i < InsertPos(p, j)
    ensures p[i].delta < j - Sum(p[..i])
  {
    if i > 0 {
      InsertPassed(p[1..], j - p[0].delta, i - 1);
      PrefixSumCons(p, i - 1);
    }
  }

  /** The pair the new one stops in front of has a delta at least the
      remaining delay. */
  lemma {:induction false} InsertStops(p: seq<Timer>, j: int)
    ensures var k := InsertPos(p, j);
      k < |p| ==> p[k].delta >= j - Sum(p[..k])
  {
    if p != [] && p[0].delta < j {
      InsertStops(p[1..], j - p[0].delta);
      var k' := InsertPos(p[1..], j - p[0].delta);
      if k' < |p| - 1 {
        PrefixSumCons(p, k');
      }
    }
  }

  /** The result of add_timer is the old list with one pair inserted at
      InsertPos: every pair before it had a delta strictly below the delay
      remaining at that point, the pair after it (if any) has a delta at
      least the remaining delay, and the new pair carries that remaining
      delay. */
  lemma InsertShape(p: seq<Timer>, j: int, f: FnId)
    ensures var k := InsertPos(p, j);
      && InsertTimer(p, j, f) == p[..k] + [Timer(j - Sum(p[..k]), f)] + p[k..]
      && (forall i :: 0 <= i < k ==> p[i].delta < j - Sum(p[..i]))
      && (k < |p| ==> p[k].delta >= j - Sum(p[..k]))
  {
    InsertAt(p, j, f);
    InsertStops(p, j);
    forall i | 0 <= i < InsertPos(p, j)
      ensures p[i].delta < j - Sum(p[..i])
    {
      InsertPassed(p, j, i);
    }
  }

  /** The new pair's deadline is the requested delay. */
  lemma NewTimerDeadline(p: seq<Timer>, j: int, f: FnId)
    ensures var k := InsertPos(p, j);
      InsertTimer(p, j, f)[k] == Timer(j - Sum(p[..k]), f)
      && Deadline(InsertTimer(p, j, f), k) == j
  {
    var k := InsertPos(p, j);
    var q := InsertTimer(p, j, f);
    InsertAt(p, j, f);
    assert q[..k + 1] == p[..k] + [q[k]];
    SumSnoc(p[..k], q[k]);
  }

  /** As written, every pair after the new one keeps its delta, so each later
      deadline moves back by the new pair's delta; earlier deadlines are
      unchanged. */
  lemma LaterDeadlinesShift(p: seq<Timer>, j: int, f: FnId, i: int)
    requires 0 <= i < |p|
    ensures var k := InsertPos(p, j);
      var q := InsertTimer(p, j, f);
      && (i < k ==> q[i] == p[i] && Deadline(q, i) == Deadline(p, i))
      && (k <= i ==> q[i + 1] == p[i] && Deadline(q, i + 1) == Deadline(p, i) + (j - Sum(p[..k])))
  {
    var k := InsertPos(p, j);
    var q := InsertTimer(p, j, f);
    var nt := Timer(j - Sum(p[..k]), f);
    InsertAt(p, j, f);
    if i < k {
      EarlierPrefix(p, k, nt, i);
    } else {
      LaterPrefix(p, k, nt, i);
    }
  }

  /** Before an inserted pair, entries and prefix sums are those of p. */
  lemma EarlierPrefix(p: seq<Timer>, k: nat, nt: Timer, i: int)
    requires 0 <= i < k <= |p|
    ensures var q := p[..k] + [nt] + p[k..];
      q[i] == p[i] && Sum(q[..i + 1]) == Sum(p[..i + 1])
  {
    var q := p[..k] + [nt] + p[k..];
    assert q[..i + 1] == p[..i + 1];
  }

  /** After an inserted pair, entry i of p sits at i + 1 and its prefix sum
      gains the inserted delta. */
  lemma LaterPrefix(p: seq<Timer>, k: nat, nt: Timer, i: int)
    requires k <= i < |p|
    ensures var q := p[..k] + [nt] + p[k..];
      q[i + 1] == p[i] && Sum(q[..i + 2]) == Sum(p[..i + 1]) + nt.delta
  {
    var q := p[..k] + [nt] + p[k..];
    assert q[..i + 2] == p[..k] + [nt] + p[k..i + 1];
    assert p[..i + 1] == p[..k] + p[k..i + 1];
    SumAppend(p[..k] + [nt], p[k..i + 1]);
    SumSnoc(p[..k], nt);
    SumAppend(p[..k], p[k..i + 1]);
  }

  /** Inserting a positive delay keeps every delta positive. */
  lemma {:induction false} InsertKeepsPositive(p: seq<Timer>, j: int, f: FnId)
    requires AllPositive(p) && j > 0
    ensures AllPositive(InsertTimer(p, j, f))
  {
    if p != [] && p[0].delta < j {
      InsertKeepsPositive(p[1..], j - p[0].delta, f);
    }
  }

  // ----------------------------------------------------------------- do_timer

  /** do_timer's decrement of the head's delta by one tick. */
  function TickHead(p: seq<Timer>): (r: seq<Timer>)
    ensures |r| == |p|
  {
    if p == [] then [] else [p[0].(delta := p[0].delta - 1)] + p[1..]
  }

  /** The number of leading pairs the expiry loop unlinks: those whose delta
      is at most 0, up to the first positive one. */
  function LeadingDue(p: seq<Timer>): (d: nat)
    ensures d <= |p|
    ensures forall i :: 0 <= i < d ==> p[i].delta <= 0
    ensures d < |p| ==> p[d].delta > 0
  {
    if p == [] || p[0].delta > 0 then 0 else 1 + LeadingDue(p[1..])
  }

  /** One tick of the timer list: the callbacks fired, in order, and the
      pairs left pending. */
  function Expire(p: seq<Timer>): (r: (seq<FnId>, seq<Timer>))
    ensures p == [] ==> r == ([], [])
  {
    var q := TickHead(p);
    var d := LeadingDue(q);
    (Fns(q[..d]), q[d..])
  }

  /** A tick neither loses nor reorders callbacks: those fired, followed by
      those still pending, are the callbacks of the list before the tick;
      and the first pair left pending is not yet due. */
  lemma ExpireKeepsCallbacks(p: seq<Timer>)
    ensures Expire(p).0 + Fns(Expire(p).1) == Fns(p)
    ensures Expire(p).1 == [] || Expire(p).1[0].delta > 0
  {
    var q := TickHead(p);
    FnsSplit(q, LeadingDue(q));
    FnsTickHead(p);
  }

  /** The callbacks of a list are those of any prefix followed by those of
      the rest. */
  lemma FnsSplit(q: seq<Timer>, d: nat)
    requires d <= |q|
    ensures Fns(q[..d]) + Fns(q[d..]) == Fns(q)
  {
  }

  /** Decrementing the head's delta keeps every callback in place. */
  lemma FnsTickHead(p: seq<Timer>)
    ensures Fns(TickHead(p)) == Fns(p)
  {
  }

  /** With every delta positive, a tick fires at most the head, and does so
      exactly when its delta was 1; every pair left pending has its deadline
      brought one tick closer and keeps a positive delta. */
  lemma TickFiresDue(p: seq<Timer>)
    requires AllPositive(p) && p != []
    ensures var (fired, rest) := Expire(p);
      && (p[0].delta == 1 ==> fired == [p[0].fn] && rest == p[1..])
      && (p[0].delta > 1 ==> fired == [] && |rest| == |p|)
      && AllPositive(rest)
      && (forall i :: 0 <= i < |rest| ==>
            Deadline(rest, i) == Deadline(p, i + |p| - |rest|) - 1)
  {
    if p[0].delta == 1 {
      TickFiresHead(p);
      var rest := p[1..];
      forall i | 0 <= i < |rest|
        ensures Deadline(rest, i) == Deadline(p, i + 1) - 1
      {
        PrefixSumCons(p, i + 1);
      }
    } else {
      TickKeepsAll(p);
      var q := TickHead(p);
      forall i | 0 <= i < |q|
        ensures Deadline(q, i) == Deadline(p, i) - 1
      {
        PrefixSumCons(p, i);
        PrefixSumCons(q, i);
        assert q[1..] == p[1..];
      }
    }
  }

  /** A head due at the next tick is the only pair fired. */
  lemma TickFiresHead(p: seq<Timer>)
    requires AllPositive(p) && p != [] && p[0].delta == 1
    ensures Expire(p) == ([p[0].fn], p[1..])
  {
    var q := TickHead(p);
    assert q[0].delta == 0 && q[1..] == p[1..];
    LeadingDueUnique(q, 1);
    assert Fns(q[..1]) == [p[0].fn];
  }

  /** A head not yet due fires nothing; only its delta drops. */
  lemma TickKeepsAll(p: seq<Timer>)
    requires AllPositive(p) && p != [] && p[0].delta > 1
    ensures Expire(p) == ([], TickHead(p))
  {
    var q := TickHead(p);
    assert q[0].delta > 0;
    LeadingDueUnique(q, 0);
    assert q[..0] == [] && q[0..] == q;
  }

  /** The leading-due count is characterised by its contract: a d with all
      pairs before it due and the pair at d (if any) not due is LeadingDue. */
  lemma {:induction false} LeadingDueUnique(p: seq<Timer>, d: nat)
    requires d <= |p|
    requires forall i :: 0 <= i < d ==> p[i].delta <= 0
    requires d < |p| ==> p[d].delta > 0
    ensures LeadingDue(p) == d
  {
    if d > 0 {
      LeadingDueUnique(p[1..], d - 1);
    }
  }
  // ------------------------------------------------------ ticks in sequence

  /** n ticks of do_timer in a row: every callback fired, in firing order,
      and the pairs still pending. */
  function Run(p: seq<Timer>, n: nat): (r: (seq<FnId>, seq<Timer>))
    ensures n == 0 ==> r == ([], p)
    decreases n
  {
    if n == 0 then ([], p)
    else
      var e := Expire(p);
      var s := Run(e.1, n - 1);
      (e.0 + s.0, s.1)
  }

  /** Ticks in a row neither lose nor reorder callbacks: those fired,
      followed by those still pending, are the callbacks of the list. */
  lemma {:induction false} RunKeepsCallbacks(p: seq<Timer>, n: nat)
    ensures Run(p, n).0 + Fns(Run(p, n).1) == Fns(p)
    decreases n
  {
    if n > 0 {
      var m: nat := n - 1;
      var e := Expire(p);
      var s := Run(e.1, m);
      RunStep(p, n, m);
      ExpireKeepsCallbacks(p);
      RunKeepsCallbacks(e.1, m);
      assert (e.0 + s.0) + Fns(s.1) == e.0 + (s.0 + Fns(s.1));
    }
  }

  /** With every delta positive, entry k's deadline is at least k + 1. */
  lemma {:induction false} DeadlineAtLeast(p: seq<Timer>, k: nat)
    requires AllPositive(p) && k < |p|
    ensures Deadline(p, k) >= k + 1
  {
    PrefixSumCons(p, k);
    if k > 0 {
      assert AllPositive(p[1..]);
      DeadlineAtLeast(p[1..], k - 1);
      assert Deadline(p[1..], k - 1) == Sum(p[1..][..k]);
    } else {
      assert p[1..][..0] == [];
    }
  }

  /** Entry k fires on the tick of its deadline and on no other: every run
      shorter than the deadline fires at most the k callbacks ahead of it,
      and every run reaching the deadline has fired it as the (k+1)-th
      callback. */
  lemma FiresAtDeadline(p: seq<Timer>, k: nat)
    requires AllPositive(p) && k < |p|
    ensures Deadline(p, k) >= k + 1
    ensures forall m: nat :: m < Deadline(p, k) ==> |Run(p, m).0| <= k
    ensures forall m: nat :: Deadline(p, k) <= m ==>
              k < |Run(p, m).0| && Run(p, m).0[k] == p[k].fn
  {
    var n := Deadline(p, k);
    DeadlineAtLeast(p, k);
    var n1: nat := n - 1;
    FiresBy(p, k, n, n1);
    forall m: nat | m < n
      ensures |Run(p, m).0| <= k
    {
      RunPrefix(p, m, n1);
    }
    forall m: nat | n <= m
      ensures k < |Run(p, m).0| && Run(p, m).0[k] == p[k].fn
    {
      RunPrefix(p, n, m);
    }
  }

  /** A longer run extends the firing order of a shorter one. */
  lemma {:induction false} RunPrefix(p: seq<Timer>, m: nat, n: nat)
    requires m <= n
    ensures Run(p, m).0 <= Run(p, n).0
    decreases m
  {
    if m > 0 {
      var m1: nat := m - 1;
      var n1: nat := n - 1;
      RunStep(p, m, m1);
      RunStep(p, n, n1);
      RunPrefix(Expire(p).1, m1, n1);
    }
  }

  /** FiresAtDeadline with the deadline n and the tick before it, n1, named. */
  lemma {:induction false} FiresBy(p: seq<Timer>, k: nat, n: nat, n1: nat)
    requires AllPositive(p) && k < |p|
    requires n == Deadline(p, k) && n1 + 1 == n
    ensures |Run(p, n1).0| <= k && k < |Run(p, n).0| && Run(p, n).0[k] == p[k].fn
    decreases |p|, p[0].delta, 1
  {
    if p[0].delta > 1 {
      FiresByTick(p, k, n, n1);
    } else if k == 0 {
      FiresHead(p, n, n1);
    } else {
      FiresBehindHead(p, k, n, n1);
    }
  }

  /** A head due at once is the first callback fired, at the first tick. */
  lemma FiresHead(p: seq<Timer>, n: nat, n1: nat)
    requires AllPositive(p) && p != [] && p[0].delta == 1
    requires n == Deadline(p, 0) && n1 + 1 == n
    ensures |Run(p, n1).0| <= 0 && 0 < |Run(p, n).0| && Run(p, n).0[0] == p[0].fn
  {
    RunStep(p, n, n1);
    TickDue(p);
    ShiftDeadline(p, 0);
  }

  /** FiresBy when the head fires at the first tick and k > 0: entry k is
      entry k - 1 of the rest, which runs one tick behind. */
  lemma {:induction false} FiresBehindHead(p: seq<Timer>, k: nat, n: nat, n1: nat)
    requires AllPositive(p) && 0 < k < |p| && p[0].delta == 1
    requires n == Deadline(p, k) && n1 + 1 == n
    ensures |Run(p, n1).0| <= k && k < |Run(p, n).0| && Run(p, n).0[k] == p[k].fn
    decreases |p|, p[0].delta, 0
  {
    var q := Expire(p).1;
    var j: nat := k - 1;
    TickDue(p);
    TickDueLater(p, k, j);
    DeadlineAtLeast(q, j);
    var n2: nat := n1 - 1;
    FiresBy(q, j, n1, n2);
    RunStep(p, n, n1);
    RunStep(p, n1, n2);
    ConsFired(p[0].fn, Run(q, n2).0, Run(q, n1).0, j, k, p[k].fn);
  }

  /** Putting one callback in front of two firing orders shifts every place
      in them by one. */
  lemma ConsFired(x: FnId, a: seq<FnId>, b: seq<FnId>, j: nat, k: nat, f: FnId)
    requires |a| <= j < |b| && b[j] == f && k == j + 1
    ensures |[x] + a| <= k && k < |[x] + b| && ([x] + b)[k] == f
  {
  }

  /** FiresBy when the head is not yet due: the list after the tick has
      entry k one tick closer. */
  lemma {:induction false} FiresByTick(p: seq<Timer>, k: nat, n: nat, n1: nat)
    requires AllPositive(p) && k < |p| && p[0].delta > 1
    requires n == Deadline(p, k) && n1 + 1 == n
    ensures |Run(p, n1).0| <= k && k < |Run(p, n).0| && Run(p, n).0[k] == p[k].fn
    decreases |p|, p[0].delta, 0
  {
    var q := Expire(p).1;
    RunStep(p, n, n1);
    TickNotDue(p, k);
    DeadlineAtLeast(q, k);
    var n2: nat := n1 - 1;
    RunStep(p, n1, n2);
    FiresBy(q, k, n1, n2);
  }

  /** n ticks are the first tick followed by m = n - 1 more. */
  lemma RunStep(p: seq<Timer>, n: nat, m: nat)
    requires m + 1 == n
    ensures Run(p, n) == (Expire(p).0 + Run(Expire(p).1, m).0, Run(Expire(p).1, m).1)
  {
  }

  /** A tick on a head due at once fires the head alone and leaves a list
      of positive deltas one shorter. */
  lemma TickDue(p: seq<Timer>)
    requires AllPositive(p) && p != [] && p[0].delta == 1
    ensures var (fired, rest) := Expire(p);
      fired == [p[0].fn] && |rest| == |p| - 1 && AllPositive(rest)
  {
    TickFiresHead(p);
  }

  /** After a tick on a head due at once, entry k = j + 1 of the list is
      entry j of what is left, one tick closer to its deadline. */
  lemma TickDueLater(p: seq<Timer>, k: nat, j: nat)
    requires AllPositive(p) && k < |p| && p[0].delta == 1 && k == j + 1
    ensures var rest := Expire(p).1;
      j < |rest| && rest[j].fn == p[k].fn
      && Deadline(rest, j) == Deadline(p, k) - 1
  {
    TickFiresHead(p);
    ShiftDeadline(p, k);
  }

  /** Entry k's deadline, seen from the list without its head. */
  lemma ShiftDeadline(p: seq<Timer>, k: nat)
    requires AllPositive(p) && k < |p| && p[0].delta == 1
    ensures AllPositive(p[1..])
    ensures k == 0 ==> Deadline(p, k) == 1
    ensures k > 0 ==> Deadline(p[1..], k - 1) == Deadline(p, k) - 1
  {
    PrefixSumCons(p, k);
    if k == 0 {
      assert p[1..][..0] == [];
    }
  }

  /** A tick on a head not yet due fires nothing, keeps every delta
      positive and every callback in place, and brings entry k's deadline
      one tick closer. */
  lemma TickNotDue(p: seq<Timer>, k: nat)
    requires AllPositive(p) && k < |p| && p[0].delta > 1
    ensures var (fired, rest) := Expire(p);
      && fired == [] && |rest| == |p| && rest[0].delta == p[0].delta - 1
      && AllPositive(rest) && rest[k].fn == p[k].fn
      && Deadline(rest, k) == Deadline(p, k) - 1
  {
    TickKeepsAll(p);
    TickDeadline(p, k);
  }

  /** Decrementing a head above 1 keeps every delta positive and brings
      entry k's deadline one tick closer. */
  lemma TickDeadline(p: seq<Timer>, k: nat)
    requires AllPositive(p) && k < |p| && p[0].delta > 1
    ensures var q := TickHead(p);
      && AllPositive(q) && q[0].delta == p[0].delta - 1 && q[k].fn == p[k].fn
      && Deadline(q, k) == Deadline(p, k) - 1
  {
    var q := TickHead(p);
    assert q[1..] == p[1..];
    PrefixSumCons(p, k);
    PrefixSumCons(q, k);
  }

  /** add_timer with a delay of j ticks, then ticks: in fewer than j ticks
      the new callback is not fired (at most the k callbacks queued ahead of
      it are), and from tick j on it has been fired, once, at its place k
      in the firing order. */
  lemma AddTimerFiresOnTime(p: seq<Timer>, j: int, f: FnId)
    requires AllPositive(p) && j > 0
    ensures var q := InsertTimer(p, j, f); var k := InsertPos(p, j);
      && (forall m: nat :: m < j ==> |Run(q, m).0| <= k)
      && (forall m: nat :: j <= m ==> k < |Run(q, m).0| && Run(q, m).0[k] == f)
  {
    var q := InsertTimer(p, j, f);
    var k := InsertPos(p, j);
    NewTimerDeadline(p, j, f);
    InsertKeepsPositive(p, j, f);
    FiresAtDeadline(q, k);
  }
}

=== FILE: timers.dfy ===
/** The static timer table of kernel/sched.c: `timer_list[TIME_REQUESTS]`
    and `next_timer`, with add_timer and the expiry step of do_timer.

    A slot is free when its callback is NULL. The used slots form a singly
    linked list, starting at next_timer and linked by `next` (an index here),
    in firing order. The ghost sequence `chain` names the used slots in list
    order, and Pending() reads the (delta, fn) pairs along it; both methods
    are proved to change Pending() exactly as TimerSpec's functions say. */
module Timers {
  import opened Common
  import opened TimerSpec

  datatype TimerNode = TimerNode(delta: int, fn: Option<FnId>, next: Option<nat>)

  /** Every slot named by `chain` is in range and in use. */
  ghost predicate ChainUsed(nodes: seq<TimerNode>, chain: seq<nat>)
  {
    forall k :: 0 <= k < |chain| ==> chain[k] < |nodes| && nodes[chain[k]].fn.Some?
  }

  /** No slot is named twice. */
  ghost predicate ChainDistinct(chain: seq<nat>)
  {
    forall k, l :: 0 <= k < l < |chain| ==> chain[k] != chain[l]
  }

  /** Each slot of `chain` links to the next one, the last to none. */
  ghost predicate ChainLinked(nodes: seq<TimerNode>, chain: seq<nat>)
  {
    forall k :: 0 <= k < |chain| ==>
      chain[k] < |nodes| && nodes[chain[k]].next == (if k + 1 < |chain| then Some(chain[k + 1]) else None)
  }

  /** Every slot in use is named by `chain`. */
  ghost predicate ChainCovers(nodes: seq<TimerNode>, chain: seq<nat>)
  {
    forall s :: 0 <= s < |nodes| && nodes[s].fn.Some? ==> s in chain
  }

  /** The link of chain position k. */
  lemma LinkAt(nodes: seq<TimerNode>, chain: seq<nat>, k: int)
    requires ChainLinked(nodes, chain) && 0 <= k < |chain|
    ensures chain[k] < |nodes|
    ensures nodes[chain[k]].next == (if k + 1 < |chain| then Some(chain[k + 1]) else None)
  {
  }

  /** The slot at chain position k is in use. */
  lemma UsedAt(nodes: seq<TimerNode>, chain: seq<nat>, k: int)
    requires ChainUsed(nodes, chain) && 0 <= k < |chain|
    ensures chain[k] < |nodes| && nodes[chain[k]].fn.Some?
  {
  }

  /** `chain` lists the used slots of `nodes` in list order, from `head`. */
  ghost predicate ChainOk(nodes: seq<TimerNode>, chain: seq<nat>, head: Option<nat>)
  {
    && ChainUsed(nodes, chain)
    && ChainDistinct(chain)
    && head == (if chain == [] then None else Some(chain[0]))
    && ChainLinked(nodes, chain)
    && ChainCovers(nodes, chain)
  }

  ghost function PairsOf(nodes: seq<TimerNode>, chain: seq<nat>): (r: seq<Timer>)
    requires ChainUsed(nodes, chain)
    ensures |r| == |chain|
  {
    seq(|chain|, k requires 0 <= k < |chain| =>
      Timer(nodes[chain[k]].delta, nodes[chain[k]].fn.value))
  }

  /** Rewriting the node at chain position idx, keeping its link and a
      callback, keeps the chain and rewrites only that pair. */
  lemma UpdateStep(ns: seq<TimerNode>, chain: seq<nat>, head: Option<nat>, idx: int, n: TimerNode)
    requires ChainOk(ns, chain, head)
    requires 0 <= idx < |chain| && n.fn.Some? && n.next == ns[chain[idx]].next
    ensures ChainOk(ns[chain[idx] := n], chain, head)
    ensures PairsOf(ns[chain[idx] := n], chain)
            == PairsOf(ns, chain)[idx := Timer(n.delta, n.fn.value)]
  {
    var ns' := ns[chain[idx] := n];
    assert ChainLinked(ns, chain) && ChainCovers(ns, chain);
    assert ChainUsed(ns', chain);
    assert ChainLinked(ns', chain) by {
      forall k | 0 <= k < |chain|
        ensures chain[k] < |ns'| && ns'[chain[k]].next == (if k + 1 < |chain| then Some(chain[k + 1]) else None)
      {
        LinkAt(ns, chain, k);
      }
    }
    assert ChainCovers(ns', chain) by {
      forall s | 0 <= s < |ns'| && ns'[s].fn.Some?
        ensures s in chain
      {
        if s != chain[idx] {
          assert ns[s] == ns'[s];
        }
      }
    }
  }

  /** A free slot is not on the chain. */
  lemma FreeNotOnChain(ns: seq<TimerNode>, chain: seq<nat>, s: nat)
    requires ChainUsed(ns, chain) && s < |ns| && ns[s].fn.None?
    ensures forall k :: 0 <= k < |chain| ==> chain[k] != s
  {
    forall k | 0 <= k < |chain|
      ensures chain[k] != s
    {
      UsedAt(ns, chain, k);
    }
  }

  /** Filling a free slot s whose link is the old head and making it the
      head keeps a well-formed chain with s in front. */
  lemma PushStep(ns: seq<TimerNode>, chain: seq<nat>, head: Option<nat>, s: nat, n: TimerNode)
    requires ChainOk(ns, chain, head)
    requires s < |ns| && ns[s].fn.None? && n.fn.Some? && n.next == head
    ensures ChainOk(ns[s := n], [s] + chain, Some(s))
  {
    assert ChainUsed(ns, chain) && ChainDistinct(chain);
    FreeNotOnChain(ns, chain, s);
    PushLinked(ns, chain, head, s, n);
    PushCovers(ns, chain, head, s, n);
  }

  /** The pushed chain names used slots, linked in order. */
  lemma PushLinked(ns: seq<TimerNode>, chain: seq<nat>, head: Option<nat>, s: nat, n: TimerNode)
    requires ChainOk(ns, chain, head)
    requires s < |ns| && ns[s].fn.None? && n.fn.Some? && n.next == head
    requires forall k :: 0 <= k < |chain| ==> chain[k] != s
    ensures ChainUsed(ns[s := n], [s] + chain) && ChainLinked(ns[s := n], [s] + chain)
  {
    assert ChainUsed(ns, chain) && ChainLinked(ns, chain);
    assert head == (if chain == [] then None else Some(chain[0]));
    var ns' := ns[s := n];
    var c' := [s] + chain;
    forall k | 0 <= k < |c'|
      ensures c'[k] < |ns'| && ns'[c'[k]].fn.Some?
    {
      if k > 0 {
        assert c'[k] == chain[k - 1];
        UsedAt(ns, chain, k - 1);
      }
    }
    assert ChainUsed(ns', c');
    forall k | 0 <= k < |c'|
      ensures c'[k] < |ns'| && ns'[c'[k]].next == (if k + 1 < |c'| then Some(c'[k + 1]) else None)
    {
      if k > 0 {
        assert c'[k] == chain[k - 1] && c'[k] != s;
        LinkAt(ns, chain, k - 1);
        assert ns'[c'[k]] == ns[chain[k - 1]];
      } else {
        assert c'[k] == s && ns'[s] == n;
      }
      if k + 1 < |c'| {
        assert c'[k + 1] == chain[k];
      }
    }
    assert ChainLinked(ns', c');
  }

  /** The pushed chain names no slot twice and every used slot. */
  lemma PushCovers(ns: seq<TimerNode>, chain: seq<nat>, head: Option<nat>, s: nat, n: TimerNode)
    requires ChainOk(ns, chain, head)
    requires s < |ns| && ns[s].fn.None? && n.fn.Some?
    requires forall k :: 0 <= k < |chain| ==> chain[k] != s
    ensures ChainDistinct([s] + chain) && ChainCovers(ns[s := n], [s] + chain)
  {
    assert ChainDistinct(chain) && ChainCovers(ns, chain);
    var ns' := ns[s := n];
    var c' := [s] + chain;
    forall k, l | 0 <= k < l < |c'|
      ensures c'[k] != c'[l]
    {
      assert c'[l] == chain[l - 1];
      if k > 0 {
        assert c'[k] == chain[k - 1];
      }
    }
    forall t | 0 <= t < |ns'| && ns'[t].fn.Some?
      ensures t in c'
    {
      if t != s {
        assert ns[t] == ns'[t];
        assert t in chain;
      }
    }
  }

  /** ... and puts the pair of s in front of the others. */
  lemma PushPairs(ns: seq<TimerNode>, chain: seq<nat>, head: Option<nat>, s: nat, n: TimerNode)
    requires ChainOk(ns, chain, head)
    requires s < |ns| && ns[s].fn.None? && n.fn.Some?
    ensures ChainUsed(ns[s := n], [s] + chain)
    ensures PairsOf(ns[s := n], [s] + chain) == [Timer(n.delta, n.fn.value)] + PairsOf(ns, chain)
  {
    assert ChainUsed(ns, chain);
    FreeNotOnChain(ns, chain, s);
    var ns', c' := ns[s := n], [s] + chain;
    assert ChainUsed(ns', c') by {
      forall k | 0 <= k < |c'|
        ensures c'[k] < |ns'| && ns'[c'[k]].fn.Some?
      {
        if k > 0 {
          assert c'[k] == chain[k - 1] && c'[k] != s;
        }
      }
    }
    var r, r0 := PairsOf(ns', c'), PairsOf(ns, chain);
    forall k | 1 <= k < |c'|
      ensures r[k] == r0[k - 1]
    {
      assert c'[k] == chain[k - 1] && c'[k] != s;
    }
    assert r == [Timer(n.delta, n.fn.value)] + r0;
  }

  /** Freeing the head slot and following its link drops the first pair. */
  lemma PopStep(ns: seq<TimerNode>, chain: seq<nat>, head: Option<nat>)
    requires ChainOk(ns, chain, head) && chain != []
    ensures ChainOk(ns[chain[0] := ns[chain[0]].(fn := None)], chain[1..], ns[chain[0]].next)
    ensures PairsOf(ns[chain[0] := ns[chain[0]].(fn := None)], chain[1..]) == PairsOf(ns, chain)[1..]
  {
    assert ChainUsed(ns, chain) && ChainLinked(ns, chain) && ChainDistinct(chain) && ChainCovers(ns, chain);
    var h := chain[0];
    var ns' := ns[h := ns[h].(fn := None)];
    var c' := chain[1..];
    forall k | 0 <= k < |c'|
      ensures c'[k] == chain[k + 1] && c'[k] != h && c'[k] < |ns| && ns'[c'[k]] == ns[chain[k + 1]]
    {
      assert chain[0] != chain[k + 1];
    }
    assert ChainUsed(ns', c') by {
      forall k | 0 <= k < |c'|
        ensures c'[k] < |ns'| && ns'[c'[k]].fn.Some?
      {
        UsedAt(ns, chain, k + 1);
      }
    }
    assert ChainLinked(ns', c') by {
      forall k | 0 <= k < |c'|
        ensures c'[k] < |ns'| && ns'[c'[k]].next == (if k + 1 < |c'| then Some(c'[k + 1]) else None)
      {
        LinkAt(ns, chain, k + 1);
      }
    }
    assert ChainDistinct(c') by {
      forall k, l | 0 <= k < l < |c'|
        ensures c'[k] != c'[l]
      {
        assert chain[k + 1] != chain[l + 1];
      }
    }
    assert ns[h].next == (if c' == [] then None else Some(c'[0])) by {
      LinkAt(ns, chain, 0);
    }
    assert ChainCovers(ns', c') by {
      forall t | 0 <= t < |ns'| && ns'[t].fn.Some?
        ensures t in c'
      {
        assert t != h && ns[t] == ns'[t];
        assert t in chain;
        var k :| 0 <= k < |chain| && chain[k] == t;
        assert k > 0 && c'[k - 1] == t;
      }
    }
  }

  /** add_timer's swap of (delta, fn) between slot a and its successor b:
      a takes b's pair, and b takes a's fn with a's delta less b's. */
  function Swapped(ns: seq<TimerNode>, a: nat, b: nat): seq<TimerNode>
    requires a < |ns| && b < |ns|
  {
    ns[a := ns[a].(delta := ns[b].delta, fn := ns[b].fn)]
      [b := ns[b].(delta := ns[a].delta - ns[b].delta, fn := ns[a].fn)]
  }

  /** The same swap on the pairs, at positions k and k + 1. */
  function SwapPairs(ps: seq<Timer>, k: int): (r: seq<Timer>)
    requires 0 <= k < |ps| - 1
    ensures |r| == |ps|
  {
    ps[k := ps[k + 1]][k + 1 := Timer(ps[k].delta - ps[k + 1].delta, ps[k].fn)]
  }

  /** Swapping the nodes at chain positions k and k + 1 keeps the chain and
      swaps the pairs there. */
  lemma SwapStep(ns: seq<TimerNode>, chain: seq<nat>, head: Option<nat>, k: int)
    requires ChainOk(ns, chain, head) && 0 <= k < |chain| - 1
    ensures ChainOk(Swapped(ns, chain[k], chain[k + 1]), chain, head)
    ensures PairsOf(Swapped(ns, chain[k], chain[k + 1]), chain)
            == SwapPairs(PairsOf(ns, chain), k)
  {
    var a, b := chain[k], chain[k + 1];
    var na := ns[a].(delta := ns[b].delta, fn := ns[b].fn);
    UpdateStep(ns, chain, head, k, na);
    var ns1 := ns[a := na];
    var nb := ns1[b].(delta := ns[a].delta - ns[b].delta, fn := ns[a].fn);
    UpdateStep(ns1, chain, head, k + 1, nb);
    assert Swapped(ns, a, b) == ns1[b := nb];
  }

  /** The pairs p0 with the pair (rem, f) placed at position k. */
  function Placed(p0: seq<Timer>, k: int, rem: int, f: FnId): (r: seq<Timer>)
    requires 0 <= k <= |p0|
    ensures |r| == |p0| + 1 && r[k] == Timer(rem, f)
    ensures k < |p0| ==> r[k + 1] == p0[k]
  {
    p0[..k] + [Timer(rem, f)] + p0[k..]
  }

  /** One pass of add_timer's bubbling loop moves the new pair one position
      back, past a pair with a smaller delta, and subtracts that delta from
      the remaining delay, in step with InsertTimer's recursion. */
  lemma BubbleStep(p0: seq<Timer>, k: int, rem: int, delay: int, f: FnId)
    requires 0 <= k < |p0|
    requires InsertTimer(p0, delay, f) == p0[..k] + InsertTimer(p0[k..], rem, f)
    requires p0[k].delta < rem
    ensures SwapPairs(Placed(p0, k, rem, f), k) == Placed(p0, k + 1, rem - p0[k].delta, f)
    ensures InsertTimer(p0, delay, f)
            == p0[..k + 1] + InsertTimer(p0[k + 1..], rem - p0[k].delta, f)
  {
    assert p0[k..][0] == p0[k] && p0[k..][1..] == p0[k + 1..];
    assert p0[..k + 1] == p0[..k] + [p0[k]];
  }

  /** Where the bubbling loop stops, InsertTimer is the new pair placed
      where it stands. */
  lemma BubbleDone(p0: seq<Timer>, k: int, rem: int, delay: int, f: FnId)
    requires 0 <= k <= |p0|
    requires InsertTimer(p0, delay, f) == p0[..k] + InsertTimer(p0[k..], rem, f)
    requires k < |p0| ==> p0[k].delta >= rem
    ensures InsertTimer(p0, delay, f) == Placed(p0, k, rem, f)
  {
    assert k < |p0| ==> p0[k..][0] == p0[k];
  }

  class TimerList {
    const nodes: array<TimerNode>
    var head: Option<nat>
    /** The callbacks do_timer has called, in the order it called them. */
    var fired: seq<FnId>
    ghost var chain: seq<nat>

    ghost predicate Valid()
      reads this, nodes
    {
      nodes.Length == TIME_REQUESTS && ChainOk(nodes[..], chain, head)
    }

    /** The pending (delta, fn) pairs in firing order. */
    ghost function Pending(): seq<Timer>
      reads this, nodes
      requires Valid()
    {
      PairsOf(nodes[..], chain)
    }

    /** The boot state: every slot free, next_timer NULL. */
    constructor ()
      ensures Valid() && Pending() == [] && fired == []
    {
      nodes := new TimerNode[TIME_REQUESTS](_ => TimerNode(0, None, None));
      head := None;
      fired := [];
      chain := [];
    }

    /** add_timer(delay, fn). A NULL fn does nothing; a delay <= 0 calls fn
        at once; otherwise the first free slot takes the pair, which is
        pushed at the head and bubbled back by swapping (delta, fn) with its
        successor while the successor's delta is strictly smaller, the pair
        losing that delta each time. With every slot in use the kernel
        panics. */
    method AddTimer(delay: int, fn: Option<FnId>) returns (panicked: bool)
      requires Valid()
      modifies this, nodes
      ensures Valid()
      ensures fn.None? ==> !panicked && Pending() == old(Pending()) && fired == old(fired)
      ensures fn.Some? && delay <= 0 ==>
                !panicked && Pending() == old(Pending()) && fired == old(fired) + [fn.value]
      ensures fn.Some? && delay > 0 ==>
                panicked == (forall s :: 0 <= s < TIME_REQUESTS ==> old(nodes[s]).fn.Some?)
      ensures panicked ==> Pending() == old(Pending()) && fired == old(fired)
      ensures fn.Some? && delay > 0 && !panicked ==>
                Pending() == InsertTimer(old(Pending()), delay, fn.value) && fired == old(fired)
    {
      panicked := false;
      if fn.None? {
        return;
      }
      var f := fn.value;
      if delay <= 0 {
        fired := fired + [f];
        return;
      }
      var p := FindFree();
      if p == TIME_REQUESTS {
        panicked := true;
        return;
      }
      ghost var p0 := Pending();
      Push(p, delay, f);
      Bubble(p, p0, delay, f);
    }

    /** The first slot whose callback is NULL, or TIME_REQUESTS when every
        slot is in use. */
    method FindFree() returns (p: int)
      requires Valid()
      ensures 0 <= p <= TIME_REQUESTS
      ensures forall s :: 0 <= s < p ==> nodes[s].fn.Some?
      ensures p < TIME_REQUESTS ==> nodes[p].fn.None?
    {
      p := 0;
      while p < TIME_REQUESTS && nodes[p].fn.Some?
        invariant 0 <= p <= TIME_REQUESTS
        invariant forall s :: 0 <= s < p ==> nodes[s].fn.Some?
      {
        p := p + 1;
      }
    }

    /** Fill free slot p with (delay, f), link it to the old head and make
        it the new head. */
    method Push(p: int, delay: int, f: FnId)
      requires Valid() && 0 <= p < TIME_REQUESTS && nodes[p].fn.None?
      modifies this, nodes
      ensures Valid() && fired == old(fired)
      ensures chain == [p] + old(chain) && head == Some(p)
      ensures Pending() == [Timer(delay, f)] + old(Pending())
    {
      ghost var ns := nodes[..];
      PushStep(ns, chain, head, p, TimerNode(delay, Some(f), head));
      PushPairs(ns, chain, head, p, TimerNode(delay, Some(f), head));
      nodes[p] := TimerNode(delay, Some(f), head);
      head := Some(p);
      chain := [p] + chain;
      assert nodes[..] == ns[p := TimerNode(delay, Some(f), old(head))];
    }

    /** The swapping loop of add_timer, from the head slot p that holds the
        new pair (delay, f) in front of the pairs p0. */
    method Bubble(p: int, ghost p0: seq<Timer>, ghost delay: int, ghost f: FnId)
      requires Valid() && chain != [] && p == chain[0]
      requires Pending() == [Timer(delay, f)] + p0
      modifies nodes
      ensures Valid() && Pending() == InsertTimer(p0, delay, f)
    {
      var p := p;
      ghost var k := 0;
      ghost var rem := delay;
      assert p0[..0] == [] && p0[0..] == p0;
      assert Pending() == Placed(p0, 0, delay, f);
      var q, swap := NextIfSmaller(p, k);
      while swap
        invariant Valid() && |chain| == |p0| + 1
        invariant 0 <= k < |chain| && p == chain[k]
        invariant swap == (k < |p0| && p0[k].delta < rem)
        invariant swap ==> q == chain[k + 1]
        invariant Pending() == Placed(p0, k, rem, f)
        invariant InsertTimer(p0, delay, f) == p0[..k] + InsertTimer(p0[k..], rem, f)
        decreases |chain| - k
      {
        var next, more := BubblePass(p, q, k, p0, rem, delay, f);
        rem := rem - p0[k].delta;
        p, q, swap := q, next, more;
        k := k + 1;
      }
      BubbleDone(p0, k, rem, delay, f);
    }

    /** One pass of the swapping loop, at slot p and chain position k, with
        successor q: the pairs are swapped, then the loop test is made at q. */
    method BubblePass(p: int, q: int, ghost k: int, ghost p0: seq<Timer>, ghost rem: int,
                      ghost delay: int, ghost f: FnId)
      returns (next: int, more: bool)
      requires Valid() && |chain| == |p0| + 1 && 0 <= k < |p0|
      requires p == chain[k] && q == chain[k + 1]
      requires Pending() == Placed(p0, k, rem, f) && p0[k].delta < rem
      requires InsertTimer(p0, delay, f) == p0[..k] + InsertTimer(p0[k..], rem, f)
      modifies nodes
      ensures Valid()
      ensures Pending() == Placed(p0, k + 1, rem - p0[k].delta, f)
      ensures InsertTimer(p0, delay, f) == p0[..k + 1] + InsertTimer(p0[k + 1..], rem - p0[k].delta, f)
      ensures more == (k + 1 < |p0| && p0[k + 1].delta < rem - p0[k].delta)
      ensures more ==> next == chain[k + 2]
    {
      BubbleStep(p0, k, rem, delay, f);
      SwapWithNext(p, q, k);
      next, more := NextIfSmaller(q, k + 1);
    }

    /** The loop test of add_timer at slot p, chain position k: whether p
        has a successor q whose delta is strictly smaller than p's. */
    method NextIfSmaller(p: int, ghost k: int) returns (q: int, swap: bool)
      requires Valid() && 0 <= k < |chain| && p == chain[k]
      ensures swap == (k + 1 < |chain| && Pending()[k + 1].delta < Pending()[k].delta)
      ensures swap ==> q == chain[k + 1]
    {
      q := 0;
      swap := false;
      if nodes[p].next.Some? {
        assert nodes[chain[k]].next == (if k + 1 < |chain| then Some(chain[k + 1]) else None);
        q := nodes[p].next.value;
        swap := nodes[q].delta < nodes[p].delta;
      }
    }

    /** One swap of add_timer's loop between slot p and its successor q,
        at chain positions k and k + 1: p's delta first loses q's, then the
        two slots exchange delta and fn. */
    method SwapWithNext(p: int, q: int, ghost k: int)
      requires Valid() && 0 <= k < |chain| - 1 && p == chain[k] && q == chain[k + 1]
      modifies nodes
      ensures Valid() && Pending() == SwapPairs(old(Pending()), k)
    {
      ghost var ns := nodes[..];
      SwapStep(ns, chain, head, k);
      var pd := nodes[p].delta - nodes[q].delta;
      var qd := nodes[q].delta;
      var pfn, qfn := nodes[p].fn, nodes[q].fn;
      nodes[p] := nodes[p].(delta := qd, fn := qfn);
      nodes[q] := nodes[q].(delta := pd, fn := pfn);
      assert nodes[..] == Swapped(ns, p, q);
    }

    /** The timer part of do_timer: when the list is not empty, the head's
        delta drops by one tick, then every leading pair whose delta is at
        most 0 is unlinked, its slot freed (fn cleared) before its callback
        is called. */
    method Tick()
      requires Valid()
      modifies this, nodes
      ensures Valid()
      ensures fired == old(fired) + Expire(old(Pending())).0
      ensures Pending() == Expire(old(Pending())).1
    {
      if head.Some? {
        DecrementHead();
        ExpireDue();
      }
    }

    /** `next_timer->jiffies--`. */
    method DecrementHead()
      requires Valid() && head.Some?
      modifies nodes
      ensures Valid() && Pending() == TickHead(old(Pending()))
    {
      var h := head.value;
      ghost var ns := nodes[..];
      UpdateStep(ns, chain, head, 0, nodes[h].(delta := nodes[h].delta - 1));
      nodes[h] := nodes[h].(delta := nodes[h].delta - 1);
      assert nodes[..] == ns[h := ns[h].(delta := ns[h].delta - 1)];
    }

    /** The expiry loop: unlink, free and call every leading pair whose
        delta is at most 0. */
    method ExpireDue()
      requires Valid()
      modifies this, nodes
      ensures Valid()
      ensures fired == old(fired) + Fns(old(Pending())[..LeadingDue(old(Pending()))])
      ensures Pending() == old(Pending())[LeadingDue(old(Pending()))..]
    {
      ghost var q := Pending();
      ghost var d := 0;
      var due := HeadDue();
      while due
        invariant Valid()
        invariant 0 <= d <= |q|
        invariant Pending() == q[d..]
        invariant fired == old(fired) + Fns(q[..d])
        invariant forall i :: 0 <= i < d ==> q[i].delta <= 0
        invariant due == (Pending() != [] && Pending()[0].delta <= 0)
        decreases |chain|
      {
        assert q[d] == Pending()[0];
        PopHead();
        assert q[..d + 1] == q[..d] + [q[d]];
        assert q[d + 1..] == q[d..][1..];
        d := d + 1;
        due := HeadDue();
      }
      assert d < |q| ==> q[d] == Pending()[0];
      LeadingDueUnique(q, d);
    }

    /** Unlink the head pair, free its slot and call its callback. */
    method PopHead()
      requires Valid() && head.Some?
      modifies this, nodes
      ensures Valid() && old(Pending()) != []
      ensures Pending() == old(Pending())[1..]
      ensures fired == old(fired) + [old(Pending())[0].fn]
    {
      var h := head.value;
      var fn := nodes[h].fn.value;
      ghost var ns := nodes[..];
      PopStep(ns, chain, head);
      nodes[h] := nodes[h].(fn := None);
      head := nodes[h].next;
      chain := chain[1..];
      fired := fired + [fn];
      assert nodes[..] == ns[h := ns[h].(fn := None)];
    }

    /** The expiry loop's test: the list is not empty and its head's delta
        is at most 0. */
    method HeadDue() returns (due: bool)
      requires Valid()
      ensures due == (Pending() != [] && Pending()[0].delta <= 0)
    {
      due := head.Some? && nodes[head.value].delta <= 0;
    }
  }
}
